=== FILE: README.md ===
# Te-Informo search pipeline in Dafny

This project models the query pipeline of the Te-Informo news agent.

**The routed search** (`MctsEnhanced.Search`) does the following in one call:
- reads the user's stored interests;
- widens the query with the last two context entries;
- asks five news providers at once and concatenates their settled lists in declared order;
- keeps the documents that mention an interest and caps the list at 15;
- gives the first five articles their captured page images;
- has the list analysed by a language model, whose reply is read by a direct parse, then a loose parse, then a templated fallback;
- records the turn in the conversation tree.

**The classic search** (`MctsLegacy.Search`) uses the older services: a two-provider aggregator with a search-link fallback, a brace-span reply parser, and comma-separated topic suggestions.

**Modelling choices.**
- All state is explicit and immutable.
  - The interest store is a key order plus a map.
  - The conversation tree is an arena: a list of nodes with the root at index 0 and links as indices.
  - Every service call is a pure function of its inputs.
- Everything the code reaches outside itself is a parameter:
  - downloads and markup selection, modelled as the candidates a page yields;
  - `JSON.parse`, as `string -> Option<Json>` with `None` for a throw;
  - the model call;
  - `encodeURIComponent`;
  - the page-capture service.
- `Promise.allSettled` becomes an ordered sequence of `Settled` values.
- A `try` block whose `catch` can be reached becomes an `Attempt` value.

**Modules.**
- `Wrappers`, `Seqs`, `Text` and `Decimal` model the JavaScript built-ins the code relies on: `trim` and `\s` with JavaScript's white-space set, `toLowerCase`, `includes`, `split`/`join`, `slice`, `filter`, `new Set`, and template-literal numbers.
- `Interests`, `SearchNodes`, `ConversationTree` and `QueryContext` model the interest store, the node record and the tree.
- `Documents`, `Providers`, `NewsScraper` and `NewsAggregator` model retrieval.
- `LooseJson`, `GeminiAnalyzer` and `GeminiLegacy` model report synthesis.
- `MctsEnhanced` and `MctsLegacy` model the two search services.

**Shared tree code.** The classic service's tree code (`backend/src/services/mcts.service.ts:40-48`, `114-118`, `137-188`) is line for line the same as the routed service's. Both services use `ConversationTree`, and the table cites the routed service's lines.

**Behaviour that is easy to misread.**
- **No fallback on the routed path.** When every provider fails, the routed retrieval yields no documents at all: it builds no substitute ones (`NewsScraper.NoSyntheticFallback`), and the new tree node is scored 0 (`MctsEnhanced.EmptyProvidersScoreZero`).
- **The classic aggregator's fallback is narrower.** Its scrapers catch their own failures, so failing scrapers give an empty list too (`NewsAggregator.FailedScrapersGiveNothing`). The search-link pair appears only when the aggregation block itself throws. When it does, the turn is credited as a success (`MctsLegacy.ThrowingAggregationStillRewarded`).
- **The brace extraction is greedy.** It takes everything from the first `{` to the last `}`, not the first balanced object (`LooseJson.BraceSpan`).
- **Some snippets are not cut.** For BBC, CNN and El País, the snippet is cut to 250 characters before it falls back to the headline, so a headline used as snippet keeps its full length (`Providers.OutletDoc`).
- **Sentiment is not checked.** Any non-empty sentiment string from the model is kept as is.

**Behaviour the proofs make explicit.**
- The "typographic" quote replacement only swaps plain ASCII quotes for themselves (`LooseJson.NormaliseQuotesIsIdentity`).
- The BOM strip after a trim never fires, because JavaScript's `trim` already removes U+FEFF (`LooseJson.BomStripAfterTrimIsNoop`).
- A single dangling-comma pass leaves one of two doubled commas (`LooseJson.DoubledCommaSurvives`).
- The `\n` unescaping also rewrites a JSON string's own `\n` escape into a raw line feed (`LooseJson.UnescapeBreaksStringEscapes`).

## Model

| member | source | states |
|---|---|---|
| Interests.GetOnFreshStore | backend/src/services/user-interests.service.ts:10-12 | Reading a user who was never written gives the empty list, and a fresh store has no users. |
| Interests.Write | backend/src/services/user-interests.service.ts:24 | Storing a list under a key makes that key read back the list and leaves every other key's list and presence alone. An existing key keeps its place in the key order; a new key goes last. |
| Interests.Delete | backend/src/services/user-interests.service.ts:53 | Deleting a key removes it from the map and from the key order. Every other key keeps its list, and the remaining keys keep their relative order with no repeats. |
| Interests.AddInterest | backend/src/services/user-interests.service.ts:17-27 | If a stored entry equals the trimmed interest ignoring case, the store is unchanged. Otherwise the trimmed interest, in its own case, is appended after the existing entries. Other users are untouched. |
| Interests.AddIsCaseInsensitivelyIdempotent | backend/src/services/user-interests.service.ts:21-25 | Adding a second interest equal to the first up to case and surrounding space changes nothing. |
| Interests.AddKeepsCaselessUnique | backend/src/services/user-interests.service.ts:21-25 | Adding never creates two entries equal up to case, if there were none before. |
| Interests.AddTwiceDifferingInCase | backend/src/services/user-interests.service.ts:21-25 | Adding "AI" then "ai" for a new user stores the single entry "AI". |
| Interests.RemoveInterest | backend/src/services/user-interests.service.ts:32-39 | After removal, the list is the order-preserving subsequence of the entries that differ from the (untrimmed) argument ignoring case. Each such entry keeps every copy it had, and each matching one has none left. The key is written even if absent, and other users are untouched. |
| Interests.RemoveRegistersUnknownUser | backend/src/services/user-interests.service.ts:33-37 | Removing for an unknown user registers that user, with an empty list, at the end of the user list. |
| Interests.SetInterests | backend/src/services/user-interests.service.ts:44-47 | The user's list becomes exactly the given list, with no trimming or de-duplication. Other users are untouched. |
| Interests.ClearInterests | backend/src/services/user-interests.service.ts:52-55 | After clearing, the user reads as empty and no longer appears among the users. Other users are untouched. |
| Interests.GetAllUsers | backend/src/services/user-interests.service.ts:60-62 | Each stored user is listed exactly once, and only stored users are listed. |
| SearchNodes.NewNode | backend/src/models/SearchNode.ts:13-24 | A new node keeps its query, context and parent. It starts with zero visits and zero score, has no children, and is a leaf. |
| SearchNodes.AddChild | backend/src/models/SearchNode.ts:29-31 | The child is appended after the earlier children, which keep their order. The node is no longer a leaf, and nothing else changes. |
| SearchNodes.Update | backend/src/models/SearchNode.ts:36-39 | Visits grow by one and the score by the reward, and nothing else changes. A 0/1 reward keeps the score between 0 and the visit count. |
| SearchNodes.AverageScore | backend/src/models/SearchNode.ts:44-46 | The average is 0 for an unvisited node; otherwise it times the visits gives the score. With 0/1 rewards it lies in [0, 1]. |
| ConversationTree.Reset | backend/src/services/mcts-enhanced.service.ts:95-99 | The reset tree is well formed and a chain, and its stats are 0 nodes, depth 0 and an empty path. |
| ConversationTree.CountNodes | backend/src/services/mcts-enhanced.service.ts:120-126 | A subtree counts at least its own node. |
| ConversationTree.Depth | backend/src/services/mcts-enhanced.service.ts:128-134 | A subtree's depth is at least 1 and never exceeds its node count. |
| ConversationTree.PathTo | backend/src/services/mcts-enhanced.service.ts:136-146 | The path is non-empty and ends with the node's own query. For node i it has at most i+1 entries, since parents come earlier in the arena. |
| ConversationTree.GetTreeStats | backend/src/services/mcts-enhanced.service.ts:104-118 | Without a root, the stats are all zero. With a root, the depth is between 1 and the node count, and the path is non-empty. |
| ConversationTree.Append | backend/src/services/mcts-enhanced.service.ts:51-58 | On an empty tree the turn becomes a parentless root. Otherwise it becomes the last child of the current node, with that node as parent. Either way it becomes current, no other node changes, and the tree stays well formed. |
| ConversationTree.RecordOutcome | backend/src/services/mcts-enhanced.service.ts:60 | Only the current node changes: it is updated once, with reward 1 exactly when the search succeeded. |
| ConversationTree.Record | backend/src/services/mcts-enhanced.service.ts:51-60 | One search keeps the tree well formed. |
| ConversationTree.AppendKeepsChain | backend/src/services/mcts-enhanced.service.ts:51-58 | Appending to a chain gives a chain: each node's parent is the one before it, its only child the one after it, and the last node is current. |
| ConversationTree.ChainShape | backend/src/services/mcts-enhanced.service.ts:51-58 | In a chain, every node has at most one child, and a node is a leaf exactly when it is current. |
| ConversationTree.ChainCount | backend/src/services/mcts-enhanced.service.ts:120-134 | On a chain, the node count and the depth below node i both equal the number of nodes from i to the end. |
| ConversationTree.ChainPath | backend/src/services/mcts-enhanced.service.ts:136-146 | On a chain, the path to node i is the queries of nodes 0..i in order. |
| ConversationTree.ChainStats | backend/src/services/mcts-enhanced.service.ts:104-118 | On a chain of k nodes, the stats report k nodes, depth k, and every query in order. |
| ConversationTree.RecordKeepsChain | backend/src/services/mcts-enhanced.service.ts:51-60 | A search, crediting included, keeps the tree a chain. |
| ConversationTree.RecordStep | backend/src/services/mcts-enhanced.service.ts:51-60 | On a chain, a search adds one node holding its query and context, with one visit and score 1 exactly on success. Earlier nodes keep their turns and counts. |
| ConversationTree.RecordedTurn | backend/src/services/mcts-enhanced.service.ts:51-60 | On a chain, a search leaves a chain one node longer whose newest node is the current one and holds that search's turn. |
| ConversationTree.ReplayBuildsChain | backend/src/services/mcts-enhanced.service.ts:51-60 | After k searches on a chain, the tree is a chain grown by k nodes. The i-th new node holds the i-th turn, visited once and scored by its success, and older nodes are unchanged. |
| ConversationTree.StatsAfterSearches | backend/src/services/mcts-enhanced.service.ts:104-118 | Reset followed by k searches gives stats of k nodes, depth k, and the k queries in call order. |
| ConversationTree.ThreeTurnScenario | backend/src/services/mcts-enhanced.service.ts:51-58 | Searches "q1", "q2", "q3" after a reset give 3 nodes, depth 3 and the path q1, q2, q3. |
| QueryContext.LastTwo | backend/src/services/mcts-enhanced.service.ts:88 | The result is the last two context entries, or all of them when there are fewer. |
| QueryContext.BuildQueryWithContext | backend/src/services/mcts-enhanced.service.ts:84-90 | With no context, the query is unchanged. Otherwise it is the query, a space, and the last one or two context entries separated by a space, so the original query is always a prefix. |
| Documents.AbsoluteLink | backend/src/services/news-scraper.service.ts:119-121 | A link starting with "http" is kept. Any other link becomes exactly the host followed by the link: the host is a prefix, the link a suffix, and the length is their sum. An http host gives an http result. |
| Documents.AbsoluteLinkIdempotent | backend/src/services/news-scraper.service.ts:119-121 | Resolving an already resolved link against an http host changes nothing. |
| Providers.GoogleDoc | backend/src/services/news-scraper.service.ts:111-130 | A Google News document keeps the headline and image, and its link is resolved against news.google.com. Its snippet is the first min(limit, length) characters of the paragraph, or of the headline when there is no paragraph. Its source is the byline, and "Google News" when the byline is empty. |
| Providers.OutletDoc | backend/src/services/news-scraper.service.ts:160-176 | An outlet document carries the outlet's name and a resolved link. With a paragraph and a positive limit, its snippet is the first min(limit, length) characters of the paragraph. Otherwise the cut is empty and the snippet is the headline, uncut. |
| Providers.Harvest | backend/src/services/news-scraper.service.ts:108-132 | At most `cap` documents come back, one per usable candidate (headline and link present) among the first `cap`. Each comes from such a candidate, and every such candidate is shaped into the result. |
| Providers.HarvestSnoc | backend/src/services/news-scraper.service.ts:108-132 | No cards give no documents. A card within the cap adds its document after those of the earlier cards, exactly when it is usable. A card past the cap adds nothing. This fixes the order and the copies of the result. |
| Providers.HarvestWithinCap | backend/src/services/news-scraper.service.ts:108-132 | Below the cap, a new card's document, when it is usable, goes after the documents of the earlier cards. |
| Providers.VideoDoc | backend/src/services/news-scraper.service.ts:308-326 | A video document has a watch URL built from the id, and a snippet that is the first min(limit, length) characters of the description. Its source is "YouTube - " plus the channel, and its image is the thumbnail. |
| Providers.VideoDocs | backend/src/services/news-scraper.service.ts:305-327 | A document is in the result exactly when it is the document of a playable renderer among the items. Each is a video with a title, a watch URL and a bounded snippet. |
| Providers.VideoDocsCount | backend/src/services/news-scraper.service.ts:305-327 | There is one document per playable item. |
| Providers.VideoDocsAppend | backend/src/services/news-scraper.service.ts:302-328 | The documents of two item runs read one after the other are the documents of each, concatenated. |
| Providers.YouTubeVideos | backend/src/services/news-scraper.service.ts:300-330 | At most `cap` videos, all with watch URLs and bounded snippets. |
| Providers.CollectStep | backend/src/services/news-scraper.service.ts:305-327 | Below the cap, one more item adds exactly its document, if it is playable, to what is kept. |
| Providers.CollectVideos | backend/src/services/news-scraper.service.ts:302-328 | The nested loop, whose break leaves only the inner loop, still returns exactly the first `cap` playable videos across all sections. |
| Providers.CollectSection | backend/src/services/news-scraper.service.ts:305-327 | One section's inner loop, with its early break, extends the kept videos to exactly the first `cap` of everything read so far. |
| NewsScraper.SearchGoogleNews | backend/src/services/news-scraper.service.ts:95-139 | One article per usable card among the first 10: every such card's article is present, and each article is the shaped form of such a card. Each has a headline, a source, an http link and a snippet of at most 250 characters. A failed page gives none. |
| NewsScraper.SearchOutlet | backend/src/services/news-scraper.service.ts:144-185 | One article per usable card among the first 5: every such card's article is present, and each article is the shaped form of such a card, with the headline as snippet when the card has no paragraph. Each is tagged with the outlet and has an http link and a non-empty snippet. A failed page gives none. |
| NewsScraper.SearchYouTube | backend/src/services/news-scraper.service.ts:282-335 | At most 3 videos, with watch URLs and snippets of at most 250 characters. A failed page gives none. |
| NewsScraper.Outcomes | backend/src/services/news-scraper.service.ts:33-39 | The five providers settle, in declared order, and all are fulfilled. |
| NewsScraper.Fuse | backend/src/services/news-scraper.service.ts:42-49 | When no settled provider contributes anything, the fused list is empty. |
| NewsScraper.FuseInDeclaredOrder | backend/src/services/news-scraper.service.ts:42-49 | Fusing concatenates contributions in the order the providers were listed. |
| NewsScraper.FuseCons | backend/src/services/news-scraper.service.ts:42-49 | A fulfilled provider's list comes before those of the providers after it. |
| NewsScraper.FuseFive | backend/src/services/news-scraper.service.ts:33-49 | When all five scrapers settle fulfilled, the flattened candidates are their lists concatenated in call order. |
| NewsScraper.FuseOfProviders | backend/src/services/news-scraper.service.ts:33-49 | Before filtering, the candidates are Google's, then BBC's, CNN's, El País's and YouTube's. |
| NewsScraper.FilterByInterests | backend/src/services/news-scraper.service.ts:340-349 | With no interests, everything is kept. Otherwise the kept documents are those whose lower-cased title, a space and snippet contain some lower-cased interest, each with every copy it had, in their original order. |
| NewsScraper.Enrich | backend/src/services/news-scraper.service.ts:75-90 | Only images change. Among the first `budget` articles (five in `searchNews`), each with a non-empty captured image gets it. Every other document, videos included, is unchanged. |
| NewsScraper.CaptureTargets | backend/src/services/news-scraper.service.ts:63 | At most five URLs are sent to capture. |
| NewsScraper.SearchNews | backend/src/services/news-scraper.service.ts:26-70 | A throw gives no documents. Otherwise the result is the first 15 of the fused, interest-filtered list. Among the first five articles, each with a captured image gets it as its image, and every other document is unchanged. There are never more than 15, and with interests every one is relevant. |
| NewsScraper.SelectedIsFilter | backend/src/services/news-scraper.service.ts:52-56 | Guarding the filter by non-empty interests changes nothing, since the filter with no interests is the identity. |
| NewsScraper.NoSyntheticFallback | backend/src/services/news-scraper.service.ts:42-69 | When every provider is rejected or empty, the search returns no documents. |
| NewsAggregator.ScrapeGoogleNews | backend/src/services/news-aggregator.service.ts:55-99 | One article per usable card among the first 8: every such card's article is present, and each article is the shaped form of such a card. Snippets are at most 200 characters. A failed page gives none. |
| NewsAggregator.ScrapeYouTube | backend/src/services/news-aggregator.service.ts:104-159 | At most 5 videos with watch URLs and snippets of at most 200 characters. A failed page gives none. |
| NewsAggregator.FallbackNews | backend/src/services/news-aggregator.service.ts:164-181 | Exactly two documents: an article from "Búsqueda Google" and a video from "YouTube". Both have titles and snippets that mention the query, no image, and search URLs built from the encoded query. |
| NewsAggregator.FetchNews | backend/src/services/news-aggregator.service.ts:24-50 | The result is the fulfilled Google documents followed by the fulfilled YouTube documents. The search-link pair comes back only when the block throws. |
| NewsAggregator.Outcomes | backend/src/services/news-aggregator.service.ts:29-32 | Both scrapers settle fulfilled. |
| NewsAggregator.FailedScrapersGiveNothing | backend/src/services/news-aggregator.service.ts:35-49 | Two failed scrapers give an empty list, not the search-link pair. |
| NewsAggregator.AggregatedShape | backend/src/services/news-aggregator.service.ts:29-45 | The aggregate holds at most 13 documents: at most 8 articles followed by videos only. |
| LooseJson.StripBom | backend/src/services/gemini-analyzer.service.ts:22 | A leading byte-order mark, and nothing else, is removed. |
| LooseJson.BomStripAfterTrimIsNoop | backend/src/services/gemini-analyzer.service.ts:17-22 | After the trim, the byte-order-mark strip never changes the text. |
| LooseJson.StripJsonTag | backend/src/services/gemini-analyzer.service.ts:22 | A leading "json" in any case goes together with only the white space after it, and what remains starts with a non-space. Text without the tag is unchanged. |
| LooseJson.StripWrappingQuotes | backend/src/services/gemini-analyzer.service.ts:25-27 | Text wrapped in a matching pair of straight quotes loses exactly those two characters; a lone quote leaves the empty text. Any other text is unchanged. |
| LooseJson.TaggedOpenerEnd | backend/src/services/gemini-analyzer.service.ts:31 | A "```json" opener, in any case, and the space after it are skipped. Without that opener nothing is skipped. |
| LooseJson.BareOpenerEnd | backend/src/services/gemini-analyzer.service.ts:31 | A bare "```" opener and the space after it are skipped. Without that opener nothing is skipped. |
| LooseJson.BodyStart | backend/src/services/gemini-analyzer.service.ts:31 | Fenced text loses at least its three-backtick opener. |
| LooseJson.StripFences | backend/src/services/gemini-analyzer.service.ts:30-35 | Text not starting with a fence is unchanged. For fenced text, the result is what follows the openers with one closing fence at the very end removed; when no fence ends it, the result is that text unchanged. |
| LooseJson.NormaliseQuotes | backend/src/services/gemini-analyzer.service.ts:38-40 | Each character maps to itself, since the quote classes hold only plain quotes. |
| LooseJson.NormaliseQuotesIsIdentity | backend/src/services/gemini-analyzer.service.ts:38-40 | The quote step leaves every text unchanged. |
| LooseJson.DropDanglingCommas | backend/src/services/gemini-analyzer.service.ts:43-45 | The result is never longer, and text without a comma is unchanged. |
| LooseJson.DanglingCommaDropped | backend/src/services/gemini-analyzer.service.ts:43-45 | Each match of a comma, any white space, then the closing bracket is replaced by the bracket alone. The text on either side is processed as if the match were not there. |
| LooseJson.NoDanglingCommaKept | backend/src/services/gemini-analyzer.service.ts:43-45 | Text in which no position starts such a match is returned unchanged. |
| LooseJson.DropDanglingCommasSplit | backend/src/services/gemini-analyzer.service.ts:43-45 | The replacement never carries a match across a comma: text starting with a comma is processed on its own, whatever precedes it. |
| LooseJson.DropDanglingCommasKeepsContent | backend/src/services/gemini-analyzer.service.ts:43-45 | Only commas and white space are removed: the other characters, in order, are exactly those of the input. |
| LooseJson.DoubledCommaSurvives | backend/src/services/gemini-analyzer.service.ts:43-45 | One pass over ",,}" leaves ",}", and one over ",}" leaves "}". |
| LooseJson.UnescapeNewlines | backend/src/services/gemini-analyzer.service.ts:48 | The result is never longer and holds no backslash followed by n. Text without a backslash is unchanged, and a leading escape becomes a line feed. |
| LooseJson.UnescapeRoundTrip | backend/src/services/gemini-analyzer.service.ts:48 | On text holding no line feed, writing the produced line feeds back as `\n` escapes gives the original text: the step turns exactly the escapes into line feeds. |
| LooseJson.UnescapeWithoutEscapes | backend/src/services/gemini-analyzer.service.ts:48 | Text with no escaped line feed passes unchanged. |
| LooseJson.UnescapeIdempotent | backend/src/services/gemini-analyzer.service.ts:48 | A second pass changes nothing. |
| LooseJson.UnescapeBreaksStringEscapes | backend/src/services/gemini-analyzer.service.ts:48 | A JSON string's own escape is also rewritten: the string "a\nb" gets a raw line feed. |
| LooseJson.Clean | backend/src/services/gemini-analyzer.service.ts:38-48 | The clean-up steps after the fence step never lengthen the text. |
| LooseJson.CleanKeepsPlainText | backend/src/services/gemini-analyzer.service.ts:38-48 | Text with no comma and no backslash passes those steps unchanged. |
| LooseJson.Normalise | backend/src/services/gemini-analyzer.service.ts:17-48 | The whole normalisation never lengthens the reply. |
| LooseJson.BacktickedPassesUnchanged | backend/src/services/gemini-analyzer.service.ts:17-27 | Text that begins and ends with a backtick reaches the fence step unchanged. |
| LooseJson.FenceStepOnObject | backend/src/services/gemini-analyzer.service.ts:30-35 | An object in a "```json" block keeps itself and the line break before the closing fence. |
| LooseJson.OpenerOnLine | backend/src/services/gemini-analyzer.service.ts:31 | After "```json" and a line break, the body starts at the object's first brace. |
| LooseJson.FencedObject | backend/src/services/gemini-analyzer.service.ts:17-48 | A reply that is an object in a "```json" block normalises to the cleaned object with its trailing line break. |
| LooseJson.TagStepOnObject | backend/src/services/gemini-analyzer.service.ts:17-22 | "json " before an object leaves the object after the tag step. |
| LooseJson.TrimmedPassesUnchanged | backend/src/services/gemini-analyzer.service.ts:17-22 | Text without space at either end passes the trim and the byte-order-mark strip unchanged. |
| LooseJson.TaggedObject | backend/src/services/gemini-analyzer.service.ts:17-48 | "json " before an object normalises to the cleaned object. |
| LooseJson.BracedPassesUnchanged | backend/src/services/gemini-analyzer.service.ts:25-35 | An object in braces passes the quote and fence steps unchanged. |
| LooseJson.BracePairBounds | backend/src/services/gemini-analyzer.service.ts:61 | Some `}` follows some `{` exactly when the first `{` comes before the last `}`. |
| LooseJson.BraceSpan | backend/src/services/gemini-analyzer.service.ts:61 | A span exists exactly when a `}` follows a `{`. It is a substring that starts with `{` and ends with `}`, with no `{` before it and no `}` after it. |
| LooseJson.TryParseLoose | backend/src/services/gemini-analyzer.service.ts:15-75 | An empty reply gives null. Otherwise the result is the parse of the normalised text, or, when that throws, the parse of its brace span, else null. A non-null result is the parse of some text no longer than the reply. |
| GeminiAnalyzer.FromFields | backend/src/services/gemini-analyzer.service.ts:182-188 | Present fields are taken, and missing ones become "", [] and "neutral". Missing suggestions fall back to recommendations, then []. The sentiment is never empty. |
| GeminiAnalyzer.EmptyObjectGivesDefaults | backend/src/services/gemini-analyzer.service.ts:182-188 | An object with none of the properties reads as all defaults. |
| GeminiAnalyzer.EmptySuggestionsShadowRecommendations | backend/src/services/gemini-analyzer.service.ts:185 | An empty suggestions array is truthy and is kept, even when recommendations exist. |
| GeminiAnalyzer.FromJson | backend/src/services/gemini-analyzer.service.ts:179-188 | A falsy parsed value reads as all defaults, and the sentiment is never empty. |
| GeminiAnalyzer.Sources | backend/src/services/gemini-analyzer.service.ts:222 | Every article's source is listed, only article sources are listed, none twice, and in order of each source's first appearance among the articles. |
| GeminiAnalyzer.FallbackSummary | backend/src/services/gemini-analyzer.service.ts:226-232 | The templated summary mentions the query, the first article's title, and each of the first three distinct sources. |
| GeminiAnalyzer.SummaryMentions | backend/src/services/gemini-analyzer.service.ts:226-232 | Each part of the summary template keeps what it mentions once the parts are joined. |
| GeminiAnalyzer.FallbackSuggestions | backend/src/services/gemini-analyzer.service.ts:235-240 | There are exactly four suggestions, each containing the query. |
| GeminiAnalyzer.Headlines | backend/src/services/gemini-analyzer.service.ts:244 | The titles of the first n articles, in order. |
| GeminiAnalyzer.LeadingIndices | backend/src/services/gemini-analyzer.service.ts:247 | The positions 0, 1, … of the first n articles. |
| GeminiAnalyzer.FallbackAnalysis | backend/src/services/gemini-analyzer.service.ts:221-249 | The summary mentions the query and the first title. The key points are the first ≤5 titles, and there are four suggestions around the query. The sentiment is neutral and the relevant articles are 0..min(3,n)-1. |
| GeminiAnalyzer.ArticleBlock | backend/src/services/gemini-analyzer.service.ts:134-136 | An article block starts with its number from 1 in brackets and contains the title and the URL. |
| GeminiAnalyzer.ArticleNumberReadsBack | backend/src/services/gemini-analyzer.service.ts:134-136 | The digits between "[" and the first "]" read back as the article's position plus one. |
| GeminiAnalyzer.NewsContext | backend/src/services/gemini-analyzer.service.ts:134-136 | Every article's numbered block appears in the news context. |
| GeminiAnalyzer.InterestsLine | backend/src/services/gemini-analyzer.service.ts:138-140 | The interests line is present exactly when there are interests, and then names every one. |
| GeminiAnalyzer.Prompt | backend/src/services/gemini-analyzer.service.ts:143-162 | The prompt contains the query, every numbered article block and every interest. |
| GeminiAnalyzer.AnalyzeNews | backend/src/services/gemini-analyzer.service.ts:108-216 | The order is: no client or a failed request gives the fallback; a non-null direct parse is used; otherwise the loose parse is used if truthy; otherwise the fallback. The report is always the fallback or read off a parsed value. |
| GeminiAnalyzer.Interpret | backend/src/services/gemini-analyzer.service.ts:174-215 | The report read off a reply is the fallback or is read off a parsed value that is not `null`, and it has a sentiment whenever the fallback does. |
| GeminiAnalyzer.NullReplyTakesLoosePath | backend/src/services/gemini-analyzer.service.ts:179-203 | A reply that parses to null takes the loose path, as a throwing one does. |
| GeminiAnalyzer.FencedReplyIsRead | backend/src/services/gemini-analyzer.service.ts:189-203 | A fenced "```json" reply that the direct parse rejects is read as the object inside the fences. |
| GeminiLegacy.ErrorAnalysis | backend/src/services/gemini.service.ts:84-93 | The summary names the article count and the query, the key points are the first ≤5 titles, and the recommendations are the fixed three topics. |
| GeminiLegacy.ArticleLine | backend/src/services/gemini.service.ts:27-29 | An article line starts with its number from 1 and a period, and contains the title. |
| GeminiLegacy.Prompt | backend/src/services/gemini.service.ts:31-45 | The prompt contains the query and every numbered article line. |
| GeminiLegacy.AnalyzeNews | backend/src/services/gemini.service.ts:20-94 | A failed request, or a span that throws or parses to null, gives the error analysis. No brace span makes the reply the summary. A falsy parse gives the default summary, and a truthy one is read with defaults. An empty summary only comes from an empty reply. |
| GeminiLegacy.FromFields | backend/src/services/gemini.service.ts:71-75 | A missing or empty summary becomes "No se pudo generar resumen", and missing lists become empty. Only recommendations are read. |
| GeminiLegacy.SuggestionsAreIgnored | backend/src/services/gemini.service.ts:71-75 | A suggestions property does not affect this service's result. |
| GeminiLegacy.Pieces | backend/src/services/gemini.service.ts:121 | Splitting on commas gives at least one piece, and every piece is trimmed and comma-free. Piece i is the i-th comma-separated part, trimmed. |
| GeminiLegacy.Topics | backend/src/services/gemini.service.ts:121-123 | At most five topics, each non-empty, trimmed and comma-free. |
| GeminiLegacy.GenerateSearchSuggestions | backend/src/services/gemini.service.ts:99-128 | A failed request gives no suggestions. Otherwise the suggestions are the topics of the reply: at most five non-empty trimmed pieces. |
| GeminiLegacy.SuggestionPrompt | backend/src/services/gemini.service.ts:101 | The suggestion prompt contains the query. |
| GeminiLegacy.PiecesOfJoin | backend/src/services/gemini.service.ts:121 | Splitting comma-joined trimmed comma-free pieces gives them back. |
| GeminiLegacy.TopicsShape | backend/src/services/gemini.service.ts:121-123 | From trimmed, comma-free pieces, the first five non-empty ones are kept, each still trimmed and comma-free. |
| GeminiLegacy.PiecesOfParts | backend/src/services/gemini.service.ts:121 | For any comma-free parts joined by commas, the pieces are exactly those parts, trimmed, in order. |
| GeminiLegacy.TopicsOfParts | backend/src/services/gemini.service.ts:120-123 | For any comma-free parts joined by commas, the topics are the parts trimmed, with the empty ones dropped, in order, and at most the first five kept. |
| GeminiLegacy.TopicsRoundTrip | backend/src/services/gemini.service.ts:121-123 | Up to five non-empty, trimmed, comma-free topics joined by commas come back as the same topics. |
| MctsLegacy.GenerateSuggestions | backend/src/services/mcts.service.ts:89-109 | At most five, an order-preserving subsequence of the keywords. With at least three fresh keywords (none contained, ignoring case, in the query or a context entry), it is the first five of them, or all when there are fewer. Otherwise it is the first five keywords. |
| MctsLegacy.AllFreshKeepsOrder | backend/src/services/mcts.service.ts:98-108 | When every keyword is fresh, the suggestions are the first five keywords. |
| MctsLegacy.Search | backend/src/services/mcts.service.ts:18-70 | Aggregation and analysis get the widened query, and suggestions get the original query and context. The tree records the original turn, credited exactly when documents came back. |
| MctsLegacy.SearchKeepsChain | backend/src/services/mcts.service.ts:40-48 | A classic search keeps the tree a chain, and the new current node holds the original query and context. |
| MctsLegacy.ThrowingAggregationStillRewarded | backend/src/services/mcts.service.ts:34-57 | When aggregation throws, two search links come back and the turn is credited as a success. |
| MctsLegacy.UnreachableModelSuggestsFixedTopics | backend/src/services/mcts.service.ts:37-54 | With the model unreachable, the suggestions are the fixed topics. |
| MctsEnhanced.Search | backend/src/services/mcts-enhanced.service.ts:16-79 | The user's interests and the widened query drive retrieval and analysis, and the suggestions are the analysis's. At most 15 results come back. The tree records the original turn, credited exactly when documents came back. |
| MctsEnhanced.SearchKeepsChain | backend/src/services/mcts-enhanced.service.ts:50-60 | A routed search keeps the tree a chain. The new current node holds the original query and context, with one visit and score 1 exactly when results are non-empty. |
| MctsEnhanced.ResultsFromProviders | backend/src/services/mcts-enhanced.service.ts:36-40 | With retrieval wired to the five providers' pages, the results are, image aside, the first 15 selected documents of Google's, BBC's, CNN's, El País's and YouTube's results, in that order. |
| MctsEnhanced.EmptyProvidersScoreZero | backend/src/services/mcts-enhanced.service.ts:40-60 | With every provider rejected or empty there are no results, and the new node scores 0. |
| Decimal.NatToString | backend/src/services/gemini-analyzer.service.ts:135 | A rendered number is a non-empty run of digits without a leading zero, except for 0 itself. |
| Decimal.NatToStringRoundTrip | backend/src/services/gemini-analyzer.service.ts:135 | Reading the rendered digits back gives the number. |
| Decimal.NatToStringInjective | backend/src/services/gemini-analyzer.service.ts:135 | Different numbers are rendered differently. |
| Text.Trim | backend/src/services/user-interests.service.ts:21 | The result has no white space at either end, and trimmed text is unchanged. It is empty exactly when the input is all white space. |
| Text.TrimStart | backend/src/services/gemini-analyzer.service.ts:22 | Only a leading run of white space is dropped, and the result starts with a non-space. |
| Text.Lower | backend/src/services/user-interests.service.ts:35 | Lower-casing maps character by character and keeps the length. |
| Text.LowerIdempotent | backend/src/services/user-interests.service.ts:35 | Lower-casing twice is lower-casing once. |
| Text.Split | backend/src/services/gemini.service.ts:121 | At least one piece, none containing the separator, and joining them with the separator gives the text back. |
| Text.SplitJoin | backend/src/services/gemini.service.ts:121 | Splitting separator-free pieces joined by the separator gives them back. |
| Seqs.Take | backend/src/services/news-scraper.service.ts:59 | `slice(0, n)`: the first min(n, length) elements. |
| Seqs.Filter | backend/src/services/user-interests.service.ts:34-36 | The elements meeting the test, each with as many copies as the input has, and none of the others, as an order-preserving subsequence. |
| Seqs.FilterCount | backend/src/services/user-interests.service.ts:34-36 | The filtered list is as long as the number of positions whose element meets the test. |
| Seqs.Dedup | backend/src/services/gemini-analyzer.service.ts:222 | Every element once, no repeats, in order of first appearance. |

## Left out

- **Downloads, markup selection and the YouTube page data.** axios, cheerio selectors, the `ytInitialData` regular expression and its `JSON.parse` are not modelled. A provider's page arrives as the candidates its selectors would find, in page order (`Providers.Card`, `Providers.VideoItem`), or as `None` when the request or parse fails. URL encoding of the query in the request URL is not modelled either.
- **`JSON.parse`, `encodeURIComponent`, the model call and the page-capture service.** These are function parameters. `initGemini` and the `GEMINI_API_KEY` lookup are the `configured` flag. The capture service's batching, timers and file output (`screenshot.service.ts`) are left out; its result is an optional map from URL to image.
- **Property types of the parsed reply.** Only the properties the code reads are represented, as strings, string lists or integer lists. A property holding some other truthy value (a number where a string is expected, say) is passed through as is by the code; the model does not represent it.
- **Object identity.** The interest service stores and returns arrays by reference. For example, `setInterests` keeps the caller's array, and a later `addInterest` mutates it in place. The model stores values.
- **String length in UTF-16 units.** JavaScript measures `substring(0, 250)` and `length` in UTF-16 code units; the model counts characters. They differ only for characters outside the Basic Multilingual Plane.
- **Unicode case mapping.** `toLowerCase` is modelled for ASCII and Latin-1 letters only; other characters map to themselves.
- **Floating point.** `getAverageScore` is modelled as an exact rational (`real`).
- **Concurrency.** `Promise.allSettled` and request timeouts become an ordered sequence of settled outcomes.
- **Service singletons.** The service instances' mutable state is passed explicitly as the store and the tree.
- **Default arguments.** Default parameter values (`context = []`, `userId = 'default'`) are explicit arguments.
- **Logging** (`console.*`) throughout is not modelled.
- **Plumbing outside the core.** Controllers, routes, the server, the frontend, `list-models.js` and `verify-env.js` are HTTP plumbing, UI or environment scripts.
- **`extractArticleContent`** (`news-scraper.service.ts:354-373`) is not called by either search path.
- **Accessors.** `getCurrentNode` and `getRootNode` (`mcts.service.ts:123-132`) are the tree's `current` and `root` fields.
- **`generateSuggestions`** (`mcts.service.ts:89-109`) is modelled, but the classic `search` never calls it; it is not wired into `MctsLegacy.Search`.
- **Weaker contracts, listed by member:**
  - `LooseJson.Normalise`: its own contract gives only the length bound. What each step does is stated by the step functions' contracts and by `FencedObject`, `TaggedObject` and `CleanKeepsPlainText`.
  - `LooseJson.Clean`: the same. Its steps are characterised separately: the quote step by `NormaliseQuotesIsIdentity`, the comma step by `DanglingCommaDropped` and `NoDanglingCommaKept`, and the escape step by `UnescapeWithoutEscapes` and `UnescapeRoundTrip`.
  - `LooseJson.DropDanglingCommas`: the contract gives the length bound and the comma-free case. Which commas go is stated by `DanglingCommaDropped` (each match is replaced by its bracket) and `NoDanglingCommaKept` (text without a match is kept). `DropDanglingCommasKeepsContent` adds only that nothing but commas and white space is removed.
  - `ConversationTree.CountNodes`, `ConversationTree.Depth`, `ConversationTree.PathTo`, `ConversationTree.GetTreeStats`: on arbitrary trees they state only bounds. The exact values on the trees the services build are stated by `ChainCount`, `ChainPath`, `ChainStats` and `StatsAfterSearches`.
  - `ConversationTree.Record`: its contract gives only the class invariant. Its effect is stated by `RecordStep`.
  - `NewsScraper.Fuse`: its contract gives only the empty case. Its order is stated by `FuseInDeclaredOrder` and `FuseOfProviders`.
  - `NewsScraper.CaptureTargets`: its contract gives only the count. Which URLs are chosen is stated through `NewsScraper.Enrich`, which gives images only to the first five articles.

=== FILE: analyzer.dfy ===
/**
 * The report synthesis of the routed search: a prompt built from the articles, the model's
 * reply read by a direct parse, then a loose parse, then a templated fallback. The model and
 * `JSON.parse` are parameters.
 */
module GeminiAnalyzer {
  import opened Wrappers
  import opened Seqs
  import opened Text
  import opened Decimal
  import opened Documents
  import opened LooseJson

  /** What `analyzeNews` returns. */
  datatype Report = Report(
    summary: string,
    keyPoints: seq<string>,
    suggestions: seq<string>,
    sentiment: string,
    relevantArticles: seq<int>)

  /** Every field at its default: what a falsy parsed value yields. */
  const Defaults: Report := Report("", [], [], "neutral", [])

  /** The `||` defaults applied to a parsed object: a missing summary is empty, missing lists
      are empty, missing suggestions fall back to `recommendations`, and a missing or empty
      sentiment is "neutral". */
  function FromFields(f: Fields): (r: Report)
    ensures f.summary.Some? ==> r.summary == f.summary.value
    ensures f.summary.None? ==> r.summary == ""
    ensures f.keyPoints.Some? ==> r.keyPoints == f.keyPoints.value
    ensures f.keyPoints.None? ==> r.keyPoints == []
    ensures f.suggestions.Some? ==> r.suggestions == f.suggestions.value
    ensures f.suggestions.None? && f.recommendations.Some? ==> r.suggestions == f.recommendations.value
    ensures f.suggestions.None? && f.recommendations.None? ==> r.suggestions == []
    ensures r.sentiment != ""
    ensures f.sentiment.Some? && f.sentiment.value != "" ==> r.sentiment == f.sentiment.value
    ensures f.relevantArticles.Some? ==> r.relevantArticles == f.relevantArticles.value
    ensures f.relevantArticles.None? ==> r.relevantArticles == []
  {
    Report(
      f.summary.GetOr(""),
      f.keyPoints.GetOr([]),
      if f.suggestions.Some? then f.suggestions.value else f.recommendations.GetOr([]),
      if f.sentiment.Some? && f.sentiment.value != "" then f.sentiment.value else "neutral",
      f.relevantArticles.GetOr([]))
  }

  /** An object with none of the properties reads as the defaults. */
  lemma EmptyObjectGivesDefaults()
    ensures FromFields(Fields(None, None, None, None, None, None)) == Defaults
  {
  }

  /** An empty `suggestions` array is truthy: it is kept and `recommendations` is not read. */
  lemma EmptySuggestionsShadowRecommendations(f: Fields)
    requires f.suggestions == Some([]) && f.recommendations.Some? && f.recommendations.value != []
    ensures FromFields(f).suggestions == []
  {
  }

  /** The report read off a parsed value that is not `null`. */
  function FromJson(j: Json): (r: Report)
    requires j != JNull
    ensures j == JFalsy ==> r == Defaults
    ensures r.sentiment != ""
  {
    match j
    case JFalsy => Defaults
    case JTruthy(f) => FromFields(f)
  }

  const SummaryClosing: string :=
    ". Este tema ha generado considerable interés en los últimos días debido a su relevancia actual.\n\n"
    + "Según los expertos y analistas consultados, este es un tema que requiere atención especial por sus "
    + "implicaciones a corto y largo plazo. Los diferentes medios han abordado el tema desde múltiples "
    + "perspectivas, ofreciendo análisis complementarios.\n\n"
    + "Es importante seguir de cerca los desarrollos futuros relacionados con este tema, ya que podría "
    + "tener impactos significativos en diversos sectores."

  /** The source of every article, in article order. */
  function SourceList(articles: seq<Doc>): (r: seq<string>)
    ensures |r| == |articles| && forall i :: 0 <= i < |articles| ==> r[i] == articles[i].source
    decreases |articles|
  {
    if |articles| == 0 then [] else [articles[0].source] + SourceList(articles[1..])
  }

  /** The distinct sources of the articles, in order of first appearance. */
  function Sources(articles: seq<Doc>): (r: seq<string>)
    ensures forall i :: 0 <= i < |articles| ==> articles[i].source in r
    ensures forall i :: 0 <= i < |r| ==> exists k :: 0 <= k < |articles| && articles[k].source == r[i]
    ensures forall i, j :: 0 <= i < j < |r| ==> r[i] != r[j]
    ensures forall i, j :: 0 <= i < j < |r| ==>
              r[i] in SourceList(articles) && r[j] in SourceList(articles)
              && FirstIndex(SourceList(articles), r[i]) < FirstIndex(SourceList(articles), r[j])
  {
    var all := SourceList(articles);
    var r := Dedup(all);
    assert forall i :: 0 <= i < |r| ==> r[i] in all;
    r
  }

  /** The headline the fallback summary opens with. */
  function Lead(articles: seq<Doc>): string {
    if |articles| > 0 && articles[0].title != "" then articles[0].title else "Información actualizada"
  }

  /** The templated summary of `createFallbackAnalysis`. */
  function FallbackSummary(articles: seq<Doc>, query: string): (r: string)
    ensures Contains(r, query)
    ensures |articles| > 0 ==> Contains(r, articles[0].title)
    ensures forall i :: 0 <= i < Min(3, |Sources(articles)|) ==> Contains(r, Sources(articles)[i])
  {
    var sources := Sources(articles);
    var snippet := if |articles| > 0 then articles[0].snippet else "";
    var more := if |sources| > 3 then " y otros medios reconocidos" else "";
    var head := "Esto es lo que encontré sobre \"" + query + "\": ";
    var lead := Lead(articles);
    var list := Join(Take(sources, 3), ", ");
    var tail := ". " + snippet + "\n\nLas fuentes consultadas incluyen " + list + (more + SummaryClosing);
    var r := head + lead + tail;
    ContainsInfix("Esto es lo que encontré sobre \"", query, "\": ");
    SummaryMentions(head, lead, ". " + snippet + "\n\nLas fuentes consultadas incluyen ", list, more + SummaryClosing, query, sources);
    assert |articles| > 0 && articles[0].title == "" ==> Contains(r, articles[0].title) by {
      if |articles| > 0 && articles[0].title == "" { assert IsPrefix(articles[0].title, r); }
    }
    r
  }

  /** The occurrences the templated summary guarantees, on its three parts: the query inside
      the opening, the lead headline, and each of the first three sources inside the list. */
  lemma SummaryMentions(head: string, lead: string, pre: string, list: string, post: string, query: string, sources: seq<string>)
    requires Contains(head, query)
    requires list == Join(Take(sources, 3), ", ")
    ensures var tail := pre + list + post;
            Contains(head + lead + tail, query) && Contains(head + lead + tail, lead)
            && forall i :: 0 <= i < Min(3, |sources|) ==> Contains(head + lead + tail, sources[i])
  {
    var tail := pre + list + post;
    ContainsExtendRight(head, lead, query);
    ContainsExtendRight(head + lead, tail, query);
    ContainsSelf(lead);
    ContainsWithin(head, lead, tail, lead);
    forall i | 0 <= i < Min(3, |sources|) ensures Contains(head + lead + tail, sources[i]) {
      assert Take(sources, 3)[i] == sources[i];
      JoinContainsEach(Take(sources, 3), ", ", i);
      ContainsWithin(pre, list, post, sources[i]);
      ContainsExtendLeft(head + lead, tail, sources[i]);
    }
  }

  /** The four templated search suggestions, each built around the query. */
  function FallbackSuggestions(query: string): (r: seq<string>)
    ensures |r| == 4 && forall i :: 0 <= i < 4 ==> Contains(r[i], query)
  {
    var r := [ "¿Cuáles son las últimas noticias sobre " + query + "?",
               "Impacto de " + query + " en la economía",
               "Análisis de expertos sobre " + query,
               "Perspectivas futuras de " + query ];
    ContainsInfix("¿Cuáles son las últimas noticias sobre ", query, "?");
    ContainsInfix("Impacto de ", query, " en la economía");
    ContainsInfix("Análisis de expertos sobre ", query, "");
    assert r[2] == "Análisis de expertos sobre " + query + "";
    ContainsInfix("Perspectivas futuras de ", query, "");
    assert r[3] == "Perspectivas futuras de " + query + "";
    r
  }

  /** `articles.slice(0, n).map(a => a.title)`. */
  function Headlines(articles: seq<Doc>, n: nat): (r: seq<string>)
    ensures |r| == Min(n, |articles|)
    ensures forall i :: 0 <= i < |r| ==> r[i] == articles[i].title
  {
    Map(Take(articles, n), (d: Doc) => d.title)
  }

  /** `articles.map((_, i) => i).slice(0, n)`: the positions of the first `n` articles. */
  function LeadingIndices(count: nat, n: nat): (r: seq<int>)
    ensures |r| == Min(n, count)
    ensures forall i :: 0 <= i < |r| ==> r[i] == i
  {
    Take(seq(count, i requires 0 <= i < count => i), n)
  }

  /** `createFallbackAnalysis`: the templated summary, the headlines of the first five
      articles as key points, the four templated suggestions, a neutral sentiment and the
      indices of the first three articles. */
  function FallbackAnalysis(articles: seq<Doc>, query: string): (r: Report)
    ensures Contains(r.summary, query)
    ensures |articles| > 0 ==> Contains(r.summary, articles[0].title)
    ensures |r.keyPoints| == Min(5, |articles|)
    ensures forall i :: 0 <= i < |r.keyPoints| ==> r.keyPoints[i] == articles[i].title
    ensures |r.suggestions| == 4 && forall i :: 0 <= i < 4 ==> Contains(r.suggestions[i], query)
    ensures r.sentiment == "neutral"
    ensures |r.relevantArticles| == Min(3, |articles|)
    ensures forall i :: 0 <= i < |r.relevantArticles| ==> r.relevantArticles[i] == i
  {
    var suggestions := FallbackSuggestions(query);
    assert suggestions[..4] == suggestions;
    Report(
      FallbackSummary(articles, query),
      Headlines(articles, 5),
      Take(suggestions, 4),
      "neutral",
      LeadingIndices(|articles|, 3))
  }

  /** One article in the prompt: `[n] source - title`, then the snippet and the URL, numbered
      from 1. */
  function ArticleBlock(d: Doc, i: nat): (r: string)
    ensures IsPrefix("[" + NatToString(i + 1) + "] ", r)
    ensures Contains(r, d.title) && Contains(r, d.url)
  {
    var number := "[" + NatToString(i + 1) + "] ";
    var r := number + d.source + " - " + d.title + "\n   " + d.snippet + "\n   URL: " + d.url;
    assert r[..|number|] == number;
    ContainsInfix(number + d.source + " - ", d.title, "\n   " + d.snippet + "\n   URL: " + d.url);
    assert r == number + d.source + " - " + d.title + ("\n   " + d.snippet + "\n   URL: " + d.url);
    ContainsInfix(number + d.source + " - " + d.title + "\n   " + d.snippet + "\n   URL: ", d.url, "");
    assert r == number + d.source + " - " + d.title + "\n   " + d.snippet + "\n   URL: " + d.url + "";
    r
  }

  /** The number in front of an article block reads back as its position counted from 1. */
  lemma ArticleNumberReadsBack(d: Doc, i: nat)
    ensures var b := ArticleBlock(d, i);
            ']' in b && var k := IndexOf(b, ']');
            1 <= k && AllDigits(b[1..k]) && DigitsValue(b[1..k]) == i + 1
  {
    var b := ArticleBlock(d, i);
    var digits := NatToString(i + 1);
    var k := 1 + |digits|;
    assert b[..k + 2] == "[" + digits + "] ";
    assert b[k] == ']';
    assert b[..k] == "[" + digits;
    assert ']' !in b[..k] by {
      assert forall j :: 1 <= j < k ==> b[..k][j] == digits[j - 1];
    }
    IndexOfAt(b, ']', k);
    assert b[1..k] == digits;
    NatToStringRoundTrip(i + 1);
  }

  /** The numbered article blocks, separated by blank lines. */
  function NewsContext(articles: seq<Doc>): (r: string)
    ensures forall i :: 0 <= i < |articles| ==> Contains(r, ArticleBlock(articles[i], i))
  {
    var blocks := seq(|articles|, i requires 0 <= i < |articles| => ArticleBlock(articles[i], i));
    var r := Join(blocks, "\n\n");
    assert forall i :: 0 <= i < |articles| ==> Contains(r, ArticleBlock(articles[i], i)) by {
      forall i | 0 <= i < |articles| ensures Contains(r, ArticleBlock(articles[i], i)) {
        JoinContainsEach(blocks, "\n\n", i);
      }
    }
    r
  }

  /** The interests line: present exactly when there are interests, naming every one. */
  function InterestsLine(interests: seq<string>): (r: string)
    ensures r == "" <==> |interests| == 0
    ensures forall k :: 0 <= k < |interests| ==> Contains(r, interests[k])
  {
    if |interests| == 0 then ""
    else
      var head := "\n\nIntereses del usuario: ";
      var r := head + Join(interests, ", ");
      assert forall k :: 0 <= k < |interests| ==> Contains(r, interests[k]) by {
        forall k | 0 <= k < |interests| ensures Contains(r, interests[k]) {
          JoinContainsEach(interests, ", ", k);
          ContainsWithin(head, Join(interests, ", "), "", interests[k]);
          assert r == head + Join(interests, ", ") + "";
        }
      }
      assert |r| > 0;
      r
  }

  const Instructions: string :=
    "\n\nINSTRUCCIONES:\n1. Resumen ejecutivo de 4-6 párrafos (mínimo 300 palabras)\n2. 5-7 puntos clave relevantes\n"
    + "3. 3-5 sugerencias específicas de búsqueda\n4. Sentimiento general\n5. Artículos relevantes (índices)\n\n"
    + "RESPONDE SOLO CON ESTE JSON (sin texto adicional, sin explicaciones, sin markdown):\n{\n"
    + "  \"summary\": \"resumen ejecutivo extenso aquí\",\n"
    + "  \"keyPoints\": [\"punto 1\", \"punto 2\", \"punto 3\", \"punto 4\", \"punto 5\"],\n"
    + "  \"suggestions\": [\"sugerencia 1\", \"sugerencia 2\", \"sugerencia 3\"],\n"
    + "  \"sentiment\": \"positive\",\n  \"relevantArticles\": [0, 1, 2]\n}"

  /** The prompt sent to the model: the article count and query, the interests line, the
      numbered articles and the fixed instructions. */
  function Prompt(articles: seq<Doc>, query: string, interests: seq<string>): (r: string)
    ensures Contains(r, query)
    ensures forall i :: 0 <= i < |articles| ==> Contains(r, ArticleBlock(articles[i], i))
    ensures forall k :: 0 <= k < |interests| ==> Contains(r, interests[k])
  {
    var head := "Analiza las siguientes " + NatToString(|articles|) + " noticias sobre \"";
    var tail := "\" y responde ÚNICAMENTE con un objeto JSON válido.";
    var line, marker, news := InterestsLine(interests), "\n\nNOTICIAS:\n", NewsContext(articles);
    var r := head + query + tail + line + marker + news + Instructions;
    assert Contains(r, query) by {
      ContainsEndOf(head, query);
      ContainsExtendRight(head + query, tail, query);
      ContainsExtendRight(head + query + tail, line, query);
      ContainsExtendRight(head + query + tail + line, marker, query);
      ContainsExtendRight(head + query + tail + line + marker, news, query);
      ContainsExtendRight(head + query + tail + line + marker + news, Instructions, query);
    }
    assert forall i :: 0 <= i < |articles| ==> Contains(r, ArticleBlock(articles[i], i)) by {
      forall i | 0 <= i < |articles| ensures Contains(r, ArticleBlock(articles[i], i)) {
        ContainsExtendLeft(head + query + tail + line + marker, news, ArticleBlock(articles[i], i));
        ContainsExtendRight(head + query + tail + line + marker + news, Instructions, ArticleBlock(articles[i], i));
      }
    }
    assert forall k :: 0 <= k < |interests| ==> Contains(r, interests[k]) by {
      forall k | 0 <= k < |interests| ensures Contains(r, interests[k]) {
        ContainsExtendLeft(head + query + tail, line, interests[k]);
        ContainsExtendRight(head + query + tail + line, marker, interests[k]);
        ContainsExtendRight(head + query + tail + line + marker, news, interests[k]);
        ContainsExtendRight(head + query + tail + line + marker + news, Instructions, interests[k]);
      }
    }
    r
  }

  /** `analyzeNews`. Without a configured client, or when the request fails, the fallback
      analysis. Otherwise the reply (an absent text reads as "") is parsed directly; a parsed
      value other than `null` gives its report. When the direct parse throws, or yields `null`
      (reading `.summary` of it throws), the loose parse is tried, and only a truthy result is
      used; anything else gives the fallback. */
  function AnalyzeNews(
    articles: seq<Doc>,
    query: string,
    interests: seq<string>,
    configured: bool,
    generate: string -> Option<string>,
    parse: string -> Option<Json>): (r: Report)
    ensures !configured ==> r == FallbackAnalysis(articles, query)
    ensures configured && generate(Prompt(articles, query, interests)).None? ==> r == FallbackAnalysis(articles, query)
    ensures configured && generate(Prompt(articles, query, interests)).Some? ==>
              var text := generate(Prompt(articles, query, interests)).value;
              match parse(text)
              case Some(j) => j != JNull ==> r == FromJson(j)
              case None =>
                var loose := TryParseLoose(text, parse);
                r == (if loose.JTruthy? then FromFields(loose.fields) else FallbackAnalysis(articles, query))
    ensures r == FallbackAnalysis(articles, query) || exists j :: j != JNull && r == FromJson(j)
    ensures r.sentiment != ""
  {
    if !configured then FallbackAnalysis(articles, query)
    else Interpret(generate(Prompt(articles, query, interests)), parse, FallbackAnalysis(articles, query))
  }

  /** The report read off a reply, with `fallback` when there is nothing usable. */
  function Interpret(reply: Option<string>, parse: string -> Option<Json>, fallback: Report): (r: Report)
    ensures r == fallback || exists j :: j != JNull && r == FromJson(j)
    ensures fallback.sentiment != "" ==> r.sentiment != ""
  {
    match reply
    case None => fallback
    case Some(text) =>
      var direct := parse(text);
      if direct.Some? && direct.value != JNull then FromJson(direct.value)
      else
        var loose := TryParseLoose(text, parse);
        if loose.JTruthy? then
          assert FromFields(loose.fields) == FromJson(loose);
          FromFields(loose.fields)
        else fallback
  }

  /** A reply that parses to `null` goes through the loose parse, exactly as one that throws. */
  lemma NullReplyTakesLoosePath(
    articles: seq<Doc>, query: string, interests: seq<string>,
    generate: string -> Option<string>, parse: string -> Option<Json>)
    requires generate(Prompt(articles, query, interests)).Some?
    requires parse(generate(Prompt(articles, query, interests)).value) == Some(JNull)
    ensures var loose := TryParseLoose(generate(Prompt(articles, query, interests)).value, parse);
            AnalyzeNews(articles, query, interests, true, generate, parse)
              == (if loose.JTruthy? then FromFields(loose.fields) else FallbackAnalysis(articles, query))
  {
  }

  /** A reply wrapped in a "```json" block that the direct parse rejects is read through the
      loose parse as the object it holds. */
  lemma FencedReplyIsRead(
    articles: seq<Doc>, query: string, interests: seq<string>,
    generate: string -> Option<string>, parse: string -> Option<Json>, o: string, f: Fields)
    requires |o| > 0 && o[0] == '{'
    requires generate(Prompt(articles, query, interests)) == Some("```json\n" + o + "\n```")
    requires parse("```json\n" + o + "\n```").None?
    requires parse(Clean(o + "\n")) == Some(JTruthy(f))
    ensures AnalyzeNews(articles, query, interests, true, generate, parse) == FromFields(f)
  {
    FencedObject(o);
  }
}

=== FILE: conversation_tree.dfy ===
/**
 * The conversation tree both search services keep: a root, a current node, and an
 * append operation that always hangs the new turn under the current node. The tree is an
 * arena: nodes live in a list, the root is node 0, links are indices.
 */
module ConversationTree {
  import opened Wrappers
  import opened Seqs
  import opened SearchNodes

  datatype Tree = Tree(nodes: seq<Node>, root: Option<nat>, current: Option<nat>)

  /** What `getTreeStats` reports. */
  datatype TreeStats = TreeStats(totalNodes: nat, depth: nat, currentPath: seq<string>)

  /** One search call as the tree sees it: the caller's query and context, and whether
      retrieval came back with at least one document. */
  datatype Turn = Turn(query: string, context: seq<string>, succeeded: bool)

  /** Node `i` links backwards to its parent and forwards to its children. */
  ghost predicate LinksOk(nodes: seq<Node>, i: nat)
    requires i < |nodes|
  {
    && (nodes[i].parent.Some? ==> nodes[i].parent.value < i)
    && forall k :: 0 <= k < |nodes[i].children| ==> i < nodes[i].children[k] < |nodes|
  }

  ghost predicate Linked(nodes: seq<Node>) {
    forall i :: 0 <= i < |nodes| ==> LinksOk(nodes, i)
  }

  /** The class invariant: root and current are both unset on an empty arena, and otherwise
      the root is node 0 and current is some node. */
  ghost predicate WellFormed(t: Tree) {
    && Linked(t.nodes)
    && (|t.nodes| == 0 ==> t.root.None? && t.current.None?)
    && (|t.nodes| > 0 ==> t.root == Some(0) && t.current.Some? && t.current.value < |t.nodes|)
  }

  /** The tree with no root and no current node (the initial state, and the state after `reset`). */
  function Reset(): (t: Tree)
    ensures WellFormed(t) && IsChain(t)
    ensures GetTreeStats(t) == TreeStats(0, 0, [])
  {
    Tree([], None, None)
  }

  /** `countNodes`: the node itself plus everything under its children. */
  function CountNodes(nodes: seq<Node>, i: nat): (r: nat)
    requires Linked(nodes) && i < |nodes|
    ensures r >= 1
    decreases |nodes| - i, 1
  {
    assert LinksOk(nodes, i);
    1 + CountList(nodes, nodes[i].children, i)
  }

  function CountList(nodes: seq<Node>, cs: seq<nat>, above: nat): (r: nat)
    requires Linked(nodes)
    requires forall k :: 0 <= k < |cs| ==> above < cs[k] < |nodes|
    ensures r >= |cs|
    decreases |nodes| - above, 0, |cs|
  {
    if |cs| == 0 then 0 else CountNodes(nodes, cs[0]) + CountList(nodes, cs[1..], above)
  }

  function Max(a: nat, b: nat): nat {
    if a < b then b else a
  }

  /** `getDepth`: 1 for a leaf, otherwise one more than the deepest child. A subtree is never
      deeper than it has nodes. */
  function Depth(nodes: seq<Node>, i: nat): (r: nat)
    requires Linked(nodes) && i < |nodes|
    ensures 1 <= r <= CountNodes(nodes, i)
    decreases |nodes| - i, 1
  {
    assert LinksOk(nodes, i);
    if IsLeaf(nodes[i]) then 1 else 1 + MaxDepth(nodes, nodes[i].children, i)
  }

  function MaxDepth(nodes: seq<Node>, cs: seq<nat>, above: nat): (r: nat)
    requires Linked(nodes)
    requires forall k :: 0 <= k < |cs| ==> above < cs[k] < |nodes|
    ensures r <= CountList(nodes, cs, above)
    decreases |nodes| - above, 0, |cs|
  {
    if |cs| == 0 then 0 else Max(Depth(nodes, cs[0]), MaxDepth(nodes, cs[1..], above))
  }

  /** `getCurrentPath`: the queries from the root down to node `i`, root first. */
  function PathTo(nodes: seq<Node>, i: nat): (r: seq<string>)
    requires Linked(nodes) && i < |nodes|
    ensures 1 <= |r| <= i + 1 && r[|r| - 1] == nodes[i].query
    decreases i
  {
    assert LinksOk(nodes, i);
    match nodes[i].parent
    case None => [nodes[i].query]
    case Some(p) => PathTo(nodes, p) + [nodes[i].query]
  }

  /** `getTreeStats`. */
  function GetTreeStats(t: Tree): (s: TreeStats)
    requires WellFormed(t)
    ensures t.root.None? ==> s == TreeStats(0, 0, [])
    ensures t.root.Some? ==> 1 <= s.depth <= s.totalNodes && |s.currentPath| >= 1
  {
    match t.root
    case None => TreeStats(0, 0, [])
    case Some(r) => TreeStats(CountNodes(t.nodes, r), Depth(t.nodes, r), PathTo(t.nodes, t.current.value))
  }

  /** The tree update of `search`: on an empty tree the turn becomes a parentless root;
      otherwise it becomes the last child of the current node. Either way it becomes current,
      and no other node changes. */
  function Append(t: Tree, query: string, context: seq<string>): (r: Tree)
    requires WellFormed(t)
    ensures WellFormed(r)
    ensures |r.nodes| == |t.nodes| + 1 && r.current == Some(|t.nodes|)
    ensures r.nodes[|t.nodes|] == NewNode(query, context, t.current)
    ensures t.root.None? ==> r.root == Some(0) && r.nodes[0].parent.None?
    ensures t.root.Some? ==>
              && r.root == t.root
              && r.nodes[t.current.value] == AddChild(t.nodes[t.current.value], |t.nodes|)
    ensures forall i :: 0 <= i < |t.nodes| && Some(i) != t.current ==> r.nodes[i] == t.nodes[i]
  {
    match t.current
    case None => Tree([NewNode(query, context, None)], Some(0), Some(0))
    case Some(c) =>
      var n := |t.nodes|;
      var nodes := t.nodes[c := AddChild(t.nodes[c], n)] + [NewNode(query, context, Some(c))];
      assert forall i :: 0 <= i < n + 1 ==> LinksOk(nodes, i) by {
        forall i | 0 <= i < n + 1 ensures LinksOk(nodes, i) {
          if i < n { assert LinksOk(t.nodes, i); }
        }
      }
      Tree(nodes, t.root, Some(n))
  }

  /** `currentNode.update(results.length > 0 ? 1 : 0)`: the current node is credited once. */
  function RecordOutcome(t: Tree, succeeded: bool): (r: Tree)
    requires WellFormed(t) && t.current.Some?
    ensures WellFormed(r) && r.root == t.root && r.current == t.current && |r.nodes| == |t.nodes|
    ensures r.nodes[t.current.value] == Update(t.nodes[t.current.value], if succeeded then 1 else 0)
    ensures forall i :: 0 <= i < |t.nodes| && i != t.current.value ==> r.nodes[i] == t.nodes[i]
  {
    var c := t.current.value;
    var nodes := t.nodes[c := Update(t.nodes[c], if succeeded then 1 else 0)];
    assert forall i :: 0 <= i < |nodes| ==> LinksOk(nodes, i) by {
      forall i | 0 <= i < |nodes| ensures LinksOk(nodes, i) { assert LinksOk(t.nodes, i); }
    }
    t.(nodes := nodes)
  }

  /** One search call's effect on the tree: append the turn, then credit it. */
  function Record(t: Tree, turn: Turn): (r: Tree)
    requires WellFormed(t)
    ensures WellFormed(r)
  {
    RecordOutcome(Append(t, turn.query, turn.context), turn.succeeded)
  }

  /** The effect of a sequence of search calls, oldest first. */
  function Replay(t: Tree, turns: seq<Turn>): (r: Tree)
    requires WellFormed(t)
    ensures WellFormed(r)
    decreases |turns|
  {
    if |turns| == 0 then t else Replay(Record(t, turns[0]), turns[1..])
  }

  /** The shape every search keeps: node `i`'s parent is node `i - 1` and its only child is
      node `i + 1`; the last node is current. */
  ghost predicate ChainLink(nodes: seq<Node>, i: nat)
    requires i < |nodes|
  {
    && nodes[i].parent == (if i == 0 then None else Some(i - 1))
    && nodes[i].children == (if i + 1 < |nodes| then [i + 1] else [])
  }

  ghost predicate IsChain(t: Tree) {
    && WellFormed(t)
    && (|t.nodes| == 0 ==> t.root.None? && t.current.None?)
    && (|t.nodes| > 0 ==> t.root == Some(0) && t.current == Some(|t.nodes| - 1))
    && forall i :: 0 <= i < |t.nodes| ==> ChainLink(t.nodes, i)
  }

  /** Because every append hangs off the current node, which is the last one, the tree stays a chain. */
  lemma AppendKeepsChain(t: Tree, query: string, context: seq<string>)
    requires IsChain(t)
    ensures IsChain(Append(t, query, context))
  {
    var r := Append(t, query, context);
    var n := |t.nodes|;
    forall i | 0 <= i < |r.nodes| ensures ChainLink(r.nodes, i) {
      if i + 1 < n { assert ChainLink(t.nodes, i); }
      else if i + 1 == n { assert ChainLink(t.nodes, i); assert r.nodes[i].children == [] + [n]; }
    }
  }

  /** In a chain every node has at most one child, and the current node is the only leaf. */
  lemma ChainShape(t: Tree, i: nat)
    requires IsChain(t) && i < |t.nodes|
    ensures |t.nodes[i].children| <= 1
    ensures IsLeaf(t.nodes[i]) <==> t.current == Some(i)
  {
    assert ChainLink(t.nodes, i);
  }

  lemma {:induction false} ChainCount(t: Tree, i: nat)
    requires IsChain(t) && i < |t.nodes|
    ensures CountNodes(t.nodes, i) == |t.nodes| - i
    ensures Depth(t.nodes, i) == |t.nodes| - i
    decreases |t.nodes| - i
  {
    assert ChainLink(t.nodes, i);
    if i + 1 < |t.nodes| {
      ChainCount(t, i + 1);
      var cs := t.nodes[i].children;
      assert cs == [i + 1];
      assert CountList(t.nodes, cs[1..], i) == 0;
      assert MaxDepth(t.nodes, cs[1..], i) == 0;
    }
  }

  lemma {:induction false} ChainPath(t: Tree, i: nat)
    requires IsChain(t) && i < |t.nodes|
    ensures PathTo(t.nodes, i) == Map(t.nodes[..i + 1], (n: Node) => n.query)
    decreases i
  {
    assert ChainLink(t.nodes, i);
    if i > 0 {
      ChainPath(t, i - 1);
      assert t.nodes[..i + 1] == t.nodes[..i] + [t.nodes[i]];
    }
  }

  /** On a chain of `k` nodes, `getTreeStats` reports `k` nodes, depth `k`, and every query in order. */
  lemma ChainStats(t: Tree)
    requires IsChain(t)
    ensures GetTreeStats(t) == TreeStats(|t.nodes|, |t.nodes|, Map(t.nodes, (n: Node) => n.query))
  {
    if |t.nodes| > 0 {
      ChainCount(t, 0);
      ChainPath(t, |t.nodes| - 1);
      assert t.nodes[..|t.nodes|] == t.nodes;
    }
  }

  /** Crediting the current node does not change the tree's shape. */
  lemma RecordKeepsChain(t: Tree, turn: Turn)
    requires IsChain(t)
    ensures IsChain(Record(t, turn))
  {
    AppendKeepsChain(t, turn.query, turn.context);
    var a := Append(t, turn.query, turn.context);
    var r := Record(t, turn);
    forall i | 0 <= i < |r.nodes| ensures ChainLink(r.nodes, i) {
      assert ChainLink(a.nodes, i);
    }
  }

  /** One search on a chain: the new turn is held by the node appended last, and every earlier
      node keeps its turn and its counts. */
  lemma {:induction false} RecordStep(t: Tree, turn: Turn)
    requires IsChain(t)
    ensures IsChain(Record(t, turn)) && |Record(t, turn).nodes| == |t.nodes| + 1
    ensures Holds(Record(t, turn).nodes[|t.nodes|], turn)
    ensures forall i :: 0 <= i < |t.nodes| ==> SameTurn(Record(t, turn).nodes[i], t.nodes[i])
  {
    RecordKeepsChain(t, turn);
    var a := Append(t, turn.query, turn.context);
    forall i | 0 <= i < |t.nodes| ensures SameTurn(a.nodes[i], t.nodes[i]) {
      if Some(i) != t.current { assert a.nodes[i] == t.nodes[i]; }
    }
  }

  /** On a chain, the turn a search records is held by the new node, which is current. */
  lemma RecordedTurn(t: Tree, turn: Turn)
    requires IsChain(t)
    ensures var r := Record(t, turn);
            IsChain(r) && r.current == Some(|t.nodes|) && |r.nodes| == |t.nodes| + 1
            && Holds(r.nodes[|t.nodes|], turn)
  {
    RecordStep(t, turn);
  }

  /** After `k` searches since a reset the tree is a chain holding the `k` turns in call order,
      each node visited exactly once and scored 1 exactly when its search found documents. */
  lemma {:induction false} ReplayBuildsChain(t: Tree, turns: seq<Turn>)
    requires IsChain(t)
    ensures IsChain(Replay(t, turns))
    ensures |Replay(t, turns).nodes| == |t.nodes| + |turns|
    ensures forall i :: 0 <= i < |t.nodes| ==> SameTurn(Replay(t, turns).nodes[i], t.nodes[i])
    ensures forall k :: 0 <= k < |turns| ==> Holds(Replay(t, turns).nodes[|t.nodes| + k], turns[k])
    decreases |turns|
  {
    if |turns| > 0 {
      RecordStep(t, turns[0]);
      var t1 := Record(t, turns[0]);
      ReplayBuildsChain(t1, turns[1..]);
      var r := Replay(t, turns);
      assert r == Replay(t1, turns[1..]);
      forall k | 0 <= k < |turns| ensures Holds(r.nodes[|t.nodes| + k], turns[k]) {
        if k > 0 {
          assert turns[1..][k - 1] == turns[k];
          assert Holds(r.nodes[|t1.nodes| + (k - 1)], turns[1..][k - 1]);
        } else {
          assert SameTurn(r.nodes[|t.nodes|], t1.nodes[|t.nodes|]);
        }
      }
    }
  }

  /** Node `n` records `turn` as `search` leaves it: the caller's query and context, one visit,
      and a score of 1 exactly when documents were found. */
  ghost predicate Holds(n: Node, turn: Turn) {
    && n.query == turn.query && n.context == turn.context
    && n.visits == 1 && n.score == (if turn.succeeded then 1 else 0)
  }

  /** Two nodes record the same turn with the same counts; links may differ. */
  ghost predicate SameTurn(a: Node, b: Node) {
    a.query == b.query && a.context == b.context && a.visits == b.visits && a.score == b.score
  }

  /** Reset followed by `k` searches: `getTreeStats` reports `k` nodes, depth `k`, and the `k`
      queries in call order. */
  lemma StatsAfterSearches(turns: seq<Turn>)
    ensures GetTreeStats(Replay(Reset(), turns)) ==
              TreeStats(|turns|, |turns|, Map(turns, (u: Turn) => u.query))
  {
    var t0 := Reset();
    ReplayBuildsChain(t0, turns);
    var r := Replay(t0, turns);
    ChainStats(r);
    QueriesInOrder(r.nodes, turns);
  }

  /** Nodes holding the turns one for one carry the turns' queries. */
  lemma QueriesInOrder(nodes: seq<Node>, turns: seq<Turn>)
    requires |nodes| == |turns| && forall k :: 0 <= k < |turns| ==> Holds(nodes[0 + k], turns[k])
    ensures Map(nodes, (n: Node) => n.query) == Map(turns, (u: Turn) => u.query)
  {
    var queries := Map(nodes, (n: Node) => n.query);
    var asked := Map(turns, (u: Turn) => u.query);
    forall k | 0 <= k < |turns| ensures queries[k] == asked[k] {
      assert Holds(nodes[0 + k], turns[k]);
    }
  }

  /** The documented scenario: "q1", "q2", "q3" on a fresh tree give 3 nodes, depth 3,
      and the path q1, q2, q3. */
  lemma ThreeTurnScenario()
    ensures GetTreeStats(Replay(Reset(), [Turn("q1", [], true), Turn("q2", ["q1"], true), Turn("q3", ["q2"], true)]))
            == TreeStats(3, 3, ["q1", "q2", "q3"])
  {
    var turns := [Turn("q1", [], true), Turn("q2", ["q1"], true), Turn("q3", ["q2"], true)];
    StatsAfterSearches(turns);
    assert Map(turns, (u: Turn) => u.query) == ["q1", "q2", "q3"];
  }
}

=== FILE: decimal.dfy ===
/** Decimal rendering of natural numbers, as JavaScript template literals print them. */
module Decimal {

  predicate IsDigit(c: char) {
    '0' <= c <= '9'
  }

  function DigitChar(d: nat): (c: char)
    requires d < 10
    ensures IsDigit(c)
  {
    ('0' as int + d) as char
  }

  function DigitValue(c: char): nat
    requires IsDigit(c)
  {
    c as int - '0' as int
  }

  predicate AllDigits(s: string) {
    forall i :: 0 <= i < |s| ==> IsDigit(s[i])
  }

  /** `${n}` for a non-negative integer: canonical decimal digits, no leading zero. */
  function NatToString(n: nat): (r: string)
    ensures |r| >= 1
    ensures AllDigits(r)
    ensures r[0] == '0' ==> n == 0
    decreases n
  {
    if n < 10 then [DigitChar(n)] else NatToString(n / 10) + [DigitChar(n % 10)]
  }

  /** The number a string of decimal digits denotes (an independent reading of `NatToString`). */
  function DigitsValue(s: string): nat
    requires AllDigits(s)
    decreases |s|
  {
    if |s| == 0 then 0 else DigitsValue(s[..|s| - 1]) * 10 + DigitValue(s[|s| - 1])
  }

  /** Reading back a rendered number gives the number: the rendering loses nothing. */
  lemma {:induction false} NatToStringRoundTrip(n: nat)
    ensures DigitsValue(NatToString(n)) == n
    decreases n
  {
    if n >= 10 {
      var s := NatToString(n);
      assert s[..|s| - 1] == NatToString(n / 10);
      NatToStringRoundTrip(n / 10);
    }
  }

  /** Different numbers are rendered differently. */
  lemma NatToStringInjective(m: nat, n: nat)
    requires NatToString(m) == NatToString(n)
    ensures m == n
  {
    NatToStringRoundTrip(m);
    NatToStringRoundTrip(n);
  }
}

=== FILE: documents.dfy ===
/** The retrieved document (`NewsArticle`) and the link rule every markup scraper applies. */
module Documents {
  import opened Wrappers
  import opened Text

  datatype Kind = Article | Video

  datatype Doc = Doc(
    title: string,
    url: string,
    snippet: string,
    source: string,
    imageUrl: Option<string>,
    publishedDate: Option<string>,
    kind: Kind)

  /** The document with its image left out: what stays fixed when only the image is assigned. */
  function WithoutImage(d: Doc): Doc {
    d.(imageUrl := None)
  }

  /** `link.startsWith('http') ? link : host + link`: absolute links are kept, relative ones are
      resolved against the outlet's host. */
  function AbsoluteLink(link: string, host: string): (r: string)
    ensures IsSuffix(link, r)
    ensures IsPrefix("http", link) ==> r == link
    ensures !IsPrefix("http", link) ==> IsPrefix(host, r) && |r| == |host| + |link|
    ensures IsPrefix("http", host) ==> IsPrefix("http", r)
  {
    if IsPrefix("http", link) then link
    else
      assert (host + link)[..|host|] == host;
      assert (host + link)[|host + link| - |link|..] == link;
      host + link
  }

  /** Resolving a link twice against an absolute host changes nothing more. */
  lemma AbsoluteLinkIdempotent(link: string, host: string)
    requires IsPrefix("http", host)
    ensures AbsoluteLink(AbsoluteLink(link, host), host) == AbsoluteLink(link, host)
  {
  }
}

=== FILE: interests.dfy ===
/**
 * The per-user interest store: a JavaScript `Map` from user id to an ordered list of
 * interest strings. The key order is modelled too, because `getAllUsers` returns the keys
 * in first-insertion order.
 */
module Interests {
  import opened Seqs
  import opened Text

  type UserId = string

  /** `users` is the key order of the map; `lists` its contents. */
  datatype Store = Store(users: seq<UserId>, lists: map<UserId, seq<string>>)

  predicate Distinct(xs: seq<UserId>) {
    forall i, j :: 0 <= i < j < |xs| ==> xs[i] != xs[j]
  }

  /** The key order lists each stored user exactly once. */
  ghost predicate Valid(s: Store) {
    Distinct(s.users) && forall u :: u in s.lists <==> u in s.users
  }

  /** The store of a freshly started process. */
  const Empty: Store := Store([], map[])

  /** `getUserInterests`: the stored list, or the empty list for a user never written. */
  function Get(s: Store, u: UserId): seq<string> {
    if u in s.lists then s.lists[u] else []
  }

  /** `Map.prototype.set`: an existing key keeps its position, a new key goes last. */
  function Write(s: Store, u: UserId, l: seq<string>): (r: Store)
    ensures Get(r, u) == l && u in r.lists
    ensures forall v :: v != u ==> Get(r, v) == Get(s, v) && (v in r.lists <==> v in s.lists)
    ensures Valid(s) ==> Valid(r)
    ensures Valid(s) ==> r.users == if u in s.lists then s.users else s.users + [u]
  {
    Store(if u in s.lists then s.users else s.users + [u], s.lists[u := l])
  }

  /** The key order with `u` taken out, the rest in place. */
  function Without(users: seq<UserId>, u: UserId): (r: seq<UserId>)
    ensures forall v :: v in r <==> v in users && v != u
    ensures Distinct(users) ==> Distinct(r)
    ensures IsSubsequence(r, users)
    decreases |users|
  {
    if |users| == 0 then []
    else
      var rest := Without(users[1..], u);
      assert forall v :: v in users[1..] ==> v in users;
      if users[0] == u then rest
      else
        assert ([users[0]] + rest)[1..] == rest;
        assert Distinct(users) ==> users[0] !in users[1..];
        [users[0]] + rest
  }

  /** `Map.prototype.delete`: the other keys keep their insertion order. */
  function Delete(s: Store, u: UserId): (r: Store)
    ensures u !in r.lists && u !in r.users && Get(r, u) == []
    ensures forall v :: v != u ==> Get(r, v) == Get(s, v) && (v in r.lists <==> v in s.lists)
    ensures Valid(s) ==> Valid(r)
    ensures IsSubsequence(r.users, s.users)
  {
    Store(Without(s.users, u), s.lists - {u})
  }

  /** Some stored entry equals `t` once both are lower-cased. */
  predicate HasCaseless(l: seq<string>, t: string) {
    exists i :: 0 <= i < |l| && Lower(l[i]) == Lower(t)
  }

  /** No two entries of `l` are equal once lower-cased. */
  predicate CaselessUnique(l: seq<string>) {
    forall i, j :: 0 <= i < j < |l| ==> Lower(l[i]) != Lower(l[j])
  }

  /** `addInterest`: appends the trimmed interest, in its own case, unless an entry equal to it
      up to case is already stored; in that case nothing is written at all. */
  function AddInterest(s: Store, u: UserId, interest: string): (r: Store)
    ensures HasCaseless(Get(s, u), Trim(interest)) ==> r == s
    ensures !HasCaseless(Get(s, u), Trim(interest)) ==>
              Get(r, u) == Get(s, u) + [Trim(interest)] && u in r.lists
    ensures forall v :: v != u ==> Get(r, v) == Get(s, v)
    ensures Valid(s) ==> Valid(r)
  {
    var current := Get(s, u);
    var t := Trim(interest);
    if HasCaseless(current, t) then s else Write(s, u, current + [t])
  }

  /** `removeInterest`: keeps, in order and with every copy, the entries that differ from the
      argument up to case (the argument is not trimmed), and always writes the key. */
  function RemoveInterest(s: Store, u: UserId, interest: string): (r: Store)
    ensures u in r.lists
    ensures forall e :: e in Get(r, u) ==> e in Get(s, u) && Lower(e) != Lower(interest)
    ensures forall e :: e in Get(s, u) && Lower(e) != Lower(interest) ==> e in Get(r, u)
    ensures forall e :: multiset(Get(r, u))[e] == if Lower(e) != Lower(interest) then multiset(Get(s, u))[e] else 0
    ensures IsSubsequence(Get(r, u), Get(s, u))
    ensures forall v :: v != u ==> Get(r, v) == Get(s, v)
    ensures Valid(s) ==> Valid(r)
  {
    Write(s, u, Filter(Get(s, u), e => Lower(e) != Lower(interest)))
  }

  /** `setInterests`: stores the list verbatim, with no trimming and no de-duplication. */
  function SetInterests(s: Store, u: UserId, interests: seq<string>): (r: Store)
    ensures Get(r, u) == interests && u in r.lists
    ensures forall v :: v != u ==> Get(r, v) == Get(s, v)
    ensures Valid(s) ==> Valid(r)
  {
    Write(s, u, interests)
  }

  /** `clearInterests`: removes the user's key altogether. */
  function ClearInterests(s: Store, u: UserId): (r: Store)
    ensures Get(r, u) == [] && u !in GetAllUsers(r)
    ensures forall v :: v != u ==> Get(r, v) == Get(s, v)
    ensures Valid(s) ==> Valid(r)
  {
    Delete(s, u)
  }

  /** `getAllUsers`: the stored keys, each once, in the order they were first written. */
  function GetAllUsers(s: Store): (r: seq<UserId>)
    ensures Valid(s) ==> Distinct(r) && forall u :: u in r <==> u in s.lists
  {
    s.users
  }

  /** Nothing is stored for anybody in a fresh store. */
  lemma GetOnFreshStore(u: UserId)
    ensures Valid(Empty)
    ensures Get(Empty, u) == [] && GetAllUsers(Empty) == []
  {
  }

  /** Adding an interest that equals a stored one up to case and surrounding space changes
      nothing: `add("AI"); add("ai")` keeps a single entry. */
  lemma {:induction false} AddIsCaseInsensitivelyIdempotent(s: Store, u: UserId, x: string, y: string)
    requires Lower(Trim(x)) == Lower(Trim(y))
    ensures AddInterest(AddInterest(s, u, x), u, y) == AddInterest(s, u, x)
  {
    var s1 := AddInterest(s, u, x);
    var l := Get(s1, u);
    if HasCaseless(Get(s, u), Trim(x)) {
      var i :| 0 <= i < |Get(s, u)| && Lower(Get(s, u)[i]) == Lower(Trim(x));
      assert Lower(l[i]) == Lower(Trim(y));
    } else {
      assert Lower(l[|l| - 1]) == Lower(Trim(y));
    }
  }

  /** Adding keeps the stored list free of case-insensitive duplicates (which `setInterests`,
      storing verbatim, does not guarantee). */
  lemma AddKeepsCaselessUnique(s: Store, u: UserId, x: string)
    requires CaselessUnique(Get(s, u))
    ensures CaselessUnique(Get(AddInterest(s, u, x), u))
  {
  }

  /** Removing for a user who was never written registers that user, with an empty list,
      at the end of the key order. */
  lemma RemoveRegistersUnknownUser(s: Store, u: UserId, x: string)
    requires Valid(s) && u !in s.lists
    ensures Get(RemoveInterest(s, u, x), u) == []
    ensures GetAllUsers(RemoveInterest(s, u, x)) == GetAllUsers(s) + [u]
  {
  }

  /** The two-call scenario: "AI" then "ai" on a fresh store keeps only "AI". */
  lemma AddTwiceDifferingInCase(u: UserId)
    ensures Get(AddInterest(AddInterest(Empty, u, "AI"), u, "ai"), u) == ["AI"]
  {
    assert IsTrimmed("AI") && IsTrimmed("ai");
    var upper := Lower("AI");
    var lower := Lower("ai");
    assert upper[0] == LowerChar('A') == 'a' && upper[1] == LowerChar('I') == 'i';
    assert lower[0] == LowerChar('a') == 'a' && lower[1] == LowerChar('i') == 'i';
    assert upper == lower;
    AddIsCaseInsensitivelyIdempotent(Empty, u, "AI", "ai");
    assert Get(AddInterest(Empty, u, "AI"), u) == [] + ["AI"];
  }
}

=== FILE: json_loose.dfy ===
/**
 * The text clean-up the analyzer applies to a model reply it could not parse directly, and
 * the loose parse built on it. `JSON.parse` itself is a parameter: `parse(text)` is `None`
 * when it throws.
 */
module LooseJson {
  import opened Wrappers
  import opened Seqs
  import opened Text

  /** The properties the analyzer reads off a parsed object. Each is `None` when the property
      is absent or holds a falsy non-string value; strings keep their text (an empty string is
      falsy too), arrays keep their elements (an empty array is truthy). */
  datatype Fields = Fields(
    summary: Option<string>,
    keyPoints: Option<seq<string>>,
    suggestions: Option<seq<string>>,
    recommendations: Option<seq<string>>,
    sentiment: Option<string>,
    relevantArticles: Option<seq<int>>)

  /** A parsed JSON value as far as the callers can tell values apart: `null` (reading a
      property of it throws), another falsy value (`false`, `0`, `""`: properties read as
      `undefined`), or a truthy value with the properties above. */
  datatype Json = JNull | JFalsy | JTruthy(fields: Fields)

  const Bom: char := '\U{FEFF}'

  /** `replace(/^\uFEFF/, '')`. */
  function StripBom(s: string): (r: string)
    ensures |s| > 0 && s[0] == Bom ==> s == [Bom] + r
    ensures (|s| == 0 || s[0] != Bom) ==> r == s
  {
    if |s| > 0 && s[0] == Bom then s[1..] else s
  }

  /** Trimming already removes a leading byte-order mark, since U+FEFF is white space to
      JavaScript: the explicit strip that follows the trim never changes anything. */
  lemma BomStripAfterTrimIsNoop(raw: string)
    ensures StripBom(Trim(raw)) == Trim(raw)
  {
  }

  /** The text starts with "json" in any letter case: its first four characters lower-case to
      the letters of "json". */
  predicate HasJsonTag(s: string) {
    |s| >= 4 && LowerChar(s[0]) == 'j' && LowerChar(s[1]) == 's' && LowerChar(s[2]) == 'o' && LowerChar(s[3]) == 'n'
  }

  // `replace(/^json\s*/i, '')`: a leading "json" tag and the space after it are dropped.
  function StripJsonTag(s: string): (r: string)
    ensures HasJsonTag(s) ==> |r| <= |s| - 4 && s == s[..|s| - |r|] + r && (|r| == 0 || !IsSpace(r[0]))
    ensures HasJsonTag(s) ==> AllSpace(s[4..|s| - |r|])
    ensures !HasJsonTag(s) ==> r == s
  {
    if HasJsonTag(s) then
      AfterTag(s);
      TrimStart(s[4..])
    else s
  }

  /** Dropping four characters and the space after them leaves a suffix of the text, and
      everything dropped after the four is space. */
  lemma AfterTag(s: string)
    requires |s| >= 4
    ensures var r := TrimStart(s[4..]);
            && |r| <= |s| - 4 && s == s[..|s| - |r|] + r && (|r| == 0 || !IsSpace(r[0]))
            && AllSpace(s[4..|s| - |r|])
  {
    AfterTagSuffix(s);
    AfterTagSpace(s);
  }

  /** What follows the tag and its space is the tail of the text. */
  lemma AfterTagSuffix(s: string)
    requires |s| >= 4
    ensures var r := TrimStart(s[4..]); |r| <= |s| - 4 && s == s[..|s| - |r|] + r
  {
    var r := TrimStart(s[4..]);
    var m := |s[4..]| - |r|;
    DropDrop(s, 4, m);
    TakeDrop(s, 4 + m);
  }

  /** Everything between the tag and what follows its space is space. */
  lemma AfterTagSpace(s: string)
    requires |s| >= 4
    ensures var r := TrimStart(s[4..]); |r| <= |s| - 4 && AllSpace(s[4..|s| - |r|])
  {
    var t := s[4..];
    var r := TrimStart(t);
    var m := |t| - |r|;
    assert AllSpace(t[..m]);
    DropTake(s, 4, m);
    assert |s| - |r| == 4 + m;
  }

  /** Wrapped in a matching pair of straight double or single quotes. */
  predicate Quoted(s: string) {
    |s| > 0 && ((s[0] == '"' && s[|s| - 1] == '"') || (s[0] == '\'' && s[|s| - 1] == '\''))
  }

  /** `text.slice(1, -1)` under the wrapping-quote test; a lone quote character is both the
      opening and the closing one, and leaves the empty text. */
  function StripWrappingQuotes(s: string): (r: string)
    ensures Quoted(s) && |s| >= 2 ==> s == [s[0]] + r + [s[0]]
    ensures Quoted(s) && |s| == 1 ==> r == ""
    ensures !Quoted(s) ==> r == s
  {
    if Quoted(s) then (if |s| >= 2 then s[1..|s| - 1] else "") else s
  }

  const Fence: string := "```"

  /** Starts with the fence followed by "json" in any letter case. */
  predicate HasTaggedFence(s: string) {
    IsPrefix(Fence, s) && HasJsonTag(s[3..])
  }

  /** The length of the run of space at the start of `s`: what `trimStart` drops. */
  function SpaceRun(s: string): (n: nat)
    ensures n <= |s| && s[n..] == TrimStart(s)
  {
    |s| - |TrimStart(s)|
  }

  /** Where a text resumes after an opener of `len` characters and the space that follows it. */
  function SkipOpener(t: string, len: nat): (k: nat)
    requires len <= |t|
    ensures len <= k <= |t| && t[k..] == TrimStart(t[len..])
  {
    var n := SpaceRun(t[len..]);
    DropDrop(t, len, n);
    len + n
  }

  // `replace(/^```json\s*/i, '')`, as the position where the text resumes: after the opener
  // and the space following it, or at the start when there is no such opener.
  function TaggedOpenerEnd(s: string): (k: nat)
    ensures k <= |s|
    ensures HasTaggedFence(s) ==> 7 <= k && s[k..] == TrimStart(s[7..])
    ensures !HasTaggedFence(s) ==> k == 0
  {
    if HasTaggedFence(s) then SkipOpener(s, 7) else 0
  }

  // `replace(/^```\s*/i, '')` the same way, for a bare fence opener.
  function BareOpenerEnd(t: string): (k: nat)
    ensures k <= |t|
    ensures IsPrefix(Fence, t) ==> 3 <= k && t[k..] == TrimStart(t[3..])
    ensures !IsPrefix(Fence, t) ==> k == 0
  {
    if IsPrefix(Fence, t) then SkipOpener(t, 3) else 0
  }

  /** Where the fenced content starts once both openers are gone. A text that starts with a
      fence loses at least those three characters, in one step or the other. */
  function BodyStart(s: string): (k: nat)
    requires IsPrefix(Fence, s)
    ensures 3 <= k <= |s|
  {
    var k := TaggedOpenerEnd(s);
    assert k == 0 ==> s[k..] == s;
    k + BareOpenerEnd(s[k..])
  }

  /** The fence step: only a text that starts with a fence is touched. A "```json" opener and
      the space after it go, then a bare "```" opener and the space after it, then one closing
      "```" at the very end. What is left is a prefix of the text after the openers. */
  function StripFences(s: string): (r: string)
    ensures !IsPrefix(Fence, s) ==> r == s
    ensures IsPrefix(Fence, s) ==> |r| <= |s| - 3 && IsPrefix(r, s[BodyStart(s)..])
    ensures IsPrefix(Fence, s) ==>
              || r + Fence == s[BodyStart(s)..]
              || (r == s[BodyStart(s)..] && !IsSuffix(Fence, r))
  {
    if IsPrefix(Fence, s) then
      var b := s[BodyStart(s)..];
      CloseFence(b);
      if IsSuffix(Fence, b) then b[..|b| - 3] else b
    else s
  }

  /** Dropping one closing fence at the very end leaves a prefix that the fence completes;
      otherwise the text is kept and does not end with a fence. */
  lemma CloseFence(b: string)
    ensures var r := if IsSuffix(Fence, b) then b[..|b| - 3] else b;
            && |r| <= |b| && IsPrefix(r, b)
            && (r + Fence == b || (r == b && !IsSuffix(Fence, r)))
  {
    if IsSuffix(Fence, b) {
      assert b[..|b| - 3] + b[|b| - 3..] == b;
    }
  }

  /** The typographic-quote replacement. The character classes in the source hold the plain
      ASCII quotes, so each replacement puts back the very character it matched. */
  function NormaliseQuotes(s: string): (r: string)
    ensures |r| == |s|
    ensures forall i :: 0 <= i < |s| ==> r[i] == (if s[i] == '"' then '"' else if s[i] == '\'' then '\'' else s[i])
  {
    seq(|s|, i requires 0 <= i < |s| => if s[i] == '"' then '"' else if s[i] == '\'' then '\'' else s[i])
  }

  /** As written, the quote step changes nothing. */
  lemma NormaliseQuotesIsIdentity(s: string)
    ensures NormaliseQuotes(s) == s
  {
  }

  /** A comma, then only space, then `close`: the start of a match of `/,\s*}/` or `/,\s*]/`. */
  predicate DanglingComma(s: string, close: char) {
    |s| > 0 && s[0] == ',' && var t := TrimStart(s[1..]); |t| > 0 && t[0] == close
  }

  /** `replace(/,\s*}/g, '}')` (or with `]`): scanning from the left, each comma followed by
      space and `close` is replaced, with that space, by `close`; scanning resumes after it. */
  function DropDanglingCommas(s: string, close: char): (r: string)
    ensures |r| <= |s|
    ensures ',' !in s ==> r == s
    decreases |s|
  {
    if |s| == 0 then []
    else if DanglingComma(s, close) then [close] + DropDanglingCommas(TrimStart(s[1..])[1..], close)
    else [s[0]] + DropDanglingCommas(s[1..], close)
  }

  /** The characters that carry content: neither commas nor space. */
  function Essence(s: string): (r: string)
    ensures forall i :: 0 <= i < |r| ==> r[i] != ',' && !IsSpace(r[i])
    decreases |s|
  {
    if |s| == 0 then [] else (if s[0] == ',' || IsSpace(s[0]) then [] else [s[0]]) + Essence(s[1..])
  }

  lemma {:induction false} EssenceAppend(a: string, b: string)
    ensures Essence(a + b) == Essence(a) + Essence(b)
    decreases |a|
  {
    if |a| == 0 {
      assert a + b == b;
    } else {
      assert (a + b)[1..] == a[1..] + b;
      EssenceAppend(a[1..], b);
    }
  }

  lemma {:induction false} EssenceOfSpace(s: string)
    requires AllSpace(s)
    ensures Essence(s) == []
    decreases |s|
  {
    if |s| > 0 { EssenceOfSpace(s[1..]); }
  }

  lemma EssenceTrimStart(s: string)
    ensures Essence(TrimStart(s)) == Essence(s)
  {
    var t := TrimStart(s);
    assert s == s[..|s| - |t|] + t;
    EssenceAppend(s[..|s| - |t|], t);
    EssenceOfSpace(s[..|s| - |t|]);
  }

  /** A dangling comma and its space carry no content: the essence starts at `close`. */
  lemma EssenceAtDanglingComma(s: string, close: char)
    requires DanglingComma(s, close) && close != ',' && !IsSpace(close)
    ensures Essence(s) == [close] + Essence(TrimStart(s[1..])[1..])
  {
    var t := TrimStart(s[1..]);
    EssenceTrimStart(s[1..]);
    assert t == [close] + t[1..];
    EssenceAppend([close], t[1..]);
    assert Essence([close]) == [close] + Essence([]);
    assert Essence(s) == [] + Essence(s[1..]);
  }

  /** Dropping dangling commas removes only commas and space: the content characters, in
      order, are exactly those of the input. */
  lemma {:induction false} DropDanglingCommasKeepsContent(s: string, close: char)
    requires close != ',' && !IsSpace(close)
    ensures Essence(DropDanglingCommas(s, close)) == Essence(s)
    decreases |s|
  {
    if |s| == 0 {
    } else if DanglingComma(s, close) {
      var rest := TrimStart(s[1..])[1..];
      DropDanglingCommasKeepsContent(rest, close);
      EssenceAppend([close], DropDanglingCommas(rest, close));
      EssenceAtDanglingComma(s, close);
    } else {
      DropDanglingCommasKeepsContent(s[1..], close);
      EssenceAppend([s[0]], DropDanglingCommas(s[1..], close));
      EssenceAppend([s[0]], s[1..]);
      assert s == [s[0]] + s[1..];
    }
  }

  /** The scan never carries a match across a comma: text that starts with one is scanned
      on its own, whatever precedes it. */
  lemma {:induction false} DropDanglingCommasSplit(a: string, t: string, close: char)
    requires close != ',' && |t| > 0 && t[0] == ','
    ensures DropDanglingCommas(a + t, close) == DropDanglingCommas(a, close) + DropDanglingCommas(t, close)
    decreases |a|
  {
    if |a| == 0 {
      assert a + t == t;
    } else {
      ScanStep(a, t, close);
      if DanglingComma(a, close) {
        var rest := TrimStart(a[1..])[1..];
        DropDanglingCommasSplit(rest, t, close);
        AppendAssoc([close], DropDanglingCommas(rest, close), DropDanglingCommas(t, close));
      } else {
        DropDanglingCommasSplit(a[1..], t, close);
        AppendAssoc([a[0]], DropDanglingCommas(a[1..], close), DropDanglingCommas(t, close));
      }
    }
  }

  /** The first step of the scan over `a + t` is the first step over `a`, when `t` starts with
      a comma: a match that starts in `a` ends in `a`. */
  lemma ScanStep(a: string, t: string, close: char)
    requires close != ',' && |a| > 0 && |t| > 0 && t[0] == ','
    ensures (a + t)[0] == a[0] && (a + t)[1..] == a[1..] + t
    ensures DanglingComma(a + t, close) == DanglingComma(a, close)
    ensures DanglingComma(a, close) ==> TrimStart((a + t)[1..])[1..] == TrimStart(a[1..])[1..] + t
  {
    var x := a[1..];
    assert (a + t)[1..] == x + t;
    MatchAhead(x, t, close);
  }

  /** Past a comma-led `t`, `close` is the first non-space of `x + t` exactly when it is that of
      `x`, and what follows it there is what follows it in `x`, then `t`. */
  lemma MatchAhead(x: string, t: string, close: char)
    requires close != ',' && |t| > 0 && t[0] == ','
    ensures var u, v := TrimStart(x), TrimStart(x + t);
            && ((|v| > 0 && v[0] == close) == (|u| > 0 && u[0] == close))
            && (|u| > 0 && u[0] == close ==> v[1..] == u[1..] + t)
  {
    var u, v := TrimStart(x), TrimStart(x + t);
    LookAhead(x, t);
    if |u| > 0 {
      assert v[0] == u[0] && v[1..] == u[1..] + t;
    }
  }

  /** Past a comma-led `t`, the space run of `x + t` ends where that of `x` ends, or at the
      comma starting `t` when `x` is all space. */
  lemma LookAhead(x: string, t: string)
    requires |t| > 0 && t[0] == ','
    ensures |TrimStart(x)| > 0 ==> TrimStart(x + t) == TrimStart(x) + t
    ensures |TrimStart(x)| == 0 ==> TrimStart(x + t) == t
  {
    TrimStartAppend(x, t);
    assert TrimStart(t) == t;
  }

  /** A comma, space and `close` at the front are replaced by `close` alone. */
  lemma DropAtComma(w: string, b: string, close: char)
    requires !IsSpace(close) && AllSpace(w)
    ensures DropDanglingCommas([','] + w + [close] + b, close) == [close] + DropDanglingCommas(b, close)
  {
    var t := [','] + w + [close] + b;
    assert t[1..] == w + ([close] + b);
    TrimStartOfSpace(w);
    TrimStartAppend(w, [close] + b);
    assert TrimStart([close] + b) == [close] + b;
    assert ([close] + b)[1..] == b;
  }

  /** Each `,\s*}` match is replaced by the bracket alone, and the text around it is
      processed as if the match were not there. */
  lemma DanglingCommaDropped(a: string, w: string, b: string, close: char)
    requires close != ',' && !IsSpace(close) && AllSpace(w)
    ensures DropDanglingCommas(a + [','] + w + [close] + b, close)
            == DropDanglingCommas(a, close) + [close] + DropDanglingCommas(b, close)
  {
    var t := [','] + w + [close] + b;
    assert a + [','] + w + [close] + b == a + t;
    DropDanglingCommasSplit(a, t, close);
    DropAtComma(w, b, close);
    AppendAssoc(DropDanglingCommas(a, close), [close], DropDanglingCommas(b, close));
  }

  /** Text in which no comma starts a match is left as it is. */
  lemma {:induction false} NoDanglingCommaKept(s: string, close: char)
    requires forall i :: 0 <= i < |s| ==> !DanglingComma(s[i..], close)
    ensures DropDanglingCommas(s, close) == s
    decreases |s|
  {
    if |s| > 0 {
      assert s[0..] == s;
      forall i | 0 <= i < |s[1..]| ensures !DanglingComma(s[1..][i..], close) {
        assert s[1..][i..] == s[i + 1..];
      }
      NoDanglingCommaKept(s[1..], close);
    }
  }

  /** A single pass does not reach a fixed point: of two commas before a brace only the
      second is dropped. */
  lemma DoubledCommaSurvives()
    ensures DropDanglingCommas(",,}", '}') == ",}"
    ensures DropDanglingCommas(",}", '}') == "}"
  {
    assert TrimStart("}") == "}";
    assert ",}"[1..] == "}";
    assert DanglingComma(",}", '}');
    assert DropDanglingCommas([], '}') == [];
    assert "}"[1..] == [];
    assert DropDanglingCommas(",}", '}') == ['}'] + DropDanglingCommas([], '}');
    assert TrimStart(",}") == ",}";
    assert ",,}"[1..] == ",}";
    assert !DanglingComma(",,}", '}');
    assert DropDanglingCommas(",,}", '}') == [','] + DropDanglingCommas(",}", '}');
  }

  /** `replace(/\\n/g, '\n')`: every backslash followed by `n` becomes a line feed. */
  function UnescapeNewlines(s: string): (r: string)
    ensures |r| <= |s|
    ensures '\\' !in s ==> r == s
    ensures |s| > 0 ==> |r| > 0 && r[0] == (if |s| >= 2 && s[0] == '\\' && s[1] == 'n' then '\n' else s[0])
    ensures NoEscapedNewline(r)
    decreases |s|
  {
    if |s| >= 2 && s[0] == '\\' && s[1] == 'n' then ['\n'] + UnescapeNewlines(s[2..])
    else if |s| == 0 then []
    else [s[0]] + UnescapeNewlines(s[1..])
  }

  /** No backslash is directly followed by `n`: the text holds no escaped line feed. */
  predicate NoEscapedNewline(s: string) {
    forall i :: 0 <= i < |s| - 1 && s[i] == '\\' ==> s[i + 1] != 'n'
  }

  /** A text without escaped line feeds passes the step unchanged. */
  lemma {:induction false} UnescapeWithoutEscapes(s: string)
    requires NoEscapedNewline(s)
    ensures UnescapeNewlines(s) == s
    decreases |s|
  {
    if |s| > 0 {
      assert NoEscapedNewline(s[1..]) by {
        forall i | 0 <= i < |s[1..]| - 1 && s[1..][i] == '\\' ensures s[1..][i + 1] != 'n' {
          assert s[i + 1] == '\\';
        }
      }
      UnescapeWithoutEscapes(s[1..]);
      assert s == [s[0]] + s[1..];
    }
  }

  /** A second pass of the step changes nothing. */
  lemma UnescapeIdempotent(s: string)
    ensures UnescapeNewlines(UnescapeNewlines(s)) == UnescapeNewlines(s)
  {
    UnescapeWithoutEscapes(UnescapeNewlines(s));
  }

  /** The step also rewrites a JSON string's own `\n` escape, leaving a raw line feed inside
      the string literal, which `JSON.parse` rejects. */
  lemma UnescapeBreaksStringEscapes()
    ensures UnescapeNewlines("\"a\\nb\"") == "\"a\nb\""
  {
    var tail := "b\"";
    assert "\"a\\nb\"" == ['"'] + (['a'] + ("\\n" + tail));
    assert "\"a\nb\"" == ['"'] + (['a'] + ("\n" + tail));
    UnescapeKeeps('"', ['a'] + ("\\n" + tail));
    UnescapeKeeps('a', "\\n" + tail);
    UnescapeEscape(tail);
  }

  /** A character other than a backslash is copied. */
  lemma UnescapeKeeps(c: char, t: string)
    requires c != '\\'
    ensures UnescapeNewlines([c] + t) == [c] + UnescapeNewlines(t)
  {
    assert ([c] + t)[1..] == t;
  }

  /** A backslash and `n` become one line feed. */
  lemma UnescapeEscape(t: string)
    ensures UnescapeNewlines("\\n" + t) == "\n" + UnescapeNewlines(t)
  {
    assert ("\\n" + t)[2..] == t;
  }

  /** Every line feed written back as a backslash and `n`: the inverse of the step. */
  function EscapeNewlines(t: string): (r: string)
    ensures '\n' !in r
    decreases |t|
  {
    if |t| == 0 then []
    else (if t[0] == '\n' then "\\n" else [t[0]]) + EscapeNewlines(t[1..])
  }

  /** On a text holding no line feed, the step turns exactly its `\n` escapes into line
      feeds: writing the line feeds back as escapes gives the text again. */
  lemma {:induction false} UnescapeRoundTrip(s: string)
    requires '\n' !in s
    ensures EscapeNewlines(UnescapeNewlines(s)) == s
    decreases |s|
  {
    if |s| >= 2 && s[0] == '\\' && s[1] == 'n' {
      var t := s[2..];
      assert s == "\\n" + t;
      UnescapeEscape(t);
      UnescapeRoundTrip(t);
      EscapeCons('\n', UnescapeNewlines(t));
    } else if |s| > 0 {
      var t := s[1..];
      assert s == [s[0]] + t;
      if s[0] == '\\' {
        assert UnescapeNewlines(s) == [s[0]] + UnescapeNewlines(t);
      } else {
        UnescapeKeeps(s[0], t);
      }
      UnescapeRoundTrip(t);
      EscapeCons(s[0], UnescapeNewlines(t));
    }
  }

  lemma EscapeCons(c: char, t: string)
    ensures EscapeNewlines([c] + t) == (if c == '\n' then "\\n" else [c]) + EscapeNewlines(t)
  {
    assert ([c] + t)[0] == c && ([c] + t)[1..] == t;
  }

  /** Everything after the fence step. */
  function Clean(s: string): (r: string)
    ensures |r| <= |s|
  {
    UnescapeNewlines(DropDanglingCommas(DropDanglingCommas(NormaliseQuotes(s), '}'), ']'))
  }

  /** Text without commas or backslashes passes the clean-up steps unchanged. */
  lemma CleanKeepsPlainText(s: string)
    requires ',' !in s && '\\' !in s
    ensures Clean(s) == s
  {
    NormaliseQuotesIsIdentity(s);
  }

  /** The whole clean-up of `tryParseJsonLoose`, from the trim to the newline step. */
  function Normalise(raw: string): (r: string)
    ensures |r| <= |raw|
  {
    Clean(StripFences(StripWrappingQuotes(StripJsonTag(StripBom(Trim(raw))))))
  }

  /** A text that begins and ends with a backtick passes the steps before the fence step
      unchanged. */
  lemma BacktickedPassesUnchanged(raw: string)
    requires |raw| > 0 && raw[0] == '`' && raw[|raw| - 1] == '`'
    ensures StripWrappingQuotes(StripJsonTag(StripBom(Trim(raw)))) == raw
  {
    assert IsTrimmed(raw);
    assert Trim(raw) == raw;
    assert StripBom(raw) == raw;
    assert !HasJsonTag(raw) by { assert LowerChar(raw[0]) == '`'; }
    assert StripJsonTag(raw) == raw;
    assert !Quoted(raw);
  }

  /** The fence step on an object inside a "```json" block leaves the object and the line
      break before the closing fence. */
  lemma FenceStepOnObject(o: string)
    requires |o| > 0 && o[0] == '{'
    ensures StripFences("```json\n" + o + "\n```") == o + "\n"
  {
    var m := o + "\n";
    var b := m + Fence;
    var raw := "```json\n" + b;
    assert "```json\n" + o + "\n```" == raw;
    OpenerOnLine(b);
    ClosingFence(m);
  }

  /** After a "```json" opener and a line break, the content starts right at `b`. */
  lemma OpenerOnLine(b: string)
    requires |b| > 0 && b[0] == '{'
    ensures IsPrefix(Fence, "```json\n" + b) && BodyStart("```json\n" + b) == 8
    ensures ("```json\n" + b)[8..] == b
  {
    var raw := "```json\n" + b;
    assert raw[..3] == Fence && raw[3] == 'j' && raw[4] == 's' && raw[5] == 'o' && raw[6] == 'n';
    assert HasTaggedFence(raw);
    var t := raw[7..];
    assert t == "\n" + b && t[1..] == b && raw[8..] == b;
    assert IsSpace(t[0]) && !IsSpace(b[0]);
    assert TrimStart(t) == TrimStart(b) == b;
    assert TaggedOpenerEnd(raw) == 8;
    NotFenced(b);
  }

  /** A text whose first character is not a backtick does not start with a fence. */
  lemma NotFenced(s: string)
    requires |s| > 0 && s[0] != '`'
    ensures !IsPrefix(Fence, s)
  {
    assert |s| < 3 || s[..3][0] == s[0];
  }

  lemma ClosingFence(m: string)
    ensures IsSuffix(Fence, m + Fence) && (m + Fence)[..|m|] == m
  {
    var b := m + Fence;
    assert b[|b| - 3..] == Fence;
  }

  /** A reply wrapped in a "```json" code block is cleaned as the object it holds: the
      fences and the line break after the opener are gone. */
  lemma FencedObject(o: string)
    requires |o| > 0 && o[0] == '{'
    ensures Normalise("```json\n" + o + "\n```") == Clean(o + "\n")
  {
    var raw := "```json\n" + o + "\n```";
    assert raw[0] == '`' && raw[|raw| - 1] == '`';
    BacktickedPassesUnchanged(raw);
    FenceStepOnObject(o);
  }

  /** The tag step on "json " followed by an object leaves the object. */
  lemma TagStepOnObject(o: string)
    requires |o| > 0 && o[0] == '{' && o[|o| - 1] == '}'
    ensures StripJsonTag(StripBom(Trim("json " + o))) == o
  {
    var raw := "json " + o;
    TrimmedPassesUnchanged(raw);
    assert raw[0] == 'j' && raw[1] == 's' && raw[2] == 'o' && raw[3] == 'n';
    assert HasJsonTag(raw);
    assert raw[4..] == " " + o;
    SpaceThenText(o);
  }

  lemma SpaceThenText(o: string)
    requires |o| > 0 && !IsSpace(o[0])
    ensures TrimStart(" " + o) == o
  {
    assert (" " + o)[1..] == o;
  }

  /** A text with no space at either end and no leading byte-order mark reaches the tag step
      unchanged. */
  lemma TrimmedPassesUnchanged(raw: string)
    requires |raw| > 0 && !IsSpace(raw[0]) && !IsSpace(raw[|raw| - 1])
    ensures StripBom(Trim(raw)) == raw
  {
    assert IsTrimmed(raw);
  }

  /** A "json" tag in front of an object is dropped along with the space after it. */
  lemma TaggedObject(o: string)
    requires |o| > 0 && o[0] == '{' && o[|o| - 1] == '}'
    ensures Normalise("json " + o) == Clean(o)
  {
    TagStepOnObject(o);
    BracedPassesUnchanged(o);
  }

  /** An object in braces passes the quote and fence steps unchanged. */
  lemma BracedPassesUnchanged(o: string)
    requires |o| > 0 && o[0] == '{' && o[|o| - 1] == '}'
    ensures StripFences(StripWrappingQuotes(o)) == o
  {
    assert !Quoted(o);
    NotFenced(o);
  }

  /** Some `}` follows some `{`: then the first `{` comes before the last `}`. */
  predicate HasBracePair(s: string) {
    exists i, j :: 0 <= i < j < |s| && s[i] == '{' && s[j] == '}'
  }

  lemma BracePairBounds(s: string)
    ensures HasBracePair(s) <==> '{' in s && '}' in s && IndexOf(s, '{') < LastIndexOf(s, '}')
  {
    if HasBracePair(s) {
      var i, j :| 0 <= i < j < |s| && s[i] == '{' && s[j] == '}';
      FirstAtOrBefore(s, '{', i);
      LastAtOrAfter(s, '}', j);
    }
  }

  /** `candidate.match(/\{[\s\S]*\}/)`: from the first `{` to the last `}`, when a `}` follows
      some `{`; `None` when no `}` follows any `{`. */
  function BraceSpan(s: string): (r: Option<string>)
    ensures r.Some? <==> HasBracePair(s)
    ensures r.Some? ==> |r.value| >= 2 && r.value[0] == '{' && r.value[|r.value| - 1] == '}'
    ensures r.Some? ==>
              exists i :: 0 <= i <= |s| - |r.value| && s[i..i + |r.value|] == r.value
                          && '{' !in s[..i] && '}' !in s[i + |r.value|..]
  {
    BracePairBounds(s);
    if '{' in s && '}' in s && IndexOf(s, '{') < LastIndexOf(s, '}') then
      var i, j := IndexOf(s, '{'), LastIndexOf(s, '}');
      assert s[i..i + |s[i..j + 1]|] == s[i..j + 1];
      Some(s[i..j + 1])
    else None
  }

  /** `tryParseJsonLoose`: nothing for an empty reply; otherwise the cleaned text as parsed,
      or, when that throws, the brace span of the cleaned text as parsed; a throw there, or
      no span, gives `null`. */
  function TryParseLoose(raw: string, parse: string -> Option<Json>): (r: Json)
    ensures raw == "" ==> r == JNull
    ensures raw != "" && parse(Normalise(raw)).Some? ==> r == parse(Normalise(raw)).value
    ensures raw != "" && parse(Normalise(raw)).None? ==>
              var span := BraceSpan(Normalise(raw));
              r == (if span.Some? then parse(span.value).GetOr(JNull) else JNull)
    ensures r != JNull ==> exists t :: parse(t) == Some(r) && |t| <= |raw|
  {
    if raw == "" then JNull
    else
      var c := Normalise(raw);
      match parse(c)
      case Some(v) =>
        assert parse(c) == Some(v) && |c| <= |raw|;
        v
      case None =>
        match BraceSpan(c)
        case None => JNull
        case Some(span) =>
          assert |span| <= |c| <= |raw|;
          match parse(span)
          case None => JNull
          case Some(v) =>
            assert parse(span) == Some(v);
            v
  }
}

=== FILE: legacy_gemini.dfy ===
/**
 * The older report service used by the classic search: the reply's greedy `{…}` span is
 * parsed with summary, key points and recommendations; search suggestions are a comma-
 * separated reply split into at most five topics.
 */
module GeminiLegacy {
  import opened Wrappers
  import opened Seqs
  import opened Text
  import opened Decimal
  import opened Documents
  import opened LooseJson

  /** What the older `analyzeNews` returns. */
  datatype Analysis = Analysis(summary: string, keyPoints: seq<string>, recommendations: seq<string>)

  const NoSummary: string := "No se pudo generar resumen"

  /** The fixed topics offered when the request or the parse fails. */
  const FallbackTopics: seq<string> := ["Tecnología", "Economía", "Ciencia"]

  /** The `catch` branch: the article count and query in a sentence, the first five headlines
      and the fixed topics. */
  function ErrorAnalysis(articles: seq<Doc>, query: string): (r: Analysis)
    ensures Contains(r.summary, NatToString(|articles|)) && Contains(r.summary, query)
    ensures |r.keyPoints| == Min(5, |articles|)
    ensures forall i :: 0 <= i < |r.keyPoints| ==> r.keyPoints[i] == articles[i].title
    ensures r.recommendations == FallbackTopics
  {
    var p1, p2, p3, p4 := "Encontré ", NatToString(|articles|), " noticias sobre \"", query;
    var p5 := "\". Explora los artículos para más detalles.";
    var summary := p1 + p2 + p3 + p4 + p5;
    assert Contains(summary, p2) by {
      ContainsEndOf(p1, p2);
      ContainsExtendRight(p1 + p2, p3, p2);
      ContainsExtendRight(p1 + p2 + p3, p4, p2);
      ContainsExtendRight(p1 + p2 + p3 + p4, p5, p2);
    }
    assert Contains(summary, query) by {
      ContainsEndOf(p1 + p2 + p3, p4);
      ContainsExtendRight(p1 + p2 + p3 + p4, p5, p4);
    }
    Analysis(summary, Map(Take(articles, 5), (d: Doc) => d.title), FallbackTopics)
  }

  /** One article in the prompt: `n. title`, then the snippet and the source, numbered from 1. */
  function ArticleLine(d: Doc, i: nat): (r: string)
    ensures IsPrefix(NatToString(i + 1) + ". ", r) && Contains(r, d.title)
  {
    var number := NatToString(i + 1) + ". ";
    var r := number + d.title + "\n   " + d.snippet + "\n   Fuente: " + d.source;
    assert r[..|number|] == number;
    ContainsEndOf(number, d.title);
    ContainsExtendRight(number + d.title, "\n   ", d.title);
    ContainsExtendRight(number + d.title + "\n   ", d.snippet, d.title);
    ContainsExtendRight(number + d.title + "\n   " + d.snippet, "\n   Fuente: ", d.title);
    ContainsExtendRight(number + d.title + "\n   " + d.snippet + "\n   Fuente: ", d.source, d.title);
    r
  }

  const Instructions: string :=
    "\" y proporciona:\n\n1. Un resumen conciso y claro (2-3 párrafos)\n2. Los 5 puntos clave más importantes\n"
    + "3. 3 temas relacionados que podrían interesar al usuario\n\nNOTICIAS:\n"

  const ReplyFormat: string :=
    "\n\nResponde en formato JSON:\n{\n  \"summary\": \"resumen aquí\",\n"
    + "  \"keyPoints\": [\"punto 1\", \"punto 2\", ...],\n  \"recommendations\": [\"tema 1\", \"tema 2\", \"tema 3\"]\n}"

  /** The prompt: the query, then the numbered articles separated by blank lines. */
  function Prompt(articles: seq<Doc>, query: string): (r: string)
    ensures Contains(r, query)
    ensures forall i :: 0 <= i < |articles| ==> Contains(r, ArticleLine(articles[i], i))
  {
    var head := "Eres un asistente de noticias inteligente. Analiza las siguientes noticias sobre \"";
    var lines := seq(|articles|, i requires 0 <= i < |articles| => ArticleLine(articles[i], i));
    var news := Join(lines, "\n\n");
    var r := head + query + Instructions + news + ReplyFormat;
    assert Contains(r, query) by {
      ContainsEndOf(head, query);
      ContainsExtendRight(head + query, Instructions, query);
      ContainsExtendRight(head + query + Instructions, news, query);
      ContainsExtendRight(head + query + Instructions + news, ReplyFormat, query);
    }
    assert forall i :: 0 <= i < |articles| ==> Contains(r, ArticleLine(articles[i], i)) by {
      forall i | 0 <= i < |articles| ensures Contains(r, ArticleLine(articles[i], i)) {
        JoinContainsEach(lines, "\n\n", i);
        ContainsExtendLeft(head + query + Instructions, news, lines[i]);
        ContainsExtendRight(head + query + Instructions + news, ReplyFormat, lines[i]);
      }
    }
    r
  }

  /** The older `analyzeNews`. A failed request (`None`) lands in the `catch`. A reply with a
      brace span has the span parsed: a throw, or `null` (reading `.summary` of it throws), lands
      in the `catch` too; otherwise a missing summary becomes "No se pudo generar resumen" and
      missing lists become empty. A reply without a brace span becomes the summary itself. */
  function AnalyzeNews(
    articles: seq<Doc>,
    query: string,
    generate: string -> Option<string>,
    parse: string -> Option<Json>): (r: Analysis)
    ensures generate(Prompt(articles, query)).None? ==> r == ErrorAnalysis(articles, query)
    ensures generate(Prompt(articles, query)).Some? ==>
              var text := generate(Prompt(articles, query)).value;
              && (BraceSpan(text).None? ==> r == Analysis(text, [], []))
              && (BraceSpan(text).Some? && parse(BraceSpan(text).value) == Some(JFalsy) ==>
                    r == Analysis(NoSummary, [], []))
              && (BraceSpan(text).Some? && parse(BraceSpan(text).value).Some?
                  && parse(BraceSpan(text).value).value.JTruthy? ==>
                    r == FromFields(parse(BraceSpan(text).value).value.fields))
              && (BraceSpan(text).Some? && parse(BraceSpan(text).value) in {None, Some(JNull)} ==>
                    r == ErrorAnalysis(articles, query))
    ensures r.summary == "" ==> generate(Prompt(articles, query)) == Some("")
  {
    match generate(Prompt(articles, query))
    case None => ErrorAnalysis(articles, query)
    case Some(text) =>
      match BraceSpan(text)
      case None => Analysis(text, [], [])
      case Some(span) =>
        match parse(span)
        case None => ErrorAnalysis(articles, query)
        case Some(JNull) => ErrorAnalysis(articles, query)
        case Some(JFalsy) => Analysis(NoSummary, [], [])
        case Some(JTruthy(f)) => FromFields(f)
  }

  /** The defaults of the older service: a missing or empty summary is "No se pudo generar
      resumen", missing lists are empty, and only `recommendations` is read. */
  function FromFields(f: Fields): (r: Analysis)
    ensures r.summary != ""
    ensures f.summary.Some? && f.summary.value != "" ==> r.summary == f.summary.value
    ensures f.summary.None? || f.summary.value == "" ==> r.summary == NoSummary
    ensures r.keyPoints == (if f.keyPoints.Some? then f.keyPoints.value else [])
    ensures r.recommendations == (if f.recommendations.Some? then f.recommendations.value else [])
  {
    Analysis(
      if f.summary.Some? && f.summary.value != "" then f.summary.value else NoSummary,
      f.keyPoints.GetOr([]),
      f.recommendations.GetOr([]))
  }

  /** A `suggestions` property is ignored by this service, unlike the newer analyzer. */
  lemma SuggestionsAreIgnored(f: Fields, xs: seq<string>)
    ensures FromFields(f.(suggestions := Some(xs))) == FromFields(f)
  {
  }

  /** The comma-separated pieces of a reply, each trimmed. */
  function Pieces(text: string): (r: seq<string>)
    ensures |r| >= 1
    ensures forall i :: 0 <= i < |r| ==> IsTrimmed(r[i]) && ',' !in r[i]
    ensures |r| == |Split(text, ',')| && forall i :: 0 <= i < |r| ==> r[i] == Trim(Split(text, ',')[i])
  {
    var parts := Split(text, ',');
    var r := Map(parts, Trim);
    assert forall i :: 0 <= i < |r| ==> IsTrimmed(r[i]) && ',' !in r[i] by {
      forall i | 0 <= i < |r| ensures IsTrimmed(r[i]) && ',' !in r[i] {
        assert r[i] == Trim(parts[i]);
        TrimKeepsOut(parts[i], ',');
      }
    }
    r
  }

  predicate NonEmpty(s: string) {
    |s| > 0
  }

  /** The topics of a comma-separated reply: the trimmed pieces, empty ones dropped, the
      first five kept. */
  function Topics(text: string): (r: seq<string>)
    ensures |r| <= 5
    ensures forall i :: 0 <= i < |r| ==> r[i] != "" && IsTrimmed(r[i]) && ',' !in r[i]
  {
    var pieces := Pieces(text);
    TopicsShape(pieces);
    Take(Filter(pieces, NonEmpty), 5)
  }

  /** Keeping the first five non-empty pieces keeps every piece trimmed and comma-free. */
  lemma TopicsShape(pieces: seq<string>)
    requires forall i :: 0 <= i < |pieces| ==> IsTrimmed(pieces[i]) && ',' !in pieces[i]
    ensures var r := Take(Filter(pieces, NonEmpty), 5);
            |r| <= 5 && forall i :: 0 <= i < |r| ==> r[i] != "" && IsTrimmed(r[i]) && ',' !in r[i]
  {
    var kept := Filter(pieces, NonEmpty);
    var r := Take(kept, 5);
    forall i | 0 <= i < |r|
      ensures r[i] != "" && IsTrimmed(r[i]) && ',' !in r[i]
    {
      assert r[i] == kept[i];
      var j :| 0 <= j < |pieces| && pieces[j] == kept[i];
    }
  }

  /** `trim` adds no character its input lacked. */
  lemma TrimKeepsOut(s: string, c: char)
    requires c !in s
    ensures c !in Trim(s)
  {
    var t := TrimStart(s);
    var r := TrimEnd(t);
    var a := |s| - |t|;
    assert t == s[a..];
    assert r == t[..|r|];
    assert forall k :: 0 <= k < |r| ==> r[k] == s[a + k];
  }

  /** `generateSearchSuggestions`: a failed request gives nothing; otherwise the topics of the
      reply. */
  function GenerateSearchSuggestions(query: string, context: seq<string>, generate: string -> Option<string>): (r: seq<string>)
    ensures |r| <= 5
    ensures forall i :: 0 <= i < |r| ==> r[i] != "" && IsTrimmed(r[i])
    ensures generate(SuggestionPrompt(query, context)).None? ==> r == []
    ensures generate(SuggestionPrompt(query, context)).Some? ==> r == Topics(generate(SuggestionPrompt(query, context)).value)
  {
    match generate(SuggestionPrompt(query, context))
    case None => []
    case Some(text) => Topics(text)
  }

  /** The suggestion prompt: the query and the context entries, comma-separated in brackets. */
  function SuggestionPrompt(query: string, context: seq<string>): (r: string)
    ensures Contains(r, query)
  {
    var head := "Basándote en la consulta \"";
    var rest := "\" y el contexto de conversación [" + Join(context, ", ")
      + "], sugiere 5 temas relacionados específicos que el usuario podría querer explorar. "
      + "Responde solo con una lista separada por comas.";
    ContainsEndOf(head, query);
    ContainsExtendRight(head + query, rest, query);
    head + query + rest
  }

  /** Splitting trimmed, comma-free pieces joined by commas gives the pieces back. */
  lemma PiecesOfJoin(xs: seq<string>)
    requires 1 <= |xs|
    requires forall i :: 0 <= i < |xs| ==> IsTrimmed(xs[i]) && ',' !in xs[i]
    ensures Pieces(Join(xs, ",")) == xs
  {
    SplitJoin(xs, ',');
    assert Split(Join(xs, ","), ',') == xs;
    var pieces := Map(xs, Trim);
    forall i | 0 <= i < |xs| ensures pieces[i] == xs[i] {
      assert IsTrimmed(xs[i]);
      assert pieces[i] == Trim(xs[i]);
    }
    assert pieces == xs;
  }

  /** Topics joined by commas come back as they were, when there are at most five, each
      non-empty, trimmed and free of commas. */
  lemma TopicsRoundTrip(xs: seq<string>)
    requires 1 <= |xs| <= 5
    requires forall i :: 0 <= i < |xs| ==> xs[i] != "" && IsTrimmed(xs[i]) && ',' !in xs[i]
    ensures Topics(Join(xs, ",")) == xs
  {
    PiecesOfJoin(xs);
    assert forall i :: 0 <= i < |xs| ==> NonEmpty(xs[i]);
    FilterAllPass(xs, NonEmpty);
    TakeAll(xs, 5);
  }

  /** The pieces of any comma join of comma-free parts are those parts, trimmed. */
  lemma PiecesOfParts(xs: seq<string>)
    requires 1 <= |xs|
    requires forall i :: 0 <= i < |xs| ==> ',' !in xs[i]
    ensures Pieces(Join(xs, ",")) == Map(xs, Trim)
  {
    SplitJoin(xs, ',');
  }

  /** The topics of any comma join of comma-free parts: the parts trimmed, the empty ones
      dropped, the first five kept. */
  lemma TopicsOfParts(xs: seq<string>)
    requires 1 <= |xs|
    requires forall i :: 0 <= i < |xs| ==> ',' !in xs[i]
    ensures Topics(Join(xs, ",")) == Take(Filter(Map(xs, Trim), NonEmpty), 5)
  {
    PiecesOfParts(xs);
  }
}

=== FILE: mcts_enhanced.dfy ===
/**
 * The routed search service: one call reads the user's interests, widens the query with the
 * conversation, retrieves and filters news, has it analysed, and records the turn in the
 * conversation tree.
 */
module MctsEnhanced {
  import opened Wrappers
  import opened Seqs
  import opened Documents
  import opened LooseJson
  import opened ConversationTree
  import opened QueryContext
  import opened SearchNodes
  import Interests
  import NewsScraper
  import GeminiAnalyzer

  /** What one search call returns. */
  datatype Outcome = Outcome(
    results: seq<Doc>,
    suggestions: seq<string>,
    analysis: GeminiAnalyzer.Report,
    userInterests: seq<string>)

  /** The services a search call reaches, as functions of what they are sent: the retrieval
      for a query (its settled providers, or a throw), the page-capture service, whether the
      model client is configured, the model and `JSON.parse`. */
  datatype Services = Services(
    retrieve: string -> Attempt<seq<Settled<seq<Doc>>>>,
    capture: seq<string> -> Option<map<string, string>>,
    configured: bool,
    generate: string -> Option<string>,
    parse: string -> Option<Json>)

  /** `search`: the user's interests and the widened query drive retrieval and analysis; the
      suggestions are the analysis's; the tree records the original query and context,
      credited 1 exactly when any document came back. */
  function Search(t: Tree, store: Interests.Store, user: Interests.UserId, query: string, context: seq<string>, env: Services): (r: (Tree, Outcome))
    requires WellFormed(t)
    ensures WellFormed(r.0)
    ensures r.1.userInterests == Interests.Get(store, user)
    ensures var full := BuildQueryWithContext(query, context);
            && r.1.results == NewsScraper.SearchNews(env.retrieve(full), r.1.userInterests, env.capture)
            && r.1.analysis == GeminiAnalyzer.AnalyzeNews(r.1.results, full, r.1.userInterests, env.configured, env.generate, env.parse)
    ensures r.1.suggestions == r.1.analysis.suggestions
    ensures |r.1.results| <= NewsScraper.MaxResults
    ensures r.0 == Record(t, Turn(query, context, |r.1.results| > 0))
  {
    var interests := Interests.Get(store, user);
    var full := BuildQueryWithContext(query, context);
    var results := NewsScraper.SearchNews(env.retrieve(full), interests, env.capture);
    var analysis := GeminiAnalyzer.AnalyzeNews(results, full, interests, env.configured, env.generate, env.parse);
    var tree := RecordOutcome(Append(t, query, context), |results| > 0);
    (tree, Outcome(results, analysis.suggestions, analysis, interests))
  }

  /** A search keeps the tree a chain; its new node is the current one, holds the original
      query and context, and has been visited once. */
  lemma SearchKeepsChain(t: Tree, store: Interests.Store, user: Interests.UserId, query: string, context: seq<string>, env: Services)
    requires IsChain(t)
    ensures var r := Search(t, store, user, query, context, env);
            && IsChain(r.0) && r.0.current == Some(|t.nodes|)
            && r.0.nodes[|t.nodes|].query == query && r.0.nodes[|t.nodes|].context == context
            && r.0.nodes[|t.nodes|].visits == 1
            && r.0.nodes[|t.nodes|].score == (if |r.1.results| > 0 then 1 else 0)
  {
    var r := Search(t, store, user, query, context, env);
    var turn := Turn(query, context, |r.1.results| > 0);
    RecordedTurn(t, turn);
    assert r.0 == Record(t, turn);
  }

  /** When every provider comes back empty or rejected there is no synthetic fallback: no
      results, and the new node is scored 0. */
  lemma EmptyProvidersScoreZero(t: Tree, store: Interests.Store, user: Interests.UserId, query: string, context: seq<string>, env: Services)
    requires WellFormed(t)
    requires var a := env.retrieve(BuildQueryWithContext(query, context));
             a.Completed? && forall i :: 0 <= i < |a.value| ==> a.value[i].Rejected? || a.value[i].value == []
    ensures var r := Search(t, store, user, query, context, env);
            r.1.results == [] && r.0 == Record(t, Turn(query, context, false))
            && r.0.nodes[|t.nodes|].score == 0
  {
    var a := env.retrieve(BuildQueryWithContext(query, context));
    NewsScraper.NoSyntheticFallback(a.value, Interests.Get(store, user), env.capture);
  }

  /** With retrieval wired to the scraper (each query's five provider pages, all settled), the
      routed results are, image aside, the first 15 selected documents of Google's, BBC's,
      CNN's, El País's and YouTube's results, in that order. */
  lemma ResultsFromProviders(t: Tree, store: Interests.Store, user: Interests.UserId, query: string, context: seq<string>,
                             env: Services, pages: string -> NewsScraper.Pages)
    requires WellFormed(t)
    requires forall q :: env.retrieve(q) == Completed(NewsScraper.Outcomes(pages(q)))
    ensures var p := pages(BuildQueryWithContext(query, context));
            var candidates := NewsScraper.SearchGoogleNews(p.google) + NewsScraper.SearchBBC(p.bbc)
                              + NewsScraper.SearchCNN(p.cnn) + NewsScraper.SearchElPais(p.elPais)
                              + NewsScraper.SearchYouTube(p.youTube);
            var kept := Take(NewsScraper.Selected(candidates, Interests.Get(store, user)), NewsScraper.MaxResults);
            var r := Search(t, store, user, query, context, env).1.results;
            |r| == |kept| && forall i :: 0 <= i < |r| ==> WithoutImage(r[i]) == WithoutImage(kept[i])
  {
    NewsScraper.FuseOfProviders(pages(BuildQueryWithContext(query, context)));
  }
}

=== FILE: mcts_legacy.dfy ===
/**
 * The classic search service: one call widens the query with the conversation, aggregates
 * news, asks for an analysis and for suggestions, and records the turn in the conversation
 * tree. The tree logic is the shared `ConversationTree`.
 */
module MctsLegacy {
  import opened Wrappers
  import opened Seqs
  import opened Text
  import opened Documents
  import opened LooseJson
  import opened ConversationTree
  import opened QueryContext
  import NewsAggregator
  import GeminiLegacy

  /** The keyword is new to the conversation: neither the query nor any context entry
      contains it, ignoring letter case. */
  predicate Fresh(keyword: string, query: string, context: seq<string>) {
    && !Contains(Lower(query), Lower(keyword))
    && forall j :: 0 <= j < |context| ==> !Contains(Lower(context[j]), Lower(keyword))
  }

  /** `generateSuggestions`: the fresh keywords when there are at least three of them,
      otherwise the keywords as given; at most five either way. */
  function GenerateSuggestions(keywords: seq<string>, query: string, context: seq<string>): (r: seq<string>)
    ensures |r| <= 5
    ensures IsSubsequence(r, keywords)
    ensures var survivors := Filter(keywords, k => Fresh(k, query, context));
            && (|survivors| >= 3 ==> r <= survivors && |r| == Min(5, |survivors|)
                                      && forall i :: 0 <= i < |r| ==> Fresh(r[i], query, context))
            && (|survivors| < 3 ==> r == Take(keywords, 5))
  {
    var survivors := Filter(keywords, k => Fresh(k, query, context));
    var chosen := if |survivors| >= 3 then survivors else keywords;
    var r := Take(chosen, 5);
    assert IsSubsequence(r, keywords) by {
      if |survivors| >= 3 { PrefixOfSubsequence(r, survivors, keywords); }
      else { SubsequenceRefl(keywords); PrefixOfSubsequence(r, keywords, keywords); }
    }
    r
  }

  /** When every keyword is fresh, both branches agree: the first five keywords, in order. */
  lemma AllFreshKeepsOrder(keywords: seq<string>, query: string, context: seq<string>)
    requires forall i :: 0 <= i < |keywords| ==> Fresh(keywords[i], query, context)
    ensures GenerateSuggestions(keywords, query, context) == Take(keywords, 5)
  {
    FilterAllPassFresh(keywords, query, context);
  }

  lemma FilterAllPassFresh(keywords: seq<string>, query: string, context: seq<string>)
    requires forall i :: 0 <= i < |keywords| ==> Fresh(keywords[i], query, context)
    ensures Filter(keywords, k => Fresh(k, query, context)) == keywords
  {
    FilterAllPass(keywords, k => Fresh(k, query, context));
  }

  /** The model's topics when there are any, else the analysis's recommendations. */
  function Choose(ai: seq<string>, recommendations: seq<string>): seq<string> {
    if |ai| > 0 then ai else recommendations
  }

  /** What one search call returns. */
  datatype Outcome = Outcome(results: seq<Doc>, suggestions: seq<string>, analysis: GeminiLegacy.Analysis)

  /** The services a search call reaches, as functions of what they are sent: the aggregation
      for a query (its settled scrapers, or a throw), `encodeURIComponent`, the model and
      `JSON.parse`. */
  datatype Services = Services(
    aggregate: string -> Attempt<(Settled<seq<Doc>>, Settled<seq<Doc>>)>,
    encode: string -> string,
    generate: string -> Option<string>,
    parse: string -> Option<Json>)

  /** `search`: the widened query goes to the aggregator and the analysis; the suggestion
      request gets the original query and context; the tree records the original query and
      context, credited 1 exactly when any document came back. */
  function Search(t: Tree, query: string, context: seq<string>, env: Services): (r: (Tree, Outcome))
    requires WellFormed(t)
    ensures WellFormed(r.0)
    ensures var full := BuildQueryWithContext(query, context);
            && r.1.results == NewsAggregator.FetchNews(env.aggregate(full), full, env.encode)
            && r.1.analysis == GeminiLegacy.AnalyzeNews(r.1.results, full, env.generate, env.parse)
    ensures var ai := GeminiLegacy.GenerateSearchSuggestions(query, context, env.generate);
            r.1.suggestions == (if |ai| > 0 then ai else r.1.analysis.recommendations)
    ensures r.0 == Record(t, Turn(query, context, |r.1.results| > 0))
  {
    var full := BuildQueryWithContext(query, context);
    var results := NewsAggregator.FetchNews(env.aggregate(full), full, env.encode);
    var analysis := GeminiLegacy.AnalyzeNews(results, full, env.generate, env.parse);
    var tree := Append(t, query, context);
    var ai := GeminiLegacy.GenerateSearchSuggestions(query, context, env.generate);
    var suggestions := Choose(ai, analysis.recommendations);
    (RecordOutcome(tree, |results| > 0), Outcome(results, suggestions, analysis))
  }

  /** A search keeps the tree a chain, and its new node is current and holds the original
      query and context. */
  lemma SearchKeepsChain(t: Tree, query: string, context: seq<string>, env: Services)
    requires IsChain(t)
    ensures var r := Search(t, query, context, env).0;
            IsChain(r) && r.current == Some(|t.nodes|)
            && r.nodes[|t.nodes|].query == query && r.nodes[|t.nodes|].context == context
  {
    RecordKeepsChain(t, Turn(query, context, |Search(t, query, context, env).1.results| > 0));
  }

  /** When the aggregation block throws, the two search links stand in for results, so the
      turn is credited as a success. */
  lemma ThrowingAggregationStillRewarded(t: Tree, query: string, context: seq<string>, env: Services)
    requires WellFormed(t)
    requires env.aggregate(BuildQueryWithContext(query, context)).Threw?
    ensures |Search(t, query, context, env).1.results| == 2
    ensures Search(t, query, context, env).0 == Record(t, Turn(query, context, true))
  {
  }

  /** With the model unreachable, the suggestions are the fixed fallback topics. */
  lemma UnreachableModelSuggestsFixedTopics(t: Tree, query: string, context: seq<string>, env: Services)
    requires WellFormed(t)
    requires forall p :: env.generate(p).None?
    ensures Search(t, query, context, env).1.suggestions == GeminiLegacy.FallbackTopics
  {
    var full := BuildQueryWithContext(query, context);
    var results := NewsAggregator.FetchNews(env.aggregate(full), full, env.encode);
    assert env.generate(GeminiLegacy.Prompt(results, full)).None?;
    assert env.generate(GeminiLegacy.SuggestionPrompt(query, context)).None?;
  }
}

=== FILE: news_aggregator.dfy ===
/**
 * The older retrieval stage used by the classic search: Google News and YouTube queried
 * together and concatenated, with a pair of search-page links as the answer when the
 * aggregation block itself throws.
 */
module NewsAggregator {
  import opened Wrappers
  import opened Seqs
  import opened Text
  import opened Documents
  import opened Providers

  const SnippetLimit: nat := 200

  /** `scrapeGoogleNews`: the usable cards among the first 8, snippets cut to 200 characters;
      a failed download (`None`) is caught and gives nothing. */
  function ScrapeGoogleNews(page: Option<seq<Card>>): (r: seq<Doc>)
    ensures page.None? ==> r == []
    ensures |r| <= 8
    ensures page.Some? ==> |r| == CountIf(Take(page.value, 8), Usable)
    ensures page.Some? ==> forall c :: c in Take(page.value, 8) && Usable(c) ==> GoogleDoc(c, SnippetLimit) in r
    ensures page.Some? ==> forall i :: 0 <= i < |r| ==>
              exists c :: c in Take(page.value, 8) && Usable(c) && r[i] == GoogleDoc(c, SnippetLimit)
    ensures forall i :: 0 <= i < |r| ==> r[i].kind == Article && |r[i].snippet| <= SnippetLimit
  {
    match page
    case None => []
    case Some(cards) => Harvest(cards, 8, c => GoogleDoc(c, SnippetLimit))
  }

  /** `scrapeYouTube`: the first 5 playable videos across all result sections. */
  function ScrapeYouTube(page: Option<seq<seq<VideoItem>>>): (r: seq<Doc>)
    ensures page.None? ==> r == []
    ensures |r| <= 5
    ensures forall i :: 0 <= i < |r| ==>
              r[i].kind == Video && IsPrefix(WatchPrefix, r[i].url) && |r[i].snippet| <= SnippetLimit
  {
    match page
    case None => []
    case Some(sections) => YouTubeVideos(sections, 5, SnippetLimit)
  }

  /** A text of the search-link pair: the query between fixed words, so it mentions the query. */
  function Mention(before: string, query: string, after: string): (r: string)
    ensures Contains(r, query)
  {
    ContainsInfix(before, query, after);
    before + query + after
  }

  /** `getFallbackNews`: one article pointing at a Google news search and one video pointing
      at a YouTube search, both for the query; `encode` is `encodeURIComponent`. */
  function FallbackNews(query: string, encode: string -> string): (r: seq<Doc>)
    ensures |r| == 2
    ensures r[0].kind == Article && r[1].kind == Video
    ensures r[0].source == "Búsqueda Google" && r[1].source == "YouTube"
    ensures forall i :: 0 <= i < 2 ==>
              Contains(r[i].title, query) && Contains(r[i].snippet, query) && r[i].imageUrl == None
    ensures r[0].url == "https://www.google.com/search?q=" + encode(query) + "&tbm=nws"
    ensures r[1].url == "https://www.youtube.com/results?search_query=" + encode(query)
  {
    var t0 := Mention("Últimas noticias sobre ", query, "");
    var s0 := Mention("Información actualizada sobre ", query, ". Haz clic para ver más detalles.");
    var t1 := Mention("", query, ": Videos y análisis");
    var s1 := Mention("Videos y contenido multimedia sobre ", query, ".");
    [ Doc(t0, "https://www.google.com/search?q=" + encode(query) + "&tbm=nws", s0, "Búsqueda Google", None, None, Article),
      Doc(t1, "https://www.youtube.com/results?search_query=" + encode(query), s1, "YouTube", None, None, Video) ]
  }

  /** `fetchNews` after both scrapers have settled: Google's results, then YouTube's; the
      search-link pair only when the aggregation block throws. */
  function FetchNews(
    attempt: Attempt<(Settled<seq<Doc>>, Settled<seq<Doc>>)>,
    query: string,
    encode: string -> string): (r: seq<Doc>)
    ensures attempt.Threw? ==> r == FallbackNews(query, encode)
    ensures attempt.Completed? && attempt.value.0.Fulfilled? && attempt.value.1.Fulfilled? ==>
              r == attempt.value.0.value + attempt.value.1.value
    ensures attempt.Completed? && attempt.value.0.Rejected? && attempt.value.1.Fulfilled? ==>
              r == attempt.value.1.value
    ensures attempt.Completed? && attempt.value.0.Fulfilled? && attempt.value.1.Rejected? ==>
              r == attempt.value.0.value
    ensures attempt.Completed? && attempt.value.0.Rejected? && attempt.value.1.Rejected? ==> r == []
  {
    match attempt
    case Threw => FallbackNews(query, encode)
    case Completed((google, youTube)) =>
      (if google.Fulfilled? then google.value else []) + (if youTube.Fulfilled? then youTube.value else [])
  }

  /** The settled pair of scrapers: each catches its own failures, so both are fulfilled. */
  function Outcomes(google: Option<seq<Card>>, youTube: Option<seq<seq<VideoItem>>>): (r: (Settled<seq<Doc>>, Settled<seq<Doc>>))
    ensures r.0.Fulfilled? && r.1.Fulfilled?
  {
    (Fulfilled(ScrapeGoogleNews(google)), Fulfilled(ScrapeYouTube(youTube)))
  }

  /** At most 13 documents come back from the two scrapers, and when both fail the answer is
      empty: the search-link pair is reserved for a throw of the aggregation block itself. */
  lemma FailedScrapersGiveNothing(query: string, encode: string -> string)
    ensures FetchNews(Completed(Outcomes(None, None)), query, encode) == []
    ensures FetchNews(Completed(Outcomes(None, None)), query, encode) != FallbackNews(query, encode)
  {
  }

  /** Whatever the pages hold, the aggregated list has at most 8 articles followed by at most
      5 videos. */
  lemma AggregatedShape(google: Option<seq<Card>>, youTube: Option<seq<seq<VideoItem>>>, query: string, encode: string -> string)
    ensures var r := FetchNews(Completed(Outcomes(google, youTube)), query, encode);
            var g := |ScrapeGoogleNews(google)|;
            |r| <= 13 && g <= 8
            && (forall i :: 0 <= i < g ==> r[i].kind == Article)
            && (forall i :: g <= i < |r| ==> r[i].kind == Video)
  {
  }
}

=== FILE: news_scraper.dfy ===
/**
 * The retrieval stage of the routed search: five providers queried together, their
 * settled outcomes concatenated in declared order, narrowed by the user's interests,
 * capped, and the first few articles given captured page images.
 */
module NewsScraper {
  import opened Wrappers
  import opened Seqs
  import opened Text
  import opened Documents
  import opened Providers

  const SnippetLimit: nat := 250
  const MaxResults: nat := 15
  const MaxScreenshots: nat := 5

  /** What each provider's page yielded; `None` when its request or parse failed, which the
      provider's own `catch` turns into an empty list. */
  datatype Pages = Pages(
    google: Option<seq<Card>>,
    bbc: Option<seq<Card>>,
    cnn: Option<seq<Card>>,
    elPais: Option<seq<Card>>,
    youTube: Option<seq<seq<VideoItem>>>)

  /** `searchGoogleNews`: one article per usable card among the first 10, with absolute links
      and snippets of at most 250 characters. */
  function SearchGoogleNews(page: Option<seq<Card>>): (r: seq<Doc>)
    ensures page.None? ==> r == []
    ensures |r| <= 10
    ensures page.Some? ==> |r| == CountIf(Take(page.value, 10), Usable)
    ensures page.Some? ==> forall c :: c in Take(page.value, 10) && Usable(c) ==> GoogleCard(c) in r
    ensures page.Some? ==> forall i :: 0 <= i < |r| ==>
              exists c :: c in Take(page.value, 10) && Usable(c) && r[i] == GoogleCard(c)
    ensures forall i :: 0 <= i < |r| ==>
              && r[i].kind == Article && r[i].title != "" && r[i].source != ""
              && |r[i].snippet| <= SnippetLimit && IsPrefix("http", r[i].url)
  {
    match page
    case None => []
    case Some(cards) => Harvest(cards, 10, GoogleCard)
  }

  /** A Google News card shaped with the snippet limit. */
  function GoogleCard(c: Card): Doc {
    GoogleDoc(c, SnippetLimit)
  }

  /** The shared body of `searchBBC`, `searchCNN` and `searchElPais`: one article per usable
      card among the first 5, each tagged with the outlet's name, with a non-empty snippet that
      is either at most 250 characters or the headline itself. */
  function SearchOutlet(page: Option<seq<Card>>, host: string, source: string): (r: seq<Doc>)
    requires IsPrefix("http", host)
    ensures page.None? ==> r == []
    ensures |r| <= 5
    ensures page.Some? ==> |r| == CountIf(Take(page.value, 5), Usable)
    ensures page.Some? ==> forall c :: c in Take(page.value, 5) && Usable(c) ==> OutletDoc(c, host, source, SnippetLimit) in r
    ensures page.Some? ==> forall i :: 0 <= i < |r| ==>
              exists c :: && c in Take(page.value, 5) && Usable(c) && r[i] == OutletDoc(c, host, source, SnippetLimit)
                          && (c.paragraph == "" ==> r[i].snippet == c.title)
    ensures forall i :: 0 <= i < |r| ==>
              && r[i].kind == Article && r[i].source == source && r[i].title != ""
              && r[i].snippet != "" && (|r[i].snippet| <= SnippetLimit || r[i].snippet == r[i].title)
              && IsPrefix("http", r[i].url)
  {
    match page
    case None => []
    case Some(cards) => Harvest(cards, 5, c => OutletDoc(c, host, source, SnippetLimit))
  }

  function SearchBBC(page: Option<seq<Card>>): seq<Doc> {
    SearchOutlet(page, "https://www.bbc.com", "BBC News")
  }

  function SearchCNN(page: Option<seq<Card>>): seq<Doc> {
    SearchOutlet(page, "https://edition.cnn.com", "CNN")
  }

  function SearchElPais(page: Option<seq<Card>>): seq<Doc> {
    SearchOutlet(page, "https://elpais.com", "El País")
  }

  /** `searchYouTube`: at most 3 videos with watch URLs. */
  function SearchYouTube(page: Option<seq<seq<VideoItem>>>): (r: seq<Doc>)
    ensures page.None? ==> r == []
    ensures |r| <= 3
    ensures forall i :: 0 <= i < |r| ==>
              r[i].kind == Video && IsPrefix(WatchPrefix, r[i].url) && |r[i].snippet| <= SnippetLimit
  {
    match page
    case None => []
    case Some(sections) => YouTubeVideos(sections, 3, SnippetLimit)
  }

  /** `Promise.allSettled([...])` over the five providers, in declared order. Each provider
      catches its own failures, so every outcome is fulfilled. */
  function Outcomes(p: Pages): (r: seq<Settled<seq<Doc>>>)
    ensures |r| == 5 && forall i :: 0 <= i < 5 ==> r[i].Fulfilled?
  {
    var g, b, c, e, y := SearchGoogleNews(p.google), SearchBBC(p.bbc), SearchCNN(p.cnn),
                         SearchElPais(p.elPais), SearchYouTube(p.youTube);
    AllFulfilled(g, b, c, e, y);
    [Fulfilled(g), Fulfilled(b), Fulfilled(c), Fulfilled(e), Fulfilled(y)]
  }

  lemma AllFulfilled(g: seq<Doc>, b: seq<Doc>, c: seq<Doc>, e: seq<Doc>, y: seq<Doc>)
    ensures var r := [Fulfilled(g), Fulfilled(b), Fulfilled(c), Fulfilled(e), Fulfilled(y)];
            |r| == 5 && forall i :: 0 <= i < 5 ==> r[i].Fulfilled?
  {
  }

  /** What one settled provider contributes: its list when fulfilled, nothing when rejected. */
  function Contribution(s: Settled<seq<Doc>>): seq<Doc> {
    match s
    case Fulfilled(docs) => docs
    case Rejected => []
  }

  /** The `forEach` over the settled outcomes: fulfilled lists are appended in the order the
      providers were listed, whatever order they finished in. */
  function Fuse(outcomes: seq<Settled<seq<Doc>>>): (r: seq<Doc>)
    ensures (forall i :: 0 <= i < |outcomes| ==> Contribution(outcomes[i]) == []) ==> r == []
    decreases |outcomes|
  {
    if |outcomes| == 0 then [] else Contribution(outcomes[0]) + Fuse(outcomes[1..])
  }

  /** Fusing two groups of providers is fusing each and concatenating, first group first. */
  lemma {:induction false} FuseInDeclaredOrder(a: seq<Settled<seq<Doc>>>, b: seq<Settled<seq<Doc>>>)
    ensures Fuse(a + b) == Fuse(a) + Fuse(b)
    decreases |a|
  {
    if |a| == 0 {
      assert a + b == b;
    } else {
      assert (a + b)[1..] == a[1..] + b;
      FuseInDeclaredOrder(a[1..], b);
    }
  }

  /** Fusing one fulfilled outcome ahead of others puts its list first. */
  lemma FuseCons(d: seq<Doc>, rest: seq<Settled<seq<Doc>>>)
    ensures Fuse([Fulfilled(d)] + rest) == d + Fuse(rest)
  {
    assert ([Fulfilled(d)] + rest)[1..] == rest;
  }

  lemma Reassociate(g: seq<Doc>, b: seq<Doc>, c: seq<Doc>, e: seq<Doc>, y: seq<Doc>)
    ensures g + (b + (c + (e + y))) == g + b + c + e + y
  {
    assert c + (e + y) == c + e + y;
    assert b + (c + e + y) == b + c + e + y;
  }

  /** Five fulfilled outcomes fuse to their lists, in order. */
  lemma FuseFive(g: seq<Doc>, b: seq<Doc>, c: seq<Doc>, e: seq<Doc>, y: seq<Doc>)
    ensures Fuse([Fulfilled(g), Fulfilled(b), Fulfilled(c), Fulfilled(e), Fulfilled(y)]) == g + b + c + e + y
  {
    FuseCons(y, []);
    FuseCons(e, [Fulfilled(y)]);
    FuseCons(c, [Fulfilled(e), Fulfilled(y)]);
    FuseCons(b, [Fulfilled(c), Fulfilled(e), Fulfilled(y)]);
    FuseCons(g, [Fulfilled(b), Fulfilled(c), Fulfilled(e), Fulfilled(y)]);
    assert [Fulfilled(g), Fulfilled(b), Fulfilled(c), Fulfilled(e), Fulfilled(y)]
           == [Fulfilled(g)] + [Fulfilled(b), Fulfilled(c), Fulfilled(e), Fulfilled(y)];
    assert y + Fuse([]) == y;
    Reassociate(g, b, c, e, y);
  }

  /** Before filtering, the candidates are Google's, then BBC's, CNN's, El País's and YouTube's. */
  lemma FuseOfProviders(p: Pages)
    ensures Fuse(Outcomes(p)) ==
              SearchGoogleNews(p.google) + SearchBBC(p.bbc) + SearchCNN(p.cnn)
              + SearchElPais(p.elPais) + SearchYouTube(p.youTube)
  {
    FuseFive(SearchGoogleNews(p.google), SearchBBC(p.bbc), SearchCNN(p.cnn),
             SearchElPais(p.elPais), SearchYouTube(p.youTube));
  }

  /** The document mentions one of the interests: its lower-cased `title + " " + snippet`
      contains some lower-cased interest. */
  predicate Relevant(d: Doc, interests: seq<string>) {
    exists k :: 0 <= k < |interests| && Contains(Lower(d.title + " " + d.snippet), Lower(interests[k]))
  }

  /** `filterByInterests`: no interests keeps everything; otherwise exactly the relevant
      documents are kept, every copy of each, in their original order. */
  function FilterByInterests(docs: seq<Doc>, interests: seq<string>): (r: seq<Doc>)
    ensures |interests| == 0 ==> r == docs
    ensures |interests| > 0 ==> forall i :: 0 <= i < |r| ==> Relevant(r[i], interests) && r[i] in docs
    ensures |interests| > 0 ==> forall i :: 0 <= i < |docs| && Relevant(docs[i], interests) ==> docs[i] in r
    ensures |interests| > 0 ==> forall d :: multiset(r)[d] == if Relevant(d, interests) then multiset(docs)[d] else 0
    ensures IsSubsequence(r, docs)
  {
    if |interests| == 0 then
      assert IsSubsequence(docs, docs) by { SubsequenceRefl(docs); }
      docs
    else Filter(docs, d => Relevant(d, interests))
  }

  /** How many articles precede position `|docs|`. */
  function CountArticles(docs: seq<Doc>): nat
    decreases |docs|
  {
    if |docs| == 0 then 0 else (if docs[0].kind == Article then 1 else 0) + CountArticles(docs[1..])
  }

  /** The image a capture assigns to `d`: present and non-empty (`if (screenshot)`). */
  predicate Captured(d: Doc, shots: Option<map<string, string>>) {
    shots.Some? && d.url in shots.value && shots.value[d.url] != ""
  }

  /** `captureScreenshotsForArticles` applied to the first `budget` articles of `docs`: those of
      them with a captured image get it as `imageUrl`; nothing else about any document changes. */
  function Enrich(docs: seq<Doc>, shots: Option<map<string, string>>, budget: nat): (r: seq<Doc>)
    ensures |r| == |docs|
    ensures forall i :: 0 <= i < |docs| ==> WithoutImage(r[i]) == WithoutImage(docs[i])
    ensures forall i :: 0 <= i < |docs| ==>
              if docs[i].kind == Article && CountArticles(docs[..i]) < budget && Captured(docs[i], shots)
              then r[i].imageUrl == Some(shots.value[docs[i].url])
              else r[i] == docs[i]
    decreases |docs|
  {
    if |docs| == 0 then []
    else
      var d := docs[0];
      var target := d.kind == Article && budget > 0;
      var rest := Enrich(docs[1..], shots, if target then budget - 1 else budget);
      var first := if target && Captured(d, shots) then d.(imageUrl := Some(shots.value[d.url])) else d;
      assert forall i :: 1 <= i < |docs| ==>
               docs[..i][0] == d && docs[..i][1..] == docs[1..][..i - 1] && docs[i] == docs[1..][i - 1];
      [first] + rest
  }

  /** The URLs handed to the capture service: those of the first five articles. */
  function CaptureTargets(docs: seq<Doc>): (r: seq<string>)
    ensures |r| <= MaxScreenshots
  {
    Map(Take(Filter(docs, (d: Doc) => d.kind == Article), MaxScreenshots), (d: Doc) => d.url)
  }

  /** The documents that survive interest filtering, before the cap. */
  function Selected(docs: seq<Doc>, interests: seq<string>): seq<Doc> {
    if |interests| > 0 then FilterByInterests(docs, interests) else docs
  }

  /** `searchNews` after the providers have settled: fuse, filter by interests when there are
      any, keep the first 15, then assign captured images to the first five articles. A throw
      anywhere in the block gives the empty list; there is no synthetic fallback. */
  function SearchNews(
    attempt: Attempt<seq<Settled<seq<Doc>>>>,
    interests: seq<string>,
    capture: seq<string> -> Option<map<string, string>>): (r: seq<Doc>)
    ensures attempt.Threw? ==> r == []
    ensures |r| <= MaxResults
    ensures attempt.Completed? ==>
              var kept := Take(Selected(Fuse(attempt.value), interests), MaxResults);
              |r| == |kept| && forall i :: 0 <= i < |r| ==> WithoutImage(r[i]) == WithoutImage(kept[i])
    ensures attempt.Completed? ==>
              var kept := Take(Selected(Fuse(attempt.value), interests), MaxResults);
              var shots := capture(CaptureTargets(kept));
              forall i :: 0 <= i < |r| ==>
                if kept[i].kind == Article && CountArticles(kept[..i]) < MaxScreenshots && Captured(kept[i], shots)
                then r[i].imageUrl == Some(shots.value[kept[i].url])
                else r[i] == kept[i]
    ensures |interests| > 0 ==> forall i :: 0 <= i < |r| ==> Relevant(r[i], interests)
  {
    match attempt
    case Threw => []
    case Completed(outcomes) =>
      var kept := Take(Selected(Fuse(outcomes), interests), MaxResults);
      SelectedRelevant(Fuse(outcomes), interests);
      var r := Enrich(kept, capture(CaptureTargets(kept)), MaxScreenshots);
      RelevanceKept(kept, r, interests);
      r
  }

  /** The documents kept from a selection are relevant whenever there are interests. */
  lemma SelectedRelevant(docs: seq<Doc>, interests: seq<string>)
    ensures |interests| > 0 ==>
              forall i :: 0 <= i < |Take(Selected(docs, interests), MaxResults)| ==>
                Relevant(Take(Selected(docs, interests), MaxResults)[i], interests)
  {
    var sel := Selected(docs, interests);
    assert forall i :: 0 <= i < |Take(sel, MaxResults)| ==> Take(sel, MaxResults)[i] == sel[i];
  }

  /** Relevance reads only the title and snippet, so a change of image keeps it. */
  lemma RelevanceKept(kept: seq<Doc>, r: seq<Doc>, interests: seq<string>)
    requires |r| == |kept| && forall i :: 0 <= i < |kept| ==> WithoutImage(r[i]) == WithoutImage(kept[i])
    requires |interests| > 0 ==> forall i :: 0 <= i < |kept| ==> Relevant(kept[i], interests)
    ensures |interests| > 0 ==> forall i :: 0 <= i < |r| ==> Relevant(r[i], interests)
  {
    forall i | 0 <= i < |r| ensures r[i].title == kept[i].title && r[i].snippet == kept[i].snippet {
      assert WithoutImage(r[i]) == WithoutImage(kept[i]);
    }
  }

  /** With no interests nothing is filtered, and filtering by an empty list is the identity
      anyway, so the guard around the filter changes nothing. */
  lemma SelectedIsFilter(docs: seq<Doc>, interests: seq<string>)
    ensures Selected(docs, interests) == FilterByInterests(docs, interests)
  {
  }

  /** When no provider yields anything the search yields nothing: no synthetic documents. */
  lemma NoSyntheticFallback(
    outcomes: seq<Settled<seq<Doc>>>,
    interests: seq<string>,
    capture: seq<string> -> Option<map<string, string>>)
    requires forall i :: 0 <= i < |outcomes| ==> outcomes[i].Rejected? || outcomes[i].value == []
    ensures SearchNews(Completed(outcomes), interests, capture) == []
  {
    assert forall i :: 0 <= i < |outcomes| ==> Contribution(outcomes[i]) == [];
  }
}

=== FILE: providers.dfy ===
/**
 * The shaping every provider scraper applies to what it extracted from a page: which
 * candidates are kept, how many, and how each becomes a document. The markup selectors and
 * the page download are outside the model; a page arrives here as the list of candidates
 * the selectors found, in page order.
 */
module Providers {
  import opened Wrappers
  import opened Seqs
  import opened Text
  import opened Documents

  /** One candidate element of a markup page: its trimmed headline, the `href` of its first
      link (`""` when absent), its trimmed first paragraph, the trimmed text around its
      timestamp (only Google News reads it) and the `src` of its first image. */
  datatype Card = Card(title: string, link: string, paragraph: string, byline: string, image: Option<string>)

  /** `if (title && link)`: only candidates with a headline and a link become documents. */
  predicate Usable(c: Card) {
    c.title != "" && c.link != ""
  }

  const GoogleNewsHost: string := "https://news.google.com"

  /** A Google News card: the snippet is the paragraph, or else the headline, cut to `limit`
      characters; the source is the timestamp's surrounding text, or else "Google News". */
  function GoogleDoc(c: Card, limit: nat): (d: Doc)
    ensures d.title == c.title && d.kind == Article && d.imageUrl == c.image
    ensures d.url == AbsoluteLink(c.link, GoogleNewsHost) && IsPrefix("http", d.url)
    ensures |d.snippet| <= limit
    ensures c.paragraph != "" ==> IsPrefix(d.snippet, c.paragraph) && |d.snippet| == Min(limit, |c.paragraph|)
    ensures c.paragraph == "" ==> IsPrefix(d.snippet, c.title) && |d.snippet| == Min(limit, |c.title|)
    ensures d.source != "" && (c.byline != "" ==> d.source == c.byline)
    ensures c.byline == "" ==> d.source == "Google News"
  {
    var text := if c.paragraph != "" then c.paragraph else c.title;
    Doc(c.title, AbsoluteLink(c.link, GoogleNewsHost), Take(text, limit),
        if c.byline != "" then c.byline else "Google News", c.image, None, Article)
  }

  /** A card of a named outlet (BBC, CNN, El País): the paragraph is cut to `limit` characters
      first and only then replaced by the headline when empty, so a headline used as snippet
      is not cut. */
  function OutletDoc(c: Card, host: string, source: string, limit: nat): (d: Doc)
    ensures d.title == c.title && d.kind == Article && d.imageUrl == c.image && d.source == source
    ensures d.url == AbsoluteLink(c.link, host)
    ensures |d.snippet| <= limit || d.snippet == c.title
    ensures c.title != "" ==> d.snippet != ""
    ensures c.paragraph != "" && limit > 0 ==> IsPrefix(d.snippet, c.paragraph) && |d.snippet| == Min(limit, |c.paragraph|)
    ensures c.paragraph == "" || limit == 0 ==> d.snippet == c.title
  {
    var cut := Take(c.paragraph, limit);
    Doc(c.title, AbsoluteLink(c.link, host), if cut != "" then cut else c.title, source, c.image, None, Article)
  }

  /** `$(selector).each((index, element) => { if (index >= cap) return false; ... })`: only the
      first `cap` candidates are looked at, and the usable ones among them are shaped, in order. */
  function Harvest(cards: seq<Card>, cap: nat, shape: Card -> Doc): (r: seq<Doc>)
    ensures |r| <= cap
    ensures |r| == CountIf(Take(cards, cap), Usable)
    ensures forall i :: 0 <= i < |r| ==> exists c :: c in Take(cards, cap) && Usable(c) && r[i] == shape(c)
    ensures forall c :: c in Take(cards, cap) && Usable(c) ==> shape(c) in r
  {
    var front := Take(cards, cap);
    var kept := Filter(front, Usable);
    FilterCount(front, Usable);
    var r := Map(kept, shape);
    Shaped(kept, front, shape, r);
    r
  }

  /** The scan's step: a card within the cap adds its document, when it is usable, after those
      of the cards before it; a card past the cap adds nothing. Together with the empty case
      this fixes the result's order and copies. */
  lemma HarvestSnoc(cards: seq<Card>, c: Card, cap: nat, shape: Card -> Doc)
    ensures Harvest([], cap, shape) == []
    ensures |cards| < cap ==>
              Harvest(cards + [c], cap, shape) == Harvest(cards, cap, shape) + (if Usable(c) then [shape(c)] else [])
    ensures |cards| >= cap ==> Harvest(cards + [c], cap, shape) == Harvest(cards, cap, shape)
  {
    if |cards| < cap {
      HarvestWithinCap(cards, c, cap, shape);
    } else {
      assert Take(cards + [c], cap) == Take(cards, cap);
    }
  }

  /** Below the cap, the new card's shaped document, when usable, goes after the others. */
  lemma HarvestWithinCap(cards: seq<Card>, c: Card, cap: nat, shape: Card -> Doc)
    requires |cards| < cap
    ensures Harvest(cards + [c], cap, shape) == Harvest(cards, cap, shape) + (if Usable(c) then [shape(c)] else [])
  {
    TakeAll(cards, cap);
    TakeAll(cards + [c], cap);
    var kept := Filter(cards, Usable);
    FilterSnoc(cards, c, Usable);
    MapSnoc(kept, if Usable(c) then [c] else [], shape);
    assert Map(if Usable(c) then [c] else [], shape) == if Usable(c) then [shape(c)] else [];
  }

  /** Shaping a selection of the usable cards of `front` that holds every one of them: each
      result comes from a usable card of `front`, and each such card is shaped into it. */
  lemma Shaped(kept: seq<Card>, front: seq<Card>, shape: Card -> Doc, r: seq<Doc>)
    requires forall i :: 0 <= i < |kept| ==> Usable(kept[i]) && kept[i] in front
    requires forall i :: 0 <= i < |front| && Usable(front[i]) ==> front[i] in kept
    requires |r| == |kept| && forall i :: 0 <= i < |kept| ==> r[i] == shape(kept[i])
    ensures forall i :: 0 <= i < |r| ==> exists c :: c in front && Usable(c) && r[i] == shape(c)
    ensures forall c :: c in front && Usable(c) ==> shape(c) in r
  {
    forall i | 0 <= i < |r| ensures exists c :: c in front && Usable(c) && r[i] == shape(c) {
      assert kept[i] in front && Usable(kept[i]) && r[i] == shape(kept[i]);
    }
    assert forall i :: 0 <= i < |r| ==> exists c :: c in front && Usable(c) && r[i] == shape(c);
    forall c | c in front && Usable(c) ensures shape(c) in r {
      var j :| 0 <= j < |front| && front[j] == c;
      var k :| 0 <= k < |kept| && kept[k] == c;
      assert r[k] == shape(c);
    }
  }

  /** One entry of a YouTube result section: a video renderer with its id, first title run,
      first owner-text run, first thumbnail and joined description runs (each `""` when
      absent), or anything else. */
  datatype VideoItem =
    | Renderer(videoId: string, title: string, channel: string, thumbnail: string, description: string)
    | Other

  /** `if (videoId && title)`. */
  predicate Playable(v: VideoItem) {
    v.Renderer? && v.videoId != "" && v.title != ""
  }

  const WatchPrefix: string := "https://www.youtube.com/watch?v="

  /** A playable video as a document: a watch URL built from the id, the description cut to
      `limit` characters, the channel after "YouTube - ", the first thumbnail as image. */
  function VideoDoc(v: VideoItem, limit: nat): (d: Doc)
    requires v.Renderer?
    ensures d.title == v.title && d.kind == Video
    ensures d.url == WatchPrefix + v.videoId && IsPrefix(WatchPrefix, d.url)
    ensures |d.snippet| <= limit && IsPrefix(d.snippet, v.description) && |d.snippet| == Min(limit, |v.description|)
    ensures d.source == "YouTube - " + v.channel && d.imageUrl == Some(v.thumbnail)
  {
    assert (WatchPrefix + v.videoId)[..|WatchPrefix|] == WatchPrefix;
    Doc(v.title, WatchPrefix + v.videoId, Take(v.description, limit), "YouTube - " + v.channel,
        Some(v.thumbnail), None, Video)
  }

  /** The playable videos of `items` as documents, in order. */
  function VideoDocs(items: seq<VideoItem>, limit: nat): (r: seq<Doc>)
    ensures |r| <= |items|
    ensures forall i :: 0 <= i < |r| ==> r[i].kind == Video && r[i].title != ""
    ensures forall i :: 0 <= i < |r| ==> IsPrefix(WatchPrefix, r[i].url) && |r[i].snippet| <= limit
    ensures forall d :: d in r <==>
              exists j :: 0 <= j < |items| && Playable(items[j]) && d == VideoDoc(items[j], limit)
    decreases |items|
  {
    if |items| == 0 then []
    else
      var rest := VideoDocs(items[1..], limit);
      assert forall j :: 1 <= j < |items| ==> items[j] == items[1..][j - 1];
      assert forall j :: 0 <= j < |items| - 1 ==> items[1..][j] == items[j + 1];
      if Playable(items[0]) then [VideoDoc(items[0], limit)] + rest else rest
  }

  /** One document per playable item. */
  lemma {:induction false} VideoDocsCount(items: seq<VideoItem>, limit: nat)
    ensures |VideoDocs(items, limit)| == CountIf(items, Playable)
    decreases |items|
  {
    if |items| > 0 {
      var init, x := items[..|items| - 1], items[|items| - 1];
      assert items == init + [x];
      VideoDocsCount(init, limit);
      VideoDocsAppend(init, [x], limit);
      assert [x][1..] == [];
      CountIfSnoc(init, x, Playable);
    }
  }

  lemma {:induction false} VideoDocsAppend(a: seq<VideoItem>, b: seq<VideoItem>, limit: nat)
    ensures VideoDocs(a + b, limit) == VideoDocs(a, limit) + VideoDocs(b, limit)
    decreases |a|
  {
    if |a| > 0 {
      assert (a + b)[1..] == a[1..] + b;
      VideoDocsAppend(a[1..], b, limit);
    } else {
      assert a + b == b;
    }
  }

  /** The result sections of a YouTube page, read one after the other. */
  function Flatten(sections: seq<seq<VideoItem>>): seq<VideoItem>
    decreases |sections|
  {
    if |sections| == 0 then [] else Flatten(sections[..|sections| - 1]) + sections[|sections| - 1]
  }

  /** What the YouTube scraper keeps: the first `cap` playable videos across all sections. */
  function YouTubeVideos(sections: seq<seq<VideoItem>>, cap: nat, limit: nat): (r: seq<Doc>)
    ensures |r| <= cap
    ensures forall i :: 0 <= i < |r| ==> r[i].kind == Video && r[i].title != ""
    ensures forall i :: 0 <= i < |r| ==> IsPrefix(WatchPrefix, r[i].url) && |r[i].snippet| <= limit
  {
    Take(VideoDocs(Flatten(sections), limit), cap)
  }

  /** One more item below the cap adds its document, when it is playable, to what is kept. */
  lemma CollectStep(seen: seq<VideoItem>, item: VideoItem, cap: nat, limit: nat)
    requires |VideoDocs(seen, limit)| < cap
    ensures Take(VideoDocs(seen + [item], limit), cap)
            == VideoDocs(seen, limit) + (if Playable(item) then [VideoDoc(item, limit)] else [])
  {
    VideoDocsAppend(seen, [item], limit);
    assert [item][1..] == [];
  }

  /** The YouTube scraper's nested loop: for every section, for every item, stop the inner loop
      once `cap` videos are collected, skip non-renderers and renderers without id or title.
      The early `break` only leaves the inner loop, yet the result is exactly the first `cap`
      playable videos. */
  method CollectVideos(sections: seq<seq<VideoItem>>, cap: nat, limit: nat) returns (videos: seq<Doc>)
    ensures videos == YouTubeVideos(sections, cap, limit)
  {
    videos := [];
    var i := 0;
    while i < |sections|
      invariant 0 <= i <= |sections|
      invariant videos == Take(VideoDocs(Flatten(sections[..i]), limit), cap)
    {
      assert sections[..i + 1][..i] == sections[..i];
      videos := CollectSection(Flatten(sections[..i]), sections[i], videos, cap, limit);
      i := i + 1;
    }
    assert sections[..i] == sections;
  }

  /** The inner loop over one section, given what the sections before it (`seen`) left. */
  method CollectSection(seen: seq<VideoItem>, items: seq<VideoItem>, start: seq<Doc>, cap: nat, limit: nat)
    returns (videos: seq<Doc>)
    requires start == Take(VideoDocs(seen, limit), cap)
    ensures videos == Take(VideoDocs(seen + items, limit), cap)
  {
    videos := start;
    var j := 0;
    assert seen + items[..0] == seen;
    while j < |items|
      invariant 0 <= j <= |items|
      invariant videos == Take(VideoDocs(seen + items[..j], limit), cap)
    {
      if |videos| >= cap {
        break;
      }
      var item := items[j];
      CollectStep(seen + items[..j], item, cap, limit);
      assert seen + items[..j + 1] == seen + items[..j] + [item];
      if item.Renderer? && item.videoId != "" && item.title != "" {
        videos := videos + [VideoDoc(item, limit)];
      }
      j := j + 1;
    }
    if j < |items| {
      VideoDocsAppend(seen + items[..j], items[j..], limit);
      assert seen + items[..j] + items[j..] == seen + items;
      TakeAppendSaturated(VideoDocs(seen + items[..j], limit), VideoDocs(items[j..], limit), cap);
    } else {
      assert items[..j] == items;
    }
  }
}

=== FILE: query_context.dfy ===
/** How both search services widen a query with the conversation so far. */
module QueryContext {
  import opened Text

  /** `context.slice(-2)`: the last two entries, or all of them when there are fewer. */
  function LastTwo(context: seq<string>): (r: seq<string>)
    ensures |r| == if |context| < 2 then |context| else 2
    ensures r == context[|context| - |r|..]
  {
    if |context| <= 2 then context else context[|context| - 2..]
  }

  /** `buildQueryWithContext`: the query alone when there is no context; otherwise the query,
      a space, and the last one or two context entries separated by a space. */
  function BuildQueryWithContext(query: string, context: seq<string>): (r: string)
    ensures |context| == 0 ==> r == query
    ensures |context| == 1 ==> r == query + " " + context[0]
    ensures |context| >= 2 ==> r == query + " " + context[|context| - 2] + " " + context[|context| - 1]
    ensures IsPrefix(query, r)
  {
    if |context| == 0 then query
    else
      var recent := LastTwo(context);
      assert |recent| == 2 ==> Join(recent, " ") == context[|context| - 2] + " " + context[|context| - 1] by {
        if |recent| == 2 {
          assert recent[1..] == [context[|context| - 1]];
          assert recent[0] == context[|context| - 2];
        }
      }
      query + " " + Join(recent, " ")
  }
}

=== FILE: search_node.dfy ===
/** One turn of the conversation: the `SearchNode` record and its small operations. */
module SearchNodes {
  import opened Wrappers

  /** A turn in the arena: `parent` and `children` are indices into the arena's node list.
      Rewards are whole numbers (the services only ever pass 0 or 1), so `score` is an `int`. */
  datatype Node = Node(
    query: string,
    context: seq<string>,
    parent: Option<nat>,
    children: seq<nat>,
    visits: nat,
    score: int)

  /** `isLeaf`: the node has no children. */
  predicate IsLeaf(n: Node) {
    |n.children| == 0
  }

  /** The node's score never exceeds its visit count nor drops below zero: what 0/1 rewards keep. */
  predicate Bounded(n: Node) {
    0 <= n.score <= n.visits
  }

  /** The `SearchNode` constructor: a fresh node is unvisited, unscored and childless. */
  function NewNode(query: string, context: seq<string>, parent: Option<nat>): (n: Node)
    ensures n.query == query && n.context == context && n.parent == parent
    ensures n.visits == 0 && n.score == 0
    ensures IsLeaf(n) && Bounded(n)
  {
    Node(query, context, parent, [], 0, 0)
  }

  /** `addChild`: the child goes last; earlier children and every other field stay as they were. */
  function AddChild(n: Node, child: nat): (r: Node)
    ensures |r.children| == |n.children| + 1
    ensures r.children[..|n.children|] == n.children && r.children[|n.children|] == child
    ensures !IsLeaf(r)
    ensures r.query == n.query && r.context == n.context && r.parent == n.parent
    ensures r.visits == n.visits && r.score == n.score
  {
    n.(children := n.children + [child])
  }

  /** `update(reward)`: one more visit and the reward added to the score; nothing else changes. */
  function Update(n: Node, reward: int): (r: Node)
    ensures r.visits == n.visits + 1 && r.score == n.score + reward
    ensures r.query == n.query && r.context == n.context
    ensures r.parent == n.parent && r.children == n.children
    ensures Bounded(n) && 0 <= reward <= 1 ==> Bounded(r)
  {
    n.(visits := n.visits + 1, score := n.score + reward)
  }

  /** `getAverageScore`: 0 for an unvisited node, otherwise score per visit; with 0/1 rewards
      the average is a fraction between 0 and 1. */
  function AverageScore(n: Node): (r: real)
    ensures n.visits == 0 ==> r == 0.0
    ensures n.visits > 0 ==> r * (n.visits as real) == n.score as real
    ensures Bounded(n) ==> 0.0 <= r <= 1.0
  {
    if n.visits > 0 then (n.score as real) / (n.visits as real) else 0.0
  }
}

=== FILE: seqs.dfy ===
/** Generic sequence helpers: prefixes, order-preserving filters and subsequences. */
module Seqs {

  function Min(a: int, b: int): int {
    if a <= b then a else b
  }

  /** JavaScript's `xs.slice(0, n)`: the first `n` elements, or all of them when there are fewer. */
  function Take<T>(xs: seq<T>, n: nat): (r: seq<T>)
    ensures |r| == Min(n, |xs|)
    ensures r == xs[..|r|]
  {
    if n <= |xs| then xs[..n] else xs
  }

  /** `a` can be obtained from `b` by deleting elements, keeping the order of the rest. */
  ghost predicate IsSubsequence<T>(a: seq<T>, b: seq<T>)
    decreases |b|
  {
    || |a| == 0
    || (&& |b| > 0
        && ((a[0] == b[0] && IsSubsequence(a[1..], b[1..])) || IsSubsequence(a, b[1..])))
  }

  /** JavaScript's `xs.filter(p)`: the passing elements in their order, every copy of a
      passing value kept and every copy of a failing one dropped. */
  function Filter<T(!new)>(xs: seq<T>, p: T -> bool): (r: seq<T>)
    ensures |r| <= |xs|
    ensures forall i :: 0 <= i < |r| ==> p(r[i]) && r[i] in xs
    ensures forall i :: 0 <= i < |xs| && p(xs[i]) ==> xs[i] in r
    ensures forall x :: multiset(r)[x] == if p(x) then multiset(xs)[x] else 0
    ensures IsSubsequence(r, xs)
    decreases |xs|
  {
    if |xs| == 0 then []
    else
      var rest := Filter(xs[1..], p);
      FilterStep(xs, p, rest);
      if p(xs[0]) then [xs[0]] + rest else rest
  }

  /** The filter's step: what the tail keeps, with the head in front when it passes, is what
      the whole sequence keeps. */
  lemma FilterStep<T(!new)>(xs: seq<T>, p: T -> bool, rest: seq<T>)
    requires |xs| > 0
    requires |rest| <= |xs[1..]|
    requires forall i :: 0 <= i < |rest| ==> p(rest[i]) && rest[i] in xs[1..]
    requires forall i :: 0 <= i < |xs[1..]| && p(xs[1..][i]) ==> xs[1..][i] in rest
    requires forall x :: multiset(rest)[x] == if p(x) then multiset(xs[1..])[x] else 0
    requires IsSubsequence(rest, xs[1..])
    ensures var r := if p(xs[0]) then [xs[0]] + rest else rest;
            && |r| <= |xs|
            && (forall i :: 0 <= i < |r| ==> p(r[i]) && r[i] in xs)
            && (forall i :: 0 <= i < |xs| && p(xs[i]) ==> xs[i] in r)
            && (forall x :: multiset(r)[x] == if p(x) then multiset(xs)[x] else 0)
            && IsSubsequence(r, xs)
  {
    assert forall i :: 1 <= i < |xs| ==> xs[i] == xs[1..][i - 1];
    FilterCopiesStep(xs, p, rest);
    if p(xs[0]) {
      assert ([xs[0]] + rest)[1..] == rest;
    }
  }

  /** The filter's step keeps the copy count: the head adds its one copy exactly when it passes. */
  lemma FilterCopiesStep<T(!new)>(xs: seq<T>, p: T -> bool, rest: seq<T>)
    requires |xs| > 0
    requires forall x :: multiset(rest)[x] == if p(x) then multiset(xs[1..])[x] else 0
    ensures var r := if p(xs[0]) then [xs[0]] + rest else rest;
            forall x :: multiset(r)[x] == if p(x) then multiset(xs)[x] else 0
  {
    MultisetCons(xs);
    var r := if p(xs[0]) then [xs[0]] + rest else rest;
    assert multiset(r) == (if p(xs[0]) then multiset{xs[0]} else multiset{}) + multiset(rest);
  }

  lemma MultisetCons<T>(xs: seq<T>)
    requires |xs| > 0
    ensures multiset(xs) == multiset{xs[0]} + multiset(xs[1..])
  {
    assert xs == [xs[0]] + xs[1..];
  }

  /** How many positions of `xs` hold an element that passes `p`. */
  ghost function CountIf<T>(xs: seq<T>, p: T -> bool): nat {
    |set i | 0 <= i < |xs| && p(xs[i])|
  }

  /** One more element at the end adds one to the count exactly when it passes. */
  lemma CountIfSnoc<T>(xs: seq<T>, x: T, p: T -> bool)
    ensures CountIf(xs + [x], p) == CountIf(xs, p) + (if p(x) then 1 else 0)
  {
    var ys := xs + [x];
    var before := set i | 0 <= i < |xs| && p(xs[i]);
    var after := set i | 0 <= i < |ys| && p(ys[i]);
    assert forall i :: 0 <= i < |xs| ==> ys[i] == xs[i];
    assert ys[|xs|] == x;
    assert after == before + (if p(x) then {|xs|} else {});
    assert |xs| !in before;
  }

  lemma AppendAssoc<T>(a: seq<T>, b: seq<T>, c: seq<T>)
    ensures a + (b + c) == (a + b) + c
  {
  }

  /** Filtering a sequence with one more element at the front. */
  lemma FilterCons<T(!new)>(x: T, xs: seq<T>, p: T -> bool)
    ensures Filter([x] + xs, p) == (if p(x) then [x] else []) + Filter(xs, p)
  {
    assert ([x] + xs)[0] == x && ([x] + xs)[1..] == xs;
  }

  /** Filtering a sequence with one more element at the end. */
  lemma {:induction false} FilterSnoc<T(!new)>(xs: seq<T>, x: T, p: T -> bool)
    ensures Filter(xs + [x], p) == Filter(xs, p) + (if p(x) then [x] else [])
    decreases |xs|
  {
    if |xs| == 0 {
      assert xs + [x] == [x] + xs;
      FilterCons(x, xs, p);
    } else {
      var h, t := xs[0], xs[1..];
      assert xs == [h] + t && xs + [x] == [h] + (t + [x]);
      var front, back, rest := (if p(h) then [h] else []), (if p(x) then [x] else []), Filter(t, p);
      FilterSnoc(t, x, p);
      FilterCons(h, t + [x], p);
      FilterCons(h, t, p);
      assert Filter(xs + [x], p) == front + (rest + back);
      assert Filter(xs, p) == front + rest;
      AppendAssoc(front, rest, back);
    }
  }

  /** The filter keeps one element per passing position. */
  lemma {:induction false} FilterCount<T(!new)>(xs: seq<T>, p: T -> bool)
    ensures |Filter(xs, p)| == CountIf(xs, p)
    decreases |xs|
  {
    if |xs| > 0 {
      var init, x := xs[..|xs| - 1], xs[|xs| - 1];
      assert xs == init + [x];
      FilterCount(init, p);
      FilterSnoc(init, x, p);
      CountIfSnoc(init, x, p);
    }
  }

  /** JavaScript's `xs.map(f)`. */
  function Map<T, U>(xs: seq<T>, f: T -> U): (r: seq<U>)
    ensures |r| == |xs|
    ensures forall i :: 0 <= i < |xs| ==> r[i] == f(xs[i])
  {
    seq(|xs|, i requires 0 <= i < |xs| => f(xs[i]))
  }

  /** Dropping `i` elements and then `j` more drops `i + j`. */
  lemma DropDrop<T>(s: seq<T>, i: nat, j: nat)
    requires i + j <= |s|
    ensures s[i..][j..] == s[i + j..]
  {
  }

  /** Dropping `i` elements and then taking `j` is the slice from `i` to `i + j`. */
  lemma DropTake<T>(s: seq<T>, i: nat, j: nat)
    requires i + j <= |s|
    ensures s[i..][..j] == s[i..i + j]
  {
  }

  /** A sequence is its first `k` elements followed by the rest. */
  lemma TakeDrop<T>(s: seq<T>, k: nat)
    requires k <= |s|
    ensures s == s[..k] + s[k..]
  {
  }

  /** Taking at least as many elements as there are keeps them all. */
  /** Mapping distributes over concatenation. */
  lemma MapSnoc<T, U>(xs: seq<T>, ys: seq<T>, f: T -> U)
    ensures Map(xs + ys, f) == Map(xs, f) + Map(ys, f)
  {
  }

  lemma TakeAll<T>(xs: seq<T>, n: nat)
    requires |xs| <= n
    ensures Take(xs, n) == xs
  {
    assert xs[..|xs|] == xs;
  }

  /** Taking from a longer sequence only looks at its first `n` elements. */
  lemma TakeAppendSaturated<T>(xs: seq<T>, ys: seq<T>, n: nat)
    requires n <= |xs|
    ensures Take(xs + ys, n) == Take(xs, n)
  {
    assert (xs + ys)[..n] == xs[..n];
  }
  /** The position of the first occurrence of `x` in `xs`. */
  function FirstIndex<T(==)>(xs: seq<T>, x: T): (i: nat)
    requires x in xs
    ensures i < |xs| && xs[i] == x && x !in xs[..i]
    decreases |xs|
  {
    if xs[0] == x then 0 else 1 + FirstIndex(xs[1..], x)
  }

  lemma {:induction false} FirstIndexInPrefix<T>(xs: seq<T>, ys: seq<T>, x: T)
    requires x in xs
    ensures FirstIndex(xs + ys, x) == FirstIndex(xs, x)
    decreases |xs|
  {
    if xs[0] != x {
      assert (xs + ys)[1..] == xs[1..] + ys;
      FirstIndexInPrefix(xs[1..], ys, x);
    }
  }

  /** `[...new Set(xs)]`: each element once, at the position of its first occurrence. */
  function Dedup<T(==)>(xs: seq<T>): (r: seq<T>)
    ensures forall i :: 0 <= i < |r| ==> r[i] in xs
    ensures forall i :: 0 <= i < |xs| ==> xs[i] in r
    ensures forall i, j :: 0 <= i < j < |r| ==> r[i] != r[j]
    ensures forall i, j :: 0 <= i < j < |r| ==>
              r[i] in xs && r[j] in xs && FirstIndex(xs, r[i]) < FirstIndex(xs, r[j])
    decreases |xs|
  {
    if |xs| == 0 then []
    else
      var init, x := xs[..|xs| - 1], xs[|xs| - 1];
      assert xs == init + [x];
      var r := Dedup(init);
      DedupSnoc(init, x, r);
      if x in r then r else r + [x]
  }

  /** `r` lists the distinct elements of `xs` in the order of their first occurrences. */
  ghost predicate DedupOf<T>(r: seq<T>, xs: seq<T>) {
    && (forall i :: 0 <= i < |r| ==> r[i] in xs)
    && (forall i :: 0 <= i < |xs| ==> xs[i] in r)
    && (forall i, j :: 0 <= i < j < |r| ==> r[i] != r[j])
    && (forall i, j :: 0 <= i < j < |r| ==>
          r[i] in xs && r[j] in xs && FirstIndex(xs, r[i]) < FirstIndex(xs, r[j]))
  }

  /** One more element at the end: kept when new, dropped when seen. */
  lemma DedupSnoc<T>(init: seq<T>, x: T, r: seq<T>)
    requires DedupOf(r, init)
    ensures DedupOf(if x in r then r else r + [x], init + [x])
  {
    var xs := init + [x];
    forall y | y in init ensures y in xs && FirstIndex(xs, y) == FirstIndex(init, y) < |init| {
      FirstIndexInPrefix(init, [x], y);
    }
    if x in r {
      DedupSnocSeen(init, x, r);
    } else {
      DedupSnocNew(init, x, r);
    }
  }

  lemma DedupSnocSeen<T>(init: seq<T>, x: T, r: seq<T>)
    requires DedupOf(r, init) && x in r
    requires forall y :: y in init ==> y in init + [x] && FirstIndex(init + [x], y) == FirstIndex(init, y)
    ensures DedupOf(r, init + [x])
  {
    var xs := init + [x];
    forall i | 0 <= i < |xs| ensures xs[i] in r {
      if i < |init| { assert xs[i] == init[i]; }
    }
  }

  lemma DedupSnocNew<T>(init: seq<T>, x: T, r: seq<T>)
    requires DedupOf(r, init) && x !in r
    requires forall y :: y in init ==> y in init + [x] && FirstIndex(init + [x], y) == FirstIndex(init, y) < |init|
    ensures DedupOf(r + [x], init + [x])
  {
    var xs, r' := init + [x], r + [x];
    assert x !in init;
    assert FirstIndex(xs, x) == |init| by {
      assert xs[..|init|] == init;
    }
    forall i | 0 <= i < |xs| ensures xs[i] in r' {
      if i < |init| { assert xs[i] == init[i]; }
    }
    forall i, j | 0 <= i < j < |r'|
      ensures r'[i] != r'[j] && r'[i] in xs && r'[j] in xs && FirstIndex(xs, r'[i]) < FirstIndex(xs, r'[j])
    {
      assert r'[i] == r[i] && r[i] in init;
      if j < |r| { assert r'[j] == r[j]; } else { assert r'[j] == x; }
    }
  }

  /** Filtering a list whose every element passes keeps the list. */
  lemma {:induction false} FilterAllPass<T(!new)>(xs: seq<T>, p: T -> bool)
    requires forall i :: 0 <= i < |xs| ==> p(xs[i])
    ensures Filter(xs, p) == xs
    decreases |xs|
  {
    if |xs| > 0 {
      FilterAllPass(xs[1..], p);
      assert xs == [xs[0]] + xs[1..];
    }
  }

  /** Every sequence is a subsequence of itself. */
  lemma {:induction false} SubsequenceRefl<T>(xs: seq<T>)
    ensures IsSubsequence(xs, xs)
    decreases |xs|
  {
    if |xs| > 0 { SubsequenceRefl(xs[1..]); }
  }

  /** A prefix of a subsequence is a subsequence. */
  lemma {:induction false} PrefixOfSubsequence<T>(p: seq<T>, a: seq<T>, b: seq<T>)
    requires p <= a && IsSubsequence(a, b)
    ensures IsSubsequence(p, b)
    decreases |b|
  {
    if |p| > 0 {
      if a[0] == b[0] && IsSubsequence(a[1..], b[1..]) {
        assert p[1..] <= a[1..] by { assert a[1..][..|p| - 1] == p[1..]; }
        PrefixOfSubsequence(p[1..], a[1..], b[1..]);
      } else {
        PrefixOfSubsequence(p, a, b[1..]);
      }
    }
  }
}

=== FILE: text.dfy ===
/**
 * The JavaScript string primitives the services rely on, over `seq<char>`:
 * `trim`, `toLowerCase`, `startsWith`/`endsWith`, `includes`, `join` and `split`.
 */
module Text {
  import opened Seqs

  /** The characters JavaScript's `trim` and the regular-expression class `\s` remove:
      WhiteSpace and LineTerminator, which include the byte-order mark U+FEFF. */
  predicate IsSpace(c: char) {
    || c == '\t' || c == '\n' || c == '\U{000B}' || c == '\U{000C}' || c == '\r' || c == ' '
    || c == '\U{00A0}' || c == '\U{1680}' || ('\U{2000}' <= c <= '\U{200A}')
    || c == '\U{2028}' || c == '\U{2029}' || c == '\U{202F}' || c == '\U{205F}'
    || c == '\U{3000}' || c == '\U{FEFF}'
  }

  predicate AllSpace(s: string) {
    forall i :: 0 <= i < |s| ==> IsSpace(s[i])
  }

  /** `s` has no removable space at either end. */
  predicate IsTrimmed(s: string) {
    |s| == 0 || (!IsSpace(s[0]) && !IsSpace(s[|s| - 1]))
  }

  // `s.trimStart()` (also `s.replace(/^\s*/, '')`): drops the maximal run of leading space.
  function TrimStart(s: string): (r: string)
    ensures |r| <= |s| && r == s[|s| - |r|..]
    ensures |r| == 0 || !IsSpace(r[0])
    ensures AllSpace(s[..|s| - |r|])
    decreases |s|
  {
    if |s| > 0 && IsSpace(s[0]) then TrimStart(s[1..]) else s
  }

  /** Trimming the start of a concatenation: once the first part holds a non-space, the
      second part is kept whole; otherwise the first part vanishes. */
  lemma {:induction false} TrimStartAppend(x: string, y: string)
    ensures TrimStart(x + y) == if TrimStart(x) == [] then TrimStart(y) else TrimStart(x) + y
    decreases |x|
  {
    if |x| == 0 {
      assert x + y == y;
    } else {
      assert (x + y)[0] == x[0] && (x + y)[1..] == x[1..] + y;
      if IsSpace(x[0]) { TrimStartAppend(x[1..], y); }
    }
  }

  /** A run of space trims to nothing. */
  lemma {:induction false} TrimStartOfSpace(w: string)
    requires AllSpace(w)
    ensures TrimStart(w) == []
    decreases |w|
  {
    if |w| > 0 { TrimStartOfSpace(w[1..]); }
  }

  /** `s.trimEnd()`: drops the maximal run of trailing space. */
  function TrimEnd(s: string): (r: string)
    ensures |r| <= |s| && r == s[..|r|]
    ensures |r| == 0 || !IsSpace(r[|r| - 1])
    ensures AllSpace(s[|r|..])
    decreases |s|
  {
    if |s| > 0 && IsSpace(s[|s| - 1]) then TrimEnd(s[..|s| - 1]) else s
  }

  /** `s.trim()`: the result has no space at either end, and a trimmed string is left alone. */
  function Trim(s: string): (r: string)
    ensures |r| <= |s|
    ensures IsTrimmed(r)
    ensures IsTrimmed(s) ==> r == s
    ensures AllSpace(s) <==> r == []
  {
    var t := TrimStart(s);
    assert |t| > 0 ==> !IsSpace(t[0]);
    var r := TrimEnd(t);
    assert AllSpace(s) ==> |t| == 0 by {
      if |t| > 0 { assert t[0] == s[|s| - |t|]; }
    }
    assert r == [] ==> |t| == 0;
    assert r == [] ==> AllSpace(s) by {
      if r == [] { assert s[..|s| - |t|] == s; }
    }
    r
  }

  /** `c.toLowerCase()` for the letters the model distinguishes: ASCII and Latin-1 capitals
      (which covers the accented Spanish capitals); every other character is left alone. */
  function LowerChar(c: char): char {
    if 'A' <= c <= 'Z' || ('\U{00C0}' <= c <= '\U{00DE}' && c != '\U{00D7}') then (c as int + 32) as char
    else c
  }

  /** `s.toLowerCase()`, character by character. */
  function Lower(s: string): (r: string)
    ensures |r| == |s|
    ensures forall i :: 0 <= i < |s| ==> r[i] == LowerChar(s[i])
    decreases |s|
  {
    if |s| == 0 then [] else [LowerChar(s[0])] + Lower(s[1..])
  }

  /** Lower-casing twice is lower-casing once. */
  lemma LowerIdempotent(s: string)
    ensures Lower(Lower(s)) == Lower(s)
  {
    forall i | 0 <= i < |s| ensures LowerChar(LowerChar(s[i])) == LowerChar(s[i]) {}
  }

  /** `s.startsWith(p)`. */
  predicate IsPrefix(p: string, s: string) {
    |p| <= |s| && s[..|p|] == p
  }

  /** `s.endsWith(p)`. */
  predicate IsSuffix(p: string, s: string) {
    |p| <= |s| && s[|s| - |p|..] == p
  }

  /** `s.includes(t)`: `t` occurs somewhere in `s`. */
  predicate Contains(s: string, t: string)
    decreases |s|
  {
    IsPrefix(t, s) || (|s| > 0 && Contains(s[1..], t))
  }

  /** Every string contains itself. */
  lemma ContainsSelf(s: string)
    ensures Contains(s, s)
  {
  }

  /** An occurrence survives text added in front. */
  lemma {:induction false} ContainsExtendLeft(a: string, b: string, t: string)
    requires Contains(b, t)
    ensures Contains(a + b, t)
    decreases |a|
  {
    if |a| > 0 {
      ContainsExtendLeft(a[1..], b, t);
      assert (a + b)[1..] == a[1..] + b;
      assert Contains((a + b)[1..], t);
    } else {
      assert a + b == b;
    }
  }

  /** An occurrence survives text added behind. */
  lemma {:induction false} ContainsExtendRight(a: string, c: string, t: string)
    requires Contains(a, t)
    ensures Contains(a + c, t)
    decreases |a|
  {
    if IsPrefix(t, a) {
      assert (a + c)[..|t|] == a[..|t|];
    } else {
      ContainsExtendRight(a[1..], c, t);
      assert (a + c)[1..] == a[1..] + c;
    }
  }

  /** The middle piece of a concatenation occurs in it. */
  lemma ContainsInfix(a: string, b: string, c: string)
    ensures Contains(a + b + c, b)
  {
    ContainsSelf(b);
    ContainsExtendRight(b, c, b);
    ContainsExtendLeft(a, b + c, b);
    assert a + b + c == a + (b + c);
  }

  /** The last piece of a concatenation occurs in it. */
  lemma ContainsEndOf(a: string, b: string)
    ensures Contains(a + b, b)
  {
    ContainsSelf(b);
    ContainsExtendLeft(a, b, b);
  }

  /** What a middle part contains, the whole contains. */
  lemma ContainsWithin(a: string, b: string, c: string, t: string)
    requires Contains(b, t)
    ensures Contains(a + b + c, t)
  {
    ContainsExtendRight(b, c, t);
    ContainsExtendLeft(a, b + c, t);
    assert a + b + c == a + (b + c);
  }

  /** `xs.join(sep)`. */
  function Join(xs: seq<string>, sep: string): string
    decreases |xs|
  {
    if |xs| == 0 then "" else if |xs| == 1 then xs[0] else xs[0] + sep + Join(xs[1..], sep)
  }

  /** The position of the first `c` in `s`. */
  function IndexOf(s: string, c: char): (i: nat)
    requires c in s
    ensures i < |s| && s[i] == c && c !in s[..i]
    decreases |s|
  {
    if s[0] == c then 0 else 1 + IndexOf(s[1..], c)
  }

  /** The position of the last `c` in `s`. */
  function LastIndexOf(s: string, c: char): (i: nat)
    requires c in s
    ensures i < |s| && s[i] == c && c !in s[i + 1..]
    decreases |s|
  {
    if s[|s| - 1] == c then |s| - 1 else LastIndexOf(s[..|s| - 1], c)
  }

  /** `s.split(sep)` for a one-character separator: the pieces between separators, empty ones included.
      Joining the pieces back with the separator gives `s` again. */
  function Split(s: string, sep: char): (r: seq<string>)
    ensures |r| >= 1
    ensures forall i :: 0 <= i < |r| ==> sep !in r[i]
    ensures Join(r, [sep]) == s
    decreases |s|
  {
    if sep in s then
      var i := IndexOf(s, sep);
      var rest := Split(s[i + 1..], sep);
      assert ([s[..i]] + rest)[1..] == rest;
      assert s == s[..i] + [sep] + s[i + 1..];
      [s[..i]] + rest
    else [s]
  }
  /** Every piece of a joined list can be found in the joined text. */
  lemma {:induction false} JoinContainsEach(xs: seq<string>, sep: string, i: nat)
    requires i < |xs|
    ensures Contains(Join(xs, sep), xs[i])
    decreases |xs|
  {
    if |xs| == 1 {
      ContainsSelf(xs[0]);
    } else if i == 0 {
      ContainsInfix("", xs[0], sep + Join(xs[1..], sep));
      assert "" + xs[0] + (sep + Join(xs[1..], sep)) == Join(xs, sep);
    } else {
      JoinContainsEach(xs[1..], sep, i - 1);
      ContainsExtendLeft(xs[0] + sep, Join(xs[1..], sep), xs[i]);
      assert xs[0] + sep + Join(xs[1..], sep) == (xs[0] + sep) + Join(xs[1..], sep);
    }
  }

  /** Splitting undoes joining when no piece holds the separator. */
  lemma {:induction false} SplitJoin(xs: seq<string>, sep: char)
    requires |xs| >= 1
    requires forall i :: 0 <= i < |xs| ==> sep !in xs[i]
    ensures Split(Join(xs, [sep]), sep) == xs
    decreases |xs|
  {
    if |xs| > 1 {
      var s := Join(xs, [sep]);
      var rest := Join(xs[1..], [sep]);
      assert s == xs[0] + [sep] + rest;
      assert s[|xs[0]|] == sep;
      assert s[..|xs[0]|] == xs[0];
      IndexOfAt(s, sep, |xs[0]|);
      assert s[|xs[0]| + 1..] == rest;
      SplitJoin(xs[1..], sep);
      assert Split(s, sep) == [xs[0]] + xs[1..];
    }
  }

  /** The first `c` is at `k` when `s[k]` is `c` and none comes before. */
  lemma {:induction false} IndexOfAt(s: string, c: char, k: nat)
    requires k < |s| && s[k] == c && c !in s[..k]
    ensures IndexOf(s, c) == k
    decreases k
  {
    if k > 0 {
      assert s[..k][0] == s[0];
      assert s[1..][..k - 1] == s[1..k];
      assert forall x :: x in s[1..k] ==> x in s[..k];
      IndexOfAt(s[1..], c, k - 1);
    }
  }

  lemma {:induction false} FirstAtOrBefore(s: string, c: char, i: nat)
    requires i < |s| && s[i] == c
    ensures c in s && IndexOf(s, c) <= i
    decreases |s|
  {
    if s[0] != c {
      FirstAtOrBefore(s[1..], c, i - 1);
    }
  }

  lemma {:induction false} LastAtOrAfter(s: string, c: char, j: nat)
    requires j < |s| && s[j] == c
    ensures c in s && j <= LastIndexOf(s, c)
    decreases |s|
  {
    if s[|s| - 1] != c {
      LastAtOrAfter(s[..|s| - 1], c, j);
    }
  }
}

=== FILE: wrappers.dfy ===
/** Failure-carrying datatypes shared by the whole model. */
module Wrappers {

  /** A value that may be absent: JavaScript's `undefined`/`null` alternatives. */
  datatype Option<+T> = None | Some(value: T) {

    /** The value, or `default` when absent (`x ?? default`). */
    function GetOr(default: T): T {
      match this
      case Some(v) => v
      case None => default
    }
  }

  /** The outcome of one task joined by `Promise.allSettled`. */
  datatype Settled<+T> = Fulfilled(value: T) | Rejected

  /** Whether a `try` block ran to completion or threw into its `catch`. */
  datatype Attempt<+T> = Completed(value: T) | Threw
}
